=== FILE: README.md ===
# DMM content pipeline: a Dafny model of its decision logic

The pipeline fetches product records from the DMM catalog API. For each record it:

- skips records it has already stored;
- uploads the record's images to an object store (Amazon S3, Supabase Storage or a MEGA drive);
- asks a language model for marketing text;
- writes one normalised row per `content_id`.

Two side tools complete it:

- a master-data sync that flattens the site → service → floor tree and inserts genres;
- a one-shot migration that copies a Supabase Storage bucket into a Storj bucket.

The decisions the Python code makes around these external services are deterministic and sequential. This project states them as pure functions and small methods and proves their properties. Each service call is an oracle parameter: the catalog API, the database, the storage clients, the MEGAcmd subprocesses, the OpenAI client and `json.loads`. Each adapter returns its answer together with the trace of external calls it made. A Python exception is the `Err` arm of a `Result` (`Wrappers.PyError` names the exception class).

Modules, leaf first:

| module | file | models |
|---|---|---|
| `Wrappers` | `wrappers.dfy` | `Option`, `Result` with Python's exception classes, and mapping a fallible step over a list |
| `Text` | `text.dfy` | the `str` operations the code relies on: `:02d`, `int()`, `split`, `strip`, `lower`, `find`, `replace` |
| `Json` | `json.dfy` | decoded JSON values with ordered dicts; `.get`, `[]`, `in`, `[0]`, iteration, `int()` and `float()` with their exact failure cases |
| `Price` | `price.dfy` | `parse_price` and `normalize_field` of the current repository |
| `Catalog` | `catalog.dfy` | `get_highest_resolution_movie` and the status check, filter and annotation of `fetch_items` |
| `Enrichment` | `enrichment.dfy` | fenced-JSON extraction, key defaulting, cast lines and the `\n` conversion of both `generate_content` revisions |
| `StorageKeys` | `storage_keys.dfy` | the `floor/cid/cid_NN.ext` key shape shared by all adapters |
| `StorageS3`, `StorageSupabase`, `StorageMega` | `storage_s3.dfy`, `storage_supabase.dfy`, `storage_mega.dfy` | the "exists ⇒ skip" upload adapters with their `""` failure sentinel, and MEGA's login/logout bracket |
| `Ingestion`, `LegacyIngestion` | `ingestion.dfy`, `ingestion_legacy.dfy` | both revisions of `insert_dmm_item` |
| `Master`, `GenreMaster` | `master.dfy`, `genre_master.dfy` | `sync_floor_master`, `sync_genre_master`, `main` of the master sync, and `insert_genres_to_master` |
| `Migration` | `migration.dfy` | `detect_mime`, `list_recursive`, `upload_storj` and `migrate` |

## Model

| member | source | states |
|---|---|---|
| Price.FirstNumber | db/trn_dmm_items_repository2.py:24-27 | there is no number exactly when the text has no digit; a number found is the value of the first maximal digit run |
| Price.ParsePrice | db/trn_dmm_items_repository2.py:21-27 | `None` and `""` give `None`; otherwise there is a number exactly when the text holds a digit, and it is the value of the first maximal digit run once the commas are removed |
| Price.CommaFreeDigits | db/trn_dmm_items_repository2.py:24 | removing commas neither adds nor removes digits |
| Price.FirstNumberOfEmbedded | db/trn_dmm_items_repository2.py:24-26 | a digit run after digit-free text and before a non-digit (or the end) is what the search finds, whatever follows it |
| Price.FirstNumberIsFirstRun | db/trn_dmm_items_repository2.py:24-26 | whenever the text has a first maximal digit run, the search returns that run's value |
| Price.GroupedWithoutCommas | db/trn_dmm_items_repository2.py:24 | a number printed with thousands separators becomes, without its commas, a digit string of the same value |
| Price.ParsePriceGroupedRoundTrip | db/trn_dmm_items_repository2.py:21-27 | a comma-grouped number after digit-free text and before anything that starts with neither a digit nor a comma parses back to the number |
| Price.ParsePriceIsFirstRun | db/trn_dmm_items_repository2.py:21-27 | whenever the comma-free text has a first maximal digit run, the price is that run's value |
| Price.ParsePriceRange | db/trn_dmm_items_repository2.py:24-26 | a range `1,000円～2,000円` gives its lower bound 1000 |
| Price.ParsePriceThousands | db/trn_dmm_items_repository2.py:24-26 | `"4,200"` parses to 4200 |
| Price.ParsePriceZeroIsNotMissing | db/trn_dmm_items_repository2.py:22-27 | `"0"` parses to 0, text without digits to `None`, and `""` and `None` to `None` |
| Price.ParsePriceJson | db/trn_dmm_items_repository2.py:21-24 | a falsy value gives `None`; a truthy value that is not a string raises on `replace`; a string is parsed |
| Price.NormalizeField | db/trn_dmm_items_repository2.py:32-33 | the result is `None` exactly for `None`, `[]` and `""`; every other value comes back unchanged |
| Price.NormalizeFieldIdempotent | db/trn_dmm_items_repository2.py:32-33 | normalising twice is normalising once |
| Price.LegacyPrice | db/trn_dmm_items_repository.py:56-57 | a missing key reads as `"0"`, which gives 0; a present text parses as `int` after the commas are removed, else ValueError; a present non-text value raises AttributeError; a prices value that is not a dict raises |
| Price.LegacyPriceAgreesOnGrouped | db/trn_dmm_items_repository.py:56-57 | both revisions read a comma-grouped price as the same number |
| Price.LegacyPriceRejectsDecorated | db/trn_dmm_items_repository.py:56 | the older revision raises `ValueError` on `"4,200~"` |
| Price.ParsePriceDecorated | db/trn_dmm_items_repository2.py:24-26 | the current revision reads 4200 out of `"4,200~"` |
| Ingestion.GenreLists | db/trn_dmm_items_repository2.py:98-101 | the names and ids are parallel lists with one entry per genre, in input order |
| Ingestion.Maker | db/trn_dmm_items_repository2.py:113-114 | the maker list is `maker` when truthy, else `manufacture` when truthy, else `[{}]`, which gives `None` |
| Ingestion.MakerFallback | db/trn_dmm_items_repository2.py:113-114 | with no maker, the manufacturer's name is used |
| Ingestion.UploadFrom | db/trn_dmm_items_repository2.py:58-66 | pages are uploaded in list order with indices `idx + 1`; the loop completes exactly when no upload raises; empty replies are never kept |
| Ingestion.NonEmpty | db/trn_dmm_items_repository2.py:62-66 | the kept paths hold no `""`, and every non-empty reply is kept |
| Ingestion.UploadKeepsSuccesses | db/trn_dmm_items_repository2.py:60-66 | when no upload raises, the kept paths are exactly the non-empty replies, in page order, so a failed page does not stop the others |
| Ingestion.ReadEarly | db/trn_dmm_items_repository2.py:83-101 | the sample-image and genre reads succeed only with `iteminfo` a dict, and they give that dict's genre lists |
| Ingestion.BuildRow | db/trn_dmm_items_repository2.py:105-153 | the row carries the content id and raw item, site, service and floor, the sample image lists of the early reads, the normalised genre lists, the parsed price and list price, the maker fallback, the first series name, the review count and average, both image URLs and both tachiyomi URLs as `.get` gives them, and the three generated texts; a falsy generator reply gives empty texts, and a truthy reply that is not a dict never gives a row; a prices value that is not a dict raises |
| Ingestion.PageList | db/trn_dmm_items_repository2.py:58-60 | a falsy page list uploads nothing |
| Ingestion.ItemReads | db/trn_dmm_items_repository2.py:108-147 | the values of the row that can raise: both prices parsed from `prices`, the maker fallback, the review, image and tachiyomi values as `.get` gives them, and the first series name; a prices value that is not a dict raises |
| Ingestion.AutoTexts | db/trn_dmm_items_repository2.py:148-150 | the three generated texts are `.get(key, "")` of the reply when it is a dict, empty for a falsy reply, and a truthy reply that is not a dict raises `AttributeError`, with the reply taken as `{}` when falsy (line 105) |
| Ingestion.NonDictReplyRaises | db/trn_dmm_items_repository2.py:148-150 | with a truthy reply that is not a dict, the row raises `AttributeError` wherever an empty reply would have given a row, and otherwise fails with the same earlier exception |
| Ingestion.RowFor | db/trn_dmm_items_repository2.py:83-153 | the row is built exactly when the early reads, the generator and the `data` dict all succeed, and the first exception among them is the result otherwise |
| Ingestion.AfterUploads | db/trn_dmm_items_repository2.py:83-156 | the generator is called exactly when the early reads succeed; the outcome is an insert exactly when the row can be built and the insert does not raise, and then the table gains exactly that row, after the calls generate and insert; a row that cannot be built fails with its exception, and a raising insert fails with a store error; any failure leaves the table unchanged |
| Ingestion.Register | db/trn_dmm_items_repository2.py:56-156 | after the query come the page uploads, in order; the generator follows exactly when no upload raised and the early reads succeed; the item is inserted exactly when the uploads, the row and the insert all succeed, and the table then gains exactly the built row |
| Ingestion.InsertDmmItem | db/trn_dmm_items_repository2.py:38-160 | the call skips exactly when the content id is falsy (with no call at all) or the query finds a row (after that one call); the item is inserted exactly when its id is truthy and new, the query, the uploads, the row and the insert all succeed, and the table then gains exactly the built row; any exception leaves the table unchanged |
| Ingestion.InsertKeepsIdsUnique | db/trn_dmm_items_repository2.py:49-52 | the duplicate check keeps content ids unique in the table |
| Ingestion.InsertIdempotent | db/trn_dmm_items_repository2.py:49-52 | a second call for an inserted item only queries and then skips |
| Catalog.Area | dmm/dmm_api.py:41-51 | an entry has an area only if its key starts with `size_`, its value is a string and the key splits into exactly three `_` parts; every other entry is skipped |
| Catalog.BestIndex | dmm/dmm_api.py:38-49 | after visiting `n` entries, the selected entry has a positive area, strictly larger than every earlier one and no smaller than every later one; nothing is selected exactly when no entry so far has a positive area |
| Catalog.BestStep | dmm/dmm_api.py:47-49 | one loop step keeps the winner, or replaces it with the entry just visited when that entry's area is strictly larger |
| Catalog.HighestResolution | dmm/dmm_api.py:31-53 | a non-dict gives `None`; a returned URL is the value of a winning `size_` entry |
| Catalog.BestIsUnique | dmm/dmm_api.py:47 | the strict `>` makes the winner unique, so on a tie the earlier key wins |
| Catalog.HighestResolutionIsWinner | dmm/dmm_api.py:31-53 | when some entry is the winner, the function returns exactly that entry's URL |
| Catalog.HighestResolutionNone | dmm/dmm_api.py:38-53 | the result is `None` exactly when no entry has a positive area |
| Catalog.AreaOfSizeKey | dmm/dmm_api.py:42-46 | a key `size_W_H` with integer parts and a string value has area `int(W) * int(H)` |
| Catalog.HighestResolutionExample | dmm/dmm_api.py:44-49 | `size_720_480` beats `size_560_360` |
| Catalog.SampleImages | dmm/dmm_api.py:96 | the chained `.get` raises on a non-dict item and gives `[]` when `sampleImageURL` is missing |
| Catalog.Annotate | dmm/dmm_api.py:99-100 | the item gains `sampleMovieURL_highest` (the best trailer URL, or `None`) and `campaign_data` (its `campaign`, or `None`) |
| Catalog.Visit | dmm/dmm_api.py:94-102 | an item is kept, annotated, exactly when its sample-image value is a list; the lookup's exception propagates |
| Catalog.FilterItems | dmm/dmm_api.py:93-106 | the pass keeps at most one output per input, only dicts, and succeeds only if every item's lookup succeeds |
| Catalog.FilterItemsConcat | dmm/dmm_api.py:93-102 | the pass distributes over concatenation: kept items stay in input order, and the first failure decides the error |
| Catalog.FilterOne | dmm/dmm_api.py:96-102 | a single item comes back annotated when its image value is a list, and is dropped otherwise |
| Catalog.NoImagesStillKept | dmm/dmm_api.py:96-104 | an item with no sample images is still kept, because `min_sample_count` filters nothing |
| Catalog.FetchItems | dmm/dmm_api.py:83-106 | a status other than 200 raises before any item is read (the API error for a text message, a type error for any other message, since the message is concatenated to a string); otherwise the result is the filter pass over `result["items"]` |
| Catalog.FetchItemsRejected | dmm/dmm_api.py:85-87 | a rejected reply without a message raises the API error with the default text; an integer or null message raises a type error instead |
| Enrichment.FencedBlock | openai_api/content_generator.py:57-58 | the block is the text after the first fence, up to the next fence, and contains no fence |
| Enrichment.ExtractFromContent | openai_api/content_generator.py:56-60 | a reply without a fence is used as is |
| Enrichment.FencedBetween | openai_api/content_generator.py:57-58 | in `pre ```block``` post`, with no backtick in `pre` or `block`, the first fence follows `pre` and its block is `block` |
| Enrichment.FenceRoundTrip | openai_api/content_generator.py:56-60 | an untagged fenced body is extracted exactly |
| Enrichment.FenceJsonTag | openai_api/content_generator.py:59-60 | a `json`-tagged fenced body is extracted without the tag and stripped |
| Enrichment.FenceUnclosed | openai_api/content_generator.py:57-58 | an unclosed fence yields everything after it |
| Enrichment.PromptFacts | openai_api/content_generator.py:11-18 | the reads before the `try` raise on a non-dict item; the genres are the `name` of each genre entry; a missing maker or series gives `""` |
| Enrichment.Shape | openai_api/content_generator.py:62-76 | the result has exactly the three keys, in order, each taken from the parsed dict with `""` as default; anything but a dict gives the empty defaults |
| Enrichment.GenerateContent | openai_api/content_generator.py:10-76 | it raises exactly when the pre-`try` reads raise; otherwise it returns the three keys, with the defaults when the model call fails |
| Enrichment.GeneratedIsTruthy | openai_api/content_generator.py:64-76 | the returned dict is never empty |
| Enrichment.DraftGenres | openai_api/test.py:19 | the comprehension keeps at most one name per entry |
| Enrichment.DraftGenresOfDicts | openai_api/test.py:19 | on a list of dicts it never raises and keeps exactly the names of the dicts that have one, in order |
| Enrichment.DraftGenresRejectsNameString | openai_api/test.py:19 | a string entry containing `name` passes the `in` test as a substring and then raises on `.get` |
| Enrichment.TruthyNames | openai_api/test.py:31-32 | it succeeds exactly on lists of dicts and then equals the in-order list of truthy `name` values |
| Enrichment.JoinNames | openai_api/test.py:37-39 | the join succeeds exactly when every name is a string, and then is the names separated by `", "` |
| Enrichment.JoinWithCons | openai_api/test.py:37 | joining a name before a non-empty list puts the separator between it and the rest |
| Enrichment.NamesLine | openai_api/test.py:36-39 | an empty list gives no line; otherwise it succeeds exactly on strings and the line is the label, the joined names and a newline |
| Enrichment.CastInfo | openai_api/test.py:35-39 | it succeeds exactly when each non-empty list holds only strings; it is the cast line (if any actresses) followed by the director line (if any directors), each the label, the names joined by `", "` and a newline; it is empty exactly when both lists are empty |
| Enrichment.DraftPromptFacts | openai_api/test.py:17-39 | the maker comes from `maker`, else the first name under `manufacture`, else `""`; a missing `html_summary` gives the placeholder; the genres come from the draft comprehension; the cast text is the cast line of the truthy `iteminfo.actress` names followed by the director line of the truthy `iteminfo.director` names, each list defaulting to `[]` |
| Enrichment.CastOfInfo | openai_api/test.py:25-39 | the cast text succeeds exactly when both lists iterate, every truthy-name read works and each non-empty name list is all strings; its value is the cast and director lines of those names |
| Enrichment.ConvertKey | openai_api/test.py:115-117 | on a dict, only the value under the key changes, and only when it is a string; the keys stay as they were; on anything else it succeeds exactly when the key test is false |
| Enrichment.ConvertAll | openai_api/test.py:115-117 | on a dict, the three texts are unescaped and every other key keeps its value; on anything else it succeeds exactly when none of the three keys tests as present |
| Enrichment.DraftShape | openai_api/test.py:112-123 | a parse failure gives the defaults; a parsed dict keeps exactly its own keys, with the three texts converted and every other value unchanged; a parsed non-dict comes back as is when none of the three keys tests present, else the defaults |
| Enrichment.DraftGenerateContent | openai_api/test.py:16-123 | it raises exactly when the pre-`try` reads raise; otherwise it gives the defaults on a failed call, or the parse of the reply shaped as DraftShape states |
| Enrichment.DraftLeavesNoEscapes | openai_api/test.py:114-117 | after the conversion, none of the three texts holds a literal backslash-n |
| Enrichment.DraftAddsNoKeys | openai_api/test.py:119 | a key missing from the parsed dict stays missing, because no defaults are added |
| StorageKeys.LastIndex | db/storageS3_3.py:38 | the index found holds the character and no later position does; `None` means the character does not occur |
| StorageKeys.Ext | db/storageS3_3.py:38 | the extension is a suffix of the path that is empty or starts with its only dot and holds no `/` |
| StorageKeys.ExtOfFileName | db/storageS3_3.py:38 | a file name `stem.x` whose stem ends in an ordinary character has the extension `.x`, whatever the directories before it |
| StorageKeys.ExtExample | db/storageS3_3.py:38 | the extension of `temp/page_1.png` is `.png` |
| StorageKeys.FileNameInjective | db/storageS3_3.py:38 | the file name `content_id_NN<ext>` determines the index and the extension |
| StorageKeys.S3KeyInjective | db/storageS3_3.py:38-39 | within one item's folder, an S3 key determines the index and the extension |
| StorageKeys.MegaPathInjective | db/storageMega.py:95-96 | within one item's folder, a MEGA path determines the index and the extension |
| StorageKeys.StoragePathInjective | db/storage.py:10-11 | distinct indices give distinct Supabase paths |
| StorageKeys.S3KeyExample | db/storageS3_3.py:38-39 | index 3 of item `X1` on floor `comic` gets the key `comic/X1/X1_03.jpg` |
| StorageS3.Publish | db/storageS3_3.py:42-65 | the probe comes first; an upload is made exactly when the probe answers 404, and then as the second call; a URL is returned exactly when the key was found or uploaded and the presign succeeded, and that key is then in the bucket; another probe error gives `""` |
| StorageS3.Uploaded | db/storageS3_3.py:50-53 | after a 404 the upload is the second call, and it adds the key to the bucket unless it raises |
| StorageS3.UploadLocalImage | db/storageS3_3.py:33-65 | a missing local file gives `""` with no S3 call; otherwise the key is `floor/cid/cid_NN<ext>` with the local file's extension |
| StorageS3.UploadImage | db/storageS3_3.py:70-104 | the download comes first and a failed download gives `""` before any key is touched; otherwise the key always ends in `.jpg` |
| StorageS3.UploadLocalIdempotent | db/storageS3_3.py:42-45 | uploading the same file again against the bucket the first run left makes no upload and leaves the bucket unchanged |
| StorageS3.UploadImageIdempotent | db/storageS3_3.py:82-85 | uploading the same URL again against the bucket the first run left makes no upload and leaves the bucket unchanged |
| StorageS3.DistinctIndicesDistinctKeys | db/storageS3_3.py:38-39 | two images of one item with different indices land on different keys |
| StorageSupabase.UploadImageToStorage | db/storage.py:5-30 | the path is `""` or `cid/cid_NN.jpg`; it is `""` exactly when the download or listing fails, or the upload of a new file raises; an upload happens exactly when the file is not yet listed; a returned path is in the bucket |
| StorageSupabase.UploadIdempotent | db/storage.py:15-18 | a second upload of the same image returns the same path without uploading, and leaves the bucket unchanged |
| StorageMega.MegaLogin | db/storageMega.py:68-76 | missing credentials raise `ValueError` before any subprocess; otherwise exactly one login runs; it succeeds exactly with credentials and a working command for the current session state (fresh or nested); afterwards a session is open when it succeeded, and the state is unchanged when it raised |
| StorageMega.MegaLogout | db/storageMega.py:81-84 | exactly one logout runs; it raises exactly when the command fails for the current session state (closing or idle); a working logout leaves no session open, a failing one leaves the state as it was |
| StorageMega.UploadLocal | db/storageMega.py:89-112 | a missing file gives `""` with no subprocess; otherwise exactly one put to `/floor/cid/cid_NN<ext>`; that path is returned exactly when the put succeeds, and it is then on the drive; nothing escapes |
| StorageMega.Finally | db/storageMega.py:136-137 | the logout is appended once, as the last call; a failing logout replaces the outcome with its own exception; the session stays open only when a failing logout met an open one |
| StorageMega.LocalRepliesAt | db/storageMega.py:125-127 | reply `j` of the list loop is the upload of `files[j]` under index `j + 1` |
| StorageMega.UploadEach | db/storageMega.py:125-127 | the list loop answers one reply per file, numbered from 1, never logs out, and never removes anything from the drive |
| StorageMega.LocalBody | db/storageMega.py:124-135 | the `try` body never logs out; a list gives one reply per file, a string is uploaded once with index 1, anything else gives `[]` |
| StorageMega.UploadFilesLocal | db/storageMega.py:118-137 | logout is the last call and runs exactly once on every path, even when login raises; the batch succeeds exactly with credentials, a login that works in the current session state and a working closing logout; a list gives one entry per file, a string is uploaded once with index 1, anything else gives `[]`; the session stays open only when the logout fails |
| StorageMega.UploadFilesLocalPaths | db/storageMega.py:124-127 | entry `i` is `/floor/cid/cid_NN<ext>` for `NN = i + 1` when that file exists and its put succeeds, and `""` otherwise |
| StorageMega.TempNameExt | db/storageMega.py:143-154 | the temp file `temp_cid_NN.jpg` has the extension `.jpg`, so the URL variant always uploads under `.jpg` |
| StorageMega.ImageBody | db/storageMega.py:144-160 | the `try` body never logs out; it answers the `.jpg` path exactly when its own login (fresh or nested), download and put all succeed, and `""` otherwise; it adds at most the temp file; a session is open afterwards when one was before or the login worked |
| StorageMega.UploadImage | db/storageMega.py:142-169 | the temp file is gone afterwards; the logout runs once as the last call, and its failure is swallowed; the reply is that of the body; a session stays open only when the logout fails |
| StorageMega.SessionAfterUploads | db/storageMega.py:142-169 | after one or more URL uploads a session is open exactly when the closing logout fails and a session was open before or a fresh login works |
| StorageMega.ImageRepliesAt | db/storageMega.py:179-181 | reply `j` of the URL loop is the upload of `urls[j]` under index `j + 1`, made in the session state the uploads before it left |
| StorageMega.UploadImages | db/storageMega.py:179-181 | the URL loop answers one reply per URL, numbered from 1, threads the session state through the uploads, and never removes anything from the drive |
| StorageMega.UploadFilesBuffer | db/storageMega.py:174-185 | the batch ends with a logout; it succeeds exactly with credentials, an outer login that works in the starting session state, a working closing logout and, when there is at least one URL, a logout that works with no session open, since the inner uploads have closed it; it then gives one entry per URL |
| StorageMega.UploadFilesBufferPaths | db/storageMega.py:176-181 | entry `i` is the `.jpg` path of index `i + 1` when that upload's own login works, the URL downloads and its put succeeds, and `""` otherwise; the first upload logs in inside the open outer session, each later one logs in afresh |
| LegacyIngestion.StoreFrom | db/trn_dmm_items_repository.py:32-35 | the bucket only grows, and only by `cid/cid_NN.jpg` paths of the visited indices; every kept path is in the bucket and non-empty, and at most one is kept per image |
| LegacyIngestion.PathsFromAt | db/trn_dmm_items_repository.py:32-33 | entry `j - k` of the expected path list is the path of image `j`, which is uploaded with index `j + 1` |
| LegacyIngestion.StoreAllSucceed | db/trn_dmm_items_repository.py:32-35 | when every download succeeds and the bucket answers, the kept paths are exactly `cid/cid_NN.jpg` for `NN` = 1..n, in list order |
| LegacyIngestion.StoreAgainAddsNothing | db/trn_dmm_items_repository.py:32-35 | running the loop again over a bucket that already holds every path uploads nothing and leaves the bucket unchanged |
| LegacyIngestion.SampleImages | db/trn_dmm_items_repository.py:29 | a `sampleImageURL` that is not a dict raises |
| LegacyIngestion.Prices | db/trn_dmm_items_repository.py:56-57 | both prices convert, or the first conversion error is raised |
| LegacyIngestion.SeriesAndMaker | db/trn_dmm_items_repository.py:61-62 | an empty maker list raises, because this revision has no fallback to the manufacturer |
| LegacyIngestion.BuildRow | db/trn_dmm_items_repository.py:27-64 | the row carries the content id and raw item and both converted prices; its genre names and ids are the parallel lists of the genre list, in order; its review average is `float()` of `average`, read as 0 when missing; series and maker come from `iteminfo`; an `iteminfo` or `review` that is not a dict raises `AttributeError` |
| LegacyIngestion.MissingAverageIsZero | db/trn_dmm_items_repository.py:50 | a review without `average` gives the average 0.0 |
| LegacyIngestion.InsertDmmItem | db/trn_dmm_items_repository.py:15-67 | the call skips exactly for a falsy content id or a stored row, with the table and bucket untouched; the bucket never shrinks; the item is inserted exactly when its id is truthy and new and the query, the sample-image read, the row and the insert all succeed; the table then gains exactly the built row with `sample_images` set to the paths the image loop kept, each of which is in the bucket |
| LegacyIngestion.InsertKeepsIdsUnique | db/trn_dmm_items_repository.py:21-25 | the duplicate check keeps content ids unique in the table |
| LegacyIngestion.InsertRecordsEveryImage | db/trn_dmm_items_repository.py:29-55 | when every step succeeds, the row's `sample_images` is `cid/cid_NN.jpg` for `NN` = 1..n, in list order |
| LegacyIngestion.InsertIdempotent | db/trn_dmm_items_repository.py:21-25 | a second call for an inserted item only queries and then skips |
| LegacyIngestion.FailedRowLeavesImages | db/trn_dmm_items_repository.py:32-66 | when the row cannot be built, the exception escapes after every image was copied, and the images stay in the bucket with no row |
| Master.FloorRowOf | main_create_master.py:99-107 | a floor row exists exactly when the floor is a dict whose `id` converts to an int; it carries that int, the floor's name and code, and its parents' names and codes |
| Master.FlattenFloors | main_create_master.py:98-107 | one row per floor, in order, each being that floor's row; the loop fails exactly when some floor's row fails |
| Master.FlattenServices | main_create_master.py:97-107 | the rows are, one for one, the floor rows of the reference order that lists each service's floors in turn, so row `i` is built from floor `i` of that order with its own site and service; every row carries its site's name and code |
| Master.FlattenSites | main_create_master.py:96-107 | the rows are, one for one, the floor rows of the site → service → floor nesting order, each built from its floor with its own site and service; the row count is the total number of floors |
| Master.Tag | main_create_master.py:98-106 | tagging a service's floors pairs each floor, in order, with the same site and service |
| Master.ServicesStep | main_create_master.py:97-107 | one service's rows followed by rows matching the later services match the reference order from that service on, and all carry the site's name and code |
| Master.RowsConcat | main_create_master.py:96-99 | rows that match two reference lists one for one still match after both are concatenated |
| Master.SyncFloorMaster | main_create_master.py:70-114 | a failed request or an empty site list returns with no upsert; when the site list reads, iterates and flattens, exactly the flattened floor rows are sent, and a raising upsert is only recorded; the call raises exactly when one of those reads fails |
| Master.FloorUpsertFailureContained | main_create_master.py:111-114 | a raising upsert changes neither whether the sync succeeds nor the rows it sent |
| Master.FlattenExample | main_create_master.py:94-107 | one site with one service and two floors flattens to two rows in floor order; the string id `"1"` becomes the int 1 |
| Master.SingleSite | main_create_master.py:96-97 | a single site contributes exactly the rows of its services |
| Master.SingleService | main_create_master.py:97-98 | a single service contributes exactly the rows of its floors |
| Master.GenreRowOf | main_create_master.py:144-149 | a genre row exists exactly when `genre_id` (converted to int), `name` and `ruby` can all be read; the row carries them and the given floor id |
| Master.GenreRows | main_create_master.py:142-149 | one row per genre, in order, each tagged with the floor id; the first malformed genre raises |
| Master.SyncGenreMaster | main_create_master.py:117-156 | a failed request or an empty genre list returns with no upsert; when the genre list reads, iterates and converts, exactly the converted genre rows, each with the given floor id, are sent, and a raising upsert is only recorded; the call raises exactly when one of those reads fails |
| Master.ScanFrom | main_create_master.py:170-171 | the loop reaches the floor ids in order, and stops exactly at the first row whose `floor_id` cannot be read |
| Master.Main | main_create_master.py:159-178 | a failed select is logged with nothing synced; otherwise each reached floor is synced exactly once, in order, and the outer handler sees only a missing `floor_id` |
| Master.FloorsSyncedRegardless | main_create_master.py:172-175 | which floors are synced, and whether the loop ends early, does not depend on any genre request or upsert |
| Master.FailureIsIsolated | main_create_master.py:172-175 | a failing floor does not stop the floors after it |
| GenreMaster.EntryOf | dmm/genre.py:3-4 | the read succeeds exactly when both `g["id"]` and `g["name"]` can be read; a failing `id` read raises its own error first |
| GenreMaster.InsertGenres | dmm/genre.py:1-7 | the table only grows by the inserted entries, each of whose ids was absent when its genre was checked; every handled genre's id is then present; the inserts follow input order; the loop stops exactly at the first unreadable genre, with its error |
| GenreMaster.FreshInsertsAreNew | dmm/genre.py:5-7 | no inserted id was already in the table, and an id repeated in the input is inserted at most once |
| GenreMaster.InsertedComeFromInput | dmm/genre.py:2-7 | every inserted entry is the entry of one of the handled genres |
| GenreMaster.IdsAfterwards | dmm/genre.py:2-7 | afterwards the table's ids are exactly the old ids plus the ids of the handled genres |
| GenreMaster.InsertedAlreadyPresent | dmm/genre.py:5-7 | after a complete run, every id a later run would insert is already in the table |
| GenreMaster.SecondRunInsertsNothing | dmm/genre.py:5-7 | running the loop again over the same genres inserts nothing and leaves the table unchanged |
| Migration.MimeOf | main_supabase2storj.py:62-68 | each of the five table extensions maps to its MIME type and only those do; every other extension gives `application/octet-stream` |
| Migration.DetectMime | main_supabase2storj.py:60-68 | the answer is always one of the four image types or `application/octet-stream` |
| Migration.DetectMimeOfName | main_supabase2storj.py:61 | for `stem.ext` the type depends only on the lower-cased text after the last dot, whatever the stem holds |
| Migration.DetectMimeNoDot | main_supabase2storj.py:61 | a path without a dot is looked up whole, after lower-casing |
| Migration.DetectMimeCaseInsensitive | main_supabase2storj.py:61 | the type does not depend on the case of the path |
| Migration.DetectMimeExample | main_supabase2storj.py:61-64 | `name.JPEG` is `image/jpeg` |
| Migration.Expand | main_supabase2storj.py:205-225 | one listing pass enqueues folders whose total size is at most that of the listing, so the queue loop terminates |
| Migration.ExpandPaths | main_supabase2storj.py:205-225 | the files one pass appends plus everything under the folders it enqueues are exactly the files below the listed folder |
| Migration.WalkPaths | main_supabase2storj.py:199-225 | the queue loop yields every file below the queued folders, each as often as the depth-first listing has it |
| Migration.ListRecursiveComplete | main_supabase2storj.py:195-227 | `list_recursive("")` returns the same multiset of paths as the depth-first listing of the whole bucket: nothing lost, nothing repeated |
| Migration.FullPathDepth | main_supabase2storj.py:208 | joining a slash-free name onto a folder path adds one level: the file sits at the folder's level, a sub-folder one deeper |
| Migration.WalkSorted | main_supabase2storj.py:199-225 | the queue loop yields paths in non-decreasing depth, none shallower than the first queued folder |
| Migration.ListRecursiveBreadthFirst | main_supabase2storj.py:195-227 | with slash-free names the listing is breadth-first: the paths come in non-decreasing depth |
| Migration.UploadStorj | main_supabase2storj.py:116-159 | non-bytes data raises before any attempt; otherwise `True` right after the first successful attempt, `False` only after all `retry` attempts failed |
| Migration.UploadStorjOutcome | main_supabase2storj.py:132-159 | the upload returns `True` exactly when some attempt within the retry budget succeeds |
| Migration.Puts | main_supabase2storj.py:132-141 | the `n` attempts put the same key, numbered 1 to `n` |
| Migration.Migrate | main_supabase2storj.py:233-284 | a failed sanity check raises before any call; otherwise the outcome of each listed path and the target afterwards are those of the path-by-path reference, the migrated, skipped and failed counts are the numbers of those outcomes and add up to the listing's length; the target only grows, by exactly the migrated paths, each listed and downloadable; every listed path that is absent, downloadable and uploadable within three attempts ends up in the target; every path not skipped is downloaded; keys already in the target are never downloaded or overwritten; a failed download is never uploaded |
| Migration.MigrateOne | main_supabase2storj.py:255-278 | one path is skipped when the target holds it, fails when its download raises, and otherwise is migrated exactly when an attempt within three succeeds; only a migrated path is added; the calls are the probe, then (unless skipped) its download, then (after a good download) puts of that path only |
| Migration.MigrateAll | main_supabase2storj.py:247-278 | the loop gives the reference outcome of every path in order and the reference target, counts each kind of outcome, downloads every path it does not skip, and never touches a key the target held before |
| Migration.ReplayNewKeys | main_supabase2storj.py:255-275 | every key a run adds is a listed path whose download does not raise |
| Migration.ReplayComplete | main_supabase2storj.py:255-275 | every listed path that is absent, downloadable and uploadable within three attempts is in the target after a run |
| Migration.ReplayCounts | main_supabase2storj.py:273-275 | the migrated count equals the number of keys the run added |
| Migration.CountsCover | main_supabase2storj.py:247-278 | every path increments exactly one of the counters, so they add up to the number of paths |
| Migration.ReplayDistinct | main_supabase2storj.py:251-278 | with no path listed twice, each outcome is decided against the target as it stood before the run |
| Migration.SkippedCount | main_supabase2storj.py:255-258 | with no path listed twice, the skipped count is the number of listed keys the target already held |
| Migration.MigrateAgainSkips | main_supabase2storj.py:254-258 | with no path listed twice, a second run skips every path the first run skipped or migrated, so the migration is incremental |
| Text.Decimal | main_create_master.py:100 | the decimal text of `n` is a non-empty digit string that reads back as `n`, with no leading zero unless `n` is 0 |
| Text.Pad2 | db/storage.py:10 | `{index:02d}` is a digit string of at least two characters that reads back as the index, with no leading zero once it is longer than two |
| Text.Pad2Injective | db/storage.py:10 | different indices give different padded numbers |
| Text.DigitsValueConcat | db/storage.py:10 | the value of two joined digit strings is the first shifted left by the length of the second, plus the second |
| Text.ParseIntRoundTrip | main_create_master.py:100 | `int(str(i)) == i` for every integer |
| Text.RemoveAll | db/trn_dmm_items_repository2.py:24 | `replace(',', '')` leaves no comma and never lengthens the text |
| Text.RemoveAllAbsent | db/trn_dmm_items_repository2.py:24 | text without a comma is left as it is |
| Text.RemoveAllConcat | db/trn_dmm_items_repository2.py:24 | removing commas distributes over concatenation |
| Text.Split | main_supabase2storj.py:61 | `split` returns at least one part and no part holds the separator |
| Text.JoinSplit | main_supabase2storj.py:61 | joining the parts of a split with the separator gives back the original text |
| Text.SplitNoSeparator | main_supabase2storj.py:61 | text without the separator splits into itself alone |
| Text.SplitFirstPart | openai_api/content_generator.py:58 | the first part of a split is the text before the first separator |
| Text.SplitLast | main_supabase2storj.py:61 | `split(c)[-1]` is the text after the last separator |
| Text.LowerAscii | main_supabase2storj.py:61 | ASCII lower-casing keeps the length and lowers each character on its own |
| Text.StripLeft | openai_api/content_generator.py:60 | the result is a suffix of the input, only whitespace was cut, and it does not start with whitespace |
| Text.StripRight | openai_api/content_generator.py:60 | the result is a prefix of the input, only whitespace was cut, and it does not end with whitespace |
| Text.Strip | openai_api/content_generator.py:52 | `strip()` is no longer than its input and neither starts nor ends with whitespace |
| Text.StripPadded | openai_api/content_generator.py:52 | stripping text padded by whitespace on both sides gives back the text |
| Text.StripIdempotent | openai_api/content_generator.py:52 | stripping twice is stripping once |
| Text.FindFrom | openai_api/content_generator.py:57-58 | a found position holds the pattern and is the first one from the start position on; no position is found exactly when the pattern does not occur there |
| Text.Unescape | openai_api/test.py:117 | `replace("\\n", "\n")` never lengthens the text and handles the first character first |
| Text.UnescapeLeavesNoEscape | openai_api/test.py:117 | the result holds no escaped newline |
| Text.UnescapeIdentity | openai_api/test.py:115-117 | the replacement changes the text exactly when it holds an escaped newline, and then shortens it |
| Json.Keys | openai_api/test.py:116 | the keys of an object, in order, one per field |
| Json.Lookup | openai_api/test.py:116 | a key is found exactly when the object has it, and the value found is that key's |
| Json.Get | main_create_master.py:100 | `d.get(k, default)` raises on a non-dict, gives the default for a missing key and the key's value otherwise |
| Json.Index | main_create_master.py:145 | `d[k]` succeeds exactly on a dict holding `k`, with that key's value |
| Json.First | db/trn_dmm_items_repository2.py:114 | `x[0]` of a non-empty list is its first item; on an empty list it raises `IndexError` |
| Json.Iterate | dmm/dmm_api.py:94 | iterating a list yields its items, a dict one key per field, a string its characters; anything else raises |
| Json.Contains | openai_api/test.py:116 | `key in d` tests the keys of a dict and the items of a list, and raises on scalars |
| Json.Put | openai_api/test.py:117 | after `d[k] = v`, `d[k]` is `v`; an existing key keeps its place and a new one goes last |
| Json.PutKeepsOthers | openai_api/test.py:117 | `d[k] = v` leaves every other key's value unchanged |
| Json.GetAll | db/trn_dmm_items_repository2.py:108-129 | a run of `.get` calls on one dict succeeds exactly when it is a dict, with one value per key |
| Json.Pluck | db/trn_dmm_items_repository2.py:100-101 | `[g["name"] for g in gs]` succeeds exactly when every item has the key, and gives each item's value in order |
| Json.ToInt | main_create_master.py:100 | `int(x)` keeps an integer, parses a decimal string, and raises on null, lists and dicts |
| Json.ToFloat | db/trn_dmm_items_repository.py:50 | `float(x)` converts integers exactly, keeps floats, and raises on null, lists and dicts |
| Json.ParseRealOfInt | db/trn_dmm_items_repository.py:50 | a string `int()` accepts is read by `float()` as the same number |
| Wrappers.MapResult | dmm/dmm_api.py:93-104 | mapping a fallible step over a list succeeds exactly when every step does, giving each step's value in order; a failure is one of the steps' errors |

## Left out

- External services are oracle parameters, and their internals are not modelled. This covers HTTP requests, the boto3 and Supabase clients, the MEGAcmd subprocesses, local file reads and writes, the OpenAI client and `json.loads`. Each adapter states only how its answers steer the code.
- Retry and back-off sleeps, `print` and `logging` calls are dropped. They change no returned value.
- The Selenium capture in `utils/get_tachiyomi.py` and `utils/get_sample_movie.py` is not part of this model. It is browser automation with fixed sleeps and has no page-count state machine to state.
- `utils/image.py`, `utils/zip_logger.py`, `db/supabase_client.py` and the live API probes `dmm/test_dmm_api*.py` are not part of this model. They are client set-up, log rotation and uuid-named downloads.
- `main.py` and `main_individual_search.py` are thin drivers and are not modelled. `main.py` calls the one-argument `insert_dmm_item` with four arguments, and the insert in `main_individual_search.py` is commented out.
- `sync_site_and_service_master` in `main_create_master.py` is not modelled, because `main` has its call commented out.
- `format_markdown` in `openai_api/test.py` is not modelled. It only concatenates text for display.
- The prompt text the generators send is not modelled. Only the facts read from the item before the call are: genre order, maker and series defaults, and cast lines.
- `upload_local_image_to_s3`, which the current ingestion imports from `db.storageS3`, is not part of this model. The ingestion takes the uploader as a parameter that returns a path or `""`.
- The uploader in `db/storageS3_3.py` is modelled on its own, with its `head_object` answers as an environment.
- `Text.ParseInt` accepts an optional sign followed by ASCII digits. Python's `int()` also accepts surrounding whitespace, `_` separators and non-ASCII digits, and `\d` in `parse_price` also matches non-ASCII digits. None of these forms is modelled.
- `Json.ToFloat` on a string accepts only plain decimals with an optional sign and ASCII digits. Exponents, `inf` and `nan` are not modelled, and no floating-point rounding is modelled: floats are `real`.
- Text.LowerAscii: lowers only `A`–`Z`. Python's `str.lower()` covers all of Unicode and can change the length (`"İ".lower()` has two characters). The only use is the extension test in `Migration.DetectMime`, whose table holds ASCII extensions only, so its answer is the same.
- Json.Lookup: a `Json.Obj` may hold the same key twice, which a Python dict cannot. `json.loads` keeps the last value of a repeated key, while `Lookup` reads the first. The parse oracles are not constrained to unique keys, and no proved property depends on which value a repeated key yields.
- `StorageKeys.Ext` follows `os.path.splitext` for `/`-separated paths. Leading dots of the file name are not an extension. Windows separators are not modelled.
- Upload indices are `nat`. The code only passes 1-based positions, so `:02d` of a negative index never arises.
- `Migration.Migrate` uploads a placeholder byte string. `download_supabase` always hands back bytes or raises, so only whether the download raised matters to the counters.
- `Migration.Migrate`: `storj_exists` is modelled as membership in the target bucket. It treats every `ClientError` as "absent", so an access error reads as a missing key. The model covers only the answers the bucket's contents give.
- `sanity_checks` is one boolean: the five settings are present or not. The boto3 version probe only prints, and is dropped.
- The MEGA drive is a set of stored remote paths. `mega-put -c` creates missing folders, so folders are not tracked separately.
- The MEGAcmd session is one flag: open or not. Whether `mega-login` fails with and without an open session, and whether `mega-logout` fails when it closes a session and when none is open, are four independent answers of the environment. A failed command leaves the flag as it was. The model takes no position on what MEGAcmd actually answers.
- `mega-put` is modelled as independent of the session. Every put in `db/storageMega.py` runs right after a login that worked, so a session is always open when it runs.
- `GenreMaster.InsertGenres` reads `g["id"]` and `g["name"]` of every genre before the loop. Those reads are pure, and the loop stops at the first failed one, so the inserts and the table afterwards match reading them one genre at a time.
- `dmm/genre.py` uses `supabase` and `logging` without importing them. The model runs its logic against an injected table. Errors raised by the table itself are not modelled.
- `Ingestion.BuildRow` reads each nested dict of the item once, where the code repeats `.get` chains. Those reads make no external call, so only their order differs.
- In `db/trn_dmm_items_repository2.py`, `uploaded_paths` is computed but never written to the row. The row records the raw `sample_l.image` list, as the code does.
- In `fetch_items`, `min_sample_count` only appears in a log line. It never filters an item, and the model follows the code.
- Concurrent runs are not modelled. The check-then-insert of the ingestion and of the genre sync is not atomic across processes, and the code is single-threaded.

=== FILE: catalog.dfy ===
/** Post-processing of a catalog API reply (`dmm/dmm_api.py`): picking the
    highest-resolution trailer among `size_W_H` keys, and the filter and
    annotation pass of `fetch_items` after its status check.  The HTTP request
    itself is left out; the model starts from the decoded reply. */
module Catalog {
  import opened Wrappers
  import opened Text
  import opened Json

  // ---------------------------------------------------------------------------
  // get_highest_resolution_movie
  // ---------------------------------------------------------------------------

  /** The area `int(w) * int(h)` a trailer entry stands for, or `None` when
      the entry is skipped: its key does not start with `size_`, its value is
      not a string, the key does not split into exactly three `_` parts, or a
      part is not an integer (the exception is caught and the entry skipped). */
  function Area(entry: (string, Json)): (r: Option<int>)
    ensures r.Some? ==> StartsWith(entry.0, "size_") && entry.1.Str?
    ensures r.Some? ==> |Split(entry.0, '_')| == 3
  {
    var (key, url) := entry;
    if StartsWith(key, "size_") && url.Str? then
      var parts := Split(key, '_');
      if |parts| == 3 then
        match (ParseInt(parts[1]), ParseInt(parts[2]))
        case (Some(w), Some(h)) => Some(w * h)
        case _ => None
      else None
    else None
  }

  /** An area that beats `best`: present and strictly larger. */
  predicate Beats(a: Option<int>, best: int) {
    a.Some? && a.value > best
  }

  /** Entry `k` is the winner among the first `n` entries: its area is
      positive, strictly larger than every earlier area and at least every
      later one, so on a tie the earlier key wins. */
  predicate IsBestIn(fields: seq<(string, Json)>, n: nat, k: nat)
    requires n <= |fields|
  {
    && k < n
    && Beats(Area(fields[k]), 0)
    && (forall j :: 0 <= j < k ==> !Beats(Area(fields[j]), Area(fields[k]).value - 1))
    && (forall j :: k < j < n ==> !Beats(Area(fields[j]), Area(fields[k]).value))
  }

  /** `best_area` while the loop is at `n`: zero before any winner. */
  function BestArea(fields: seq<(string, Json)>, best: Option<nat>): int
    requires best.Some? ==> best.value < |fields| && Area(fields[best.value]).Some?
  {
    match best
    case None => 0
    case Some(k) => Area(fields[k]).value
  }

  /** The index the loop has selected after visiting the first `n` entries. */
  function BestIndex(fields: seq<(string, Json)>, n: nat): (r: Option<nat>)
    requires n <= |fields|
    ensures r.Some? ==> IsBestIn(fields, n, r.value)
    ensures r.None? <==> forall j :: 0 <= j < n ==> !Beats(Area(fields[j]), 0)
    decreases n
  {
    if n == 0 then None
    else
      var prev := BestIndex(fields, n - 1);
      BestStep(fields, n, prev);
      if Beats(Area(fields[n - 1]), BestArea(fields, prev)) then Some(n - 1) else prev
  }

  /** One visit of the loop keeps the winner, or replaces it by the entry
      just visited when that one beats it. */
  lemma BestStep(fields: seq<(string, Json)>, n: nat, prev: Option<nat>)
    requires 0 < n <= |fields|
    requires prev.Some? ==> IsBestIn(fields, n - 1, prev.value)
    requires prev.None? ==> forall j :: 0 <= j < n - 1 ==> !Beats(Area(fields[j]), 0)
    ensures prev.Some? ==> Area(fields[prev.value]).Some?
    ensures Beats(Area(fields[n - 1]), BestArea(fields, prev)) ==> IsBestIn(fields, n, n - 1)
    ensures !Beats(Area(fields[n - 1]), BestArea(fields, prev)) && prev.Some? ==> IsBestIn(fields, n, prev.value)
  {
    var a := Area(fields[n - 1]);
    if prev.Some? {
      var k := prev.value;
      var b := Area(fields[k]).value;
      if Beats(a, b) {
        forall j | 0 <= j < n - 1 ensures !Beats(Area(fields[j]), a.value - 1) {
          if j != k {
            assert !Beats(Area(fields[j]), b);
          }
        }
      }
    }
  }

  /** `get_highest_resolution_movie(movie_info)`. */
  function HighestResolution(movie: Json): (r: Option<string>)
    ensures !movie.Obj? ==> r.None?
    ensures movie.Obj? && r.Some? ==> exists k: nat :: IsBestIn(movie.fields, |movie.fields|, k)
                                                  && movie.fields[k].1 == Str(r.value)
  {
    if !movie.Obj? then None
    else
      match BestIndex(movie.fields, |movie.fields|)
      case None => None
      case Some(k) => Some(movie.fields[k].1.s)
  }

  /** There is at most one winner. */
  lemma BestIsUnique(fields: seq<(string, Json)>, n: nat, k1: nat, k2: nat)
    requires n <= |fields|
    requires IsBestIn(fields, n, k1) && IsBestIn(fields, n, k2)
    ensures k1 == k2
  {
  }

  /** The result is `None` exactly when no entry has a positive area, and
      otherwise the URL of the unique winner. */
  lemma HighestResolutionIsWinner(fields: seq<(string, Json)>, k: nat)
    requires k < |fields| && IsBestIn(fields, |fields|, k)
    ensures HighestResolution(Obj(fields)) == Some(fields[k].1.s)
  {
    var b := BestIndex(fields, |fields|);
    assert b.Some? by {
      assert Beats(Area(fields[k]), 0);
    }
    BestIsUnique(fields, |fields|, b.value, k);
  }

  lemma HighestResolutionNone(fields: seq<(string, Json)>)
    ensures HighestResolution(Obj(fields)).None? <==>
      forall j :: 0 <= j < |fields| ==> !Beats(Area(fields[j]), 0)
  {
  }

  /** A well-formed key `size_W_H` with a string value stands for `W * H`. */
  lemma AreaOfSizeKey(w: string, h: string, url: string)
    requires ParseInt(w).Some? && ParseInt(h).Some?
    ensures Area(("size_" + w + "_" + h, Str(url))) == Some(ParseInt(w).value * ParseInt(h).value)
  {
    var key := "size_" + w + "_" + h;
    assert '_' !in w by {
      assert forall k :: 0 <= k < |w| ==> w[k] == '_' ==> !IsDigit(w[k]);
    }
    assert '_' !in h by {
      assert forall k :: 0 <= k < |h| ==> h[k] == '_' ==> !IsDigit(h[k]);
    }
    assert key == "size" + ['_'] + (w + ['_'] + h);
    assert "size"[..] == "size";
    assert '_' !in "size";
    SplitFirstPart("size", w + ['_'] + h, '_');
    SplitFirstPart(w, h, '_');
    SplitNoSeparator(h, '_');
    assert key[..5] == "size_";
  }

  lemma ParseThreeDigits(s: string)
    requires |s| == 3 && AllDigits(s)
    ensures ParseInt(s) == Some(100 * DigitVal(s[0]) + 10 * DigitVal(s[1]) + DigitVal(s[2]))
  {
    assert !IsSign(s[0]);
    var s2 := s[..2];
    assert s2[..1] == [s[0]] && [s[0]][..0] == [];
    assert DigitsValue([s[0]]) == DigitVal(s[0]);
    assert DigitsValue(s2) == 10 * DigitVal(s[0]) + DigitVal(s[1]);
    assert DigitsValue(s) == 10 * DigitsValue(s2) + DigitVal(s[2]);
  }

  /** `size_720_480` beats `size_560_360`. */
  lemma HighestResolutionExample(w1: string, h1: string, w2: string, h2: string)
    requires w1 == "560" && h1 == "360" && w2 == "720" && h2 == "480"
    ensures HighestResolution(Obj([("size_" + w1 + "_" + h1, Str("s")), ("size_" + w2 + "_" + h2, Str("l"))]))
      == Some("l")
  {
    var fields := [("size_" + w1 + "_" + h1, Str("s")), ("size_" + w2 + "_" + h2, Str("l"))];
    ParseThreeDigits(w1);
    ParseThreeDigits(h1);
    ParseThreeDigits(w2);
    ParseThreeDigits(h2);
    AreaOfSizeKey(w1, h1, "s");
    AreaOfSizeKey(w2, h2, "l");
    assert Area(fields[0]) == Some(201600);
    assert Area(fields[1]) == Some(345600);
    assert IsBestIn(fields, 2, 1);
    HighestResolutionIsWinner(fields, 1);
  }

  // ---------------------------------------------------------------------------
  // fetch_items: the filter / annotation pass
  // ---------------------------------------------------------------------------

  /** `item.get("sampleImageURL", {}).get("sample_l", {}).get("image", [])`,
      raising `AttributeError` when a level is not a dict. */
  function SampleImages(item: Json): (r: Result<Json>)
    ensures !item.Obj? ==> r == Err(AttributeError)
    ensures item.Obj? && "sampleImageURL" !in Keys(item.fields) ==> r == Ok(Arr([]))
    ensures r.Ok? ==> item.Obj?
  {
    var urls :- Get(item, "sampleImageURL", Obj([]));
    var large :- Get(urls, "sample_l", Obj([]));
    Get(large, "image", Arr([]))
  }

  /** The item with `sampleMovieURL_highest` set to the best trailer URL (or
      `None`) and `campaign_data` to its `campaign` (or `None`). */
  function Annotate(item: Json): (r: Json)
    requires item.Obj?
    ensures r.Obj?
    ensures Lookup(r.fields, "campaign_data") == Some(Lookup(item.fields, "campaign").GetOr(Null))
    ensures Lookup(r.fields, "sampleMovieURL_highest") ==
      Some(match HighestResolution(Lookup(item.fields, "sampleMovieURL").GetOr(Obj([])))
           case None => Null case Some(u) => Str(u))
  {
    var movie := Lookup(item.fields, "sampleMovieURL").GetOr(Obj([]));
    var highest := match HighestResolution(movie) case None => Null case Some(u) => Str(u);
    var campaign := Lookup(item.fields, "campaign").GetOr(Null);
    var f1 := Put(item.fields, "sampleMovieURL_highest", highest);
    PutKeepsOthers(f1, "campaign_data", campaign, "sampleMovieURL_highest");
    Obj(Put(f1, "campaign_data", campaign))
  }

  /** One pass of the loop body: `[item']` when the item is kept (with its
      annotations), `[]` when it is dropped. */
  function Visit(item: Json): (r: Result<seq<Json>>)
    ensures r.Ok? <==> SampleImages(item).Ok?
    ensures r.Ok? ==> item.Obj? && |r.value| <= 1
    ensures r.Ok? ==> (|r.value| == 1 <==> SampleImages(item).value.Arr?)
    ensures r.Ok? && |r.value| == 1 ==> r.value[0] == Annotate(item)
  {
    var images :- SampleImages(item);
    if images.Arr? then Ok([Annotate(item)]) else Ok([])
  }

  /** The loop `for item in items`: keep an item when its sample image value
      is a list; any exception aborts the whole pass. */
  function FilterItems(items: seq<Json>): (r: Result<seq<Json>>)
    ensures r.Ok? ==> |r.value| <= |items|
    ensures r.Ok? ==> forall x :: x in r.value ==> x.Obj?
    ensures r.Ok? ==> forall x :: x in items ==> Visit(x).Ok?
  {
    if |items| == 0 then Ok([])
    else
      var head :- Visit(items[0]);
      var rest :- FilterItems(items[1..]);
      assert forall x :: x in items ==> x == items[0] || x in items[1..];
      Ok(head + rest)
  }

  /** Sequencing of two passes: the first error wins, else the lists join. */
  function Then(x: Result<seq<Json>>, y: Result<seq<Json>>): Result<seq<Json>> {
    if x.Err? then Err(x.error) else if y.Err? then Err(y.error) else Ok(x.value + y.value)
  }

  lemma ThenAssoc(x: Result<seq<Json>>, y: Result<seq<Json>>, z: Result<seq<Json>>)
    ensures Then(x, Then(y, z)) == Then(Then(x, y), z)
  {
    if x.Ok? && y.Ok? && z.Ok? {
      assert x.value + (y.value + z.value) == (x.value + y.value) + z.value;
    }
  }

  lemma FilterItemsStep(items: seq<Json>)
    requires |items| > 0
    ensures FilterItems(items) == Then(Visit(items[0]), FilterItems(items[1..]))
  {
  }

  /** The pass distributes over concatenation: kept items stay in input order,
      and the first failing item decides the error. */
  lemma {:induction false} FilterItemsConcat(a: seq<Json>, b: seq<Json>)
    ensures FilterItems(a + b) == Then(FilterItems(a), FilterItems(b))
  {
    if |a| == 0 {
      assert a + b == b;
      if FilterItems(b).Ok? {
        assert [] + FilterItems(b).value == FilterItems(b).value;
      }
    } else {
      assert (a + b)[1..] == a[1..] + b;
      assert (a + b)[0] == a[0];
      FilterItemsStep(a + b);
      FilterItemsConcat(a[1..], b);
      FilterItemsStep(a);
      ThenAssoc(Visit(a[0]), FilterItems(a[1..]), FilterItems(b));
    }
  }

  /** A single item is kept exactly when its sample image value (missing
      levels defaulting to `{}` and `[]`) is a list, and then it comes back
      annotated. */
  lemma FilterOne(item: Json)
    requires SampleImages(item).Ok?
    ensures FilterItems([item]) ==
      if SampleImages(item).value.Arr? then Ok([Annotate(item)]) else Ok([])
  {
    assert [item][1..] == [];
    var v := Visit(item).value;
    assert v + [] == v;
  }

  /** An item without any sample images is kept: `min_sample_count` never
      filters anything. */
  lemma NoImagesStillKept(item: Json)
    requires item.Obj? && "sampleImageURL" !in Keys(item.fields)
    ensures FilterItems([item]) == Ok([Annotate(item)])
  {
    FilterOne(item);
  }

  /** `result["result"]["status"]`. */
  function Status(reply: Json): Result<Json> {
    var result :- Index(reply, "result");
    Index(result, "status")
  }

  /** `result["result"].get("message", "unknown error")` is a string, so
      that `"API error: " + message` can be built. */
  predicate MessageIsText(reply: Json) {
    match Index(reply, "result")
    case Ok(result) => Get(result, "message", Str("unknown error")).Ok?
                       && Get(result, "message", Str("unknown error")).value.Str?
    case Err(_) => false
  }

  /** `fetch_items` after the request: a status other than 200 raises before
      any item is looked at, with the API error when the reply's message is a
      string (or missing) and with a `TypeError` from the concatenation when
      it is not; otherwise the items are filtered.  `min_sample_count` only
      appears in a log line. */
  function FetchItems(reply: Json, minSampleCount: int): (r: Result<seq<Json>>)
    ensures r.Ok? ==> Status(reply).Ok? && EqualsInt(Status(reply).value, 200)
    ensures Status(reply).Ok? && !EqualsInt(Status(reply).value, 200) ==>
      r == Err(if MessageIsText(reply) then ApiError else TypeError)
    ensures Status(reply).Ok? && EqualsInt(Status(reply).value, 200) ==>
      r == (var items :- Index(Index(reply, "result").value, "items");
            var list :- Iterate(items);
            FilterItems(list))
  {
    var result :- Index(reply, "result");
    var status :- Index(result, "status");
    if !EqualsInt(status, 200) then
      var message := Get(result, "message", Str("unknown error")).value;
      if message.Str? then Err(ApiError) else Err(TypeError)
    else
      var items :- Index(result, "items");
      var list :- Iterate(items);
      FilterItems(list)
  }

  /** A rejected request: a missing message still raises the API error, a
      numeric or null message makes building the error text raise
      `TypeError` instead. */
  lemma FetchItemsRejected(status: int, message: Json)
    requires status != 200
    ensures FetchItems(Obj([("result", Obj([("status", Int(status))]))]), 0) == Err(ApiError)
    ensures message.Int? || message.Null? ==>
      FetchItems(Obj([("result", Obj([("status", Int(status)), ("message", message)]))]), 0) == Err(TypeError)
  {
    var r1 := Obj([("status", Int(status))]);
    assert Keys(r1.fields) == ["status"];
    assert Keys(Obj([("result", r1)]).fields) == ["result"];
    var r2 := Obj([("status", Int(status)), ("message", message)]);
    assert Keys(r2.fields) == ["status", "message"];
    assert Keys(Obj([("result", r2)]).fields) == ["result"];
  }
}

=== FILE: enrichment.dfy ===
/** `generate_content`, which asks a language model for three promotional
    texts about a catalog item, in its two revisions:
      - `openai_api/content_generator.py` (the one the ingestion calls), and
      - `openai_api/test.py` (a later draft with cast lines and escape
        conversion).
    The model call and `json.loads` are parameters.  What is modelled is the
    deterministic part: the facts read from the item before the call (where
    a malformed item raises, since those reads sit outside the `try`), the
    extraction of the JSON text from a fenced reply, and the shaping of the
    parsed value, with every failure inside the `try` replaced by three empty
    texts. */
module Enrichment {
  import opened Wrappers
  import opened Text
  import opened Json
  import JsonOps = Json

  const Fence := "```"

  /** The three keys the reply is expected to carry, in output order. */
  const AutoKeys: seq<string> := ["auto_comment", "auto_summary", "auto_point"]

  /** The value returned after any failure inside the `try`. */
  const Defaults := Obj([("auto_comment", Str("")), ("auto_summary", Str("")), ("auto_point", Str(""))])

  // ---------------------------------------------------------------------------
  // Extracting the JSON text
  // ---------------------------------------------------------------------------

  /** `content.split("```")[1]`: the text after the first fence, up to the
      next fence or the end. */
  function FencedBlock(content: string, i: nat): (r: string)
    requires OccursAt(content, Fence, i)
    ensures |r| <= |content| - i - 3 && r == content[i + 3..i + 3 + |r|]
    ensures forall k :: i + 3 <= k <= i + 3 + |r| - 3 ==> !OccursAt(content, Fence, k)
  {
    match FindFrom(content, Fence, i + 3)
    case None => content[i + 3..]
    case Some(j) => content[i + 3..j]
  }

  /** The text handed to `json.loads`, from the already stripped reply. */
  function ExtractFromContent(content: string): (r: string)
    ensures FindFrom(content, Fence, 0).None? ==> r == content
  {
    match FindFrom(content, Fence, 0)
    case None => content
    case Some(i) =>
      var part := FencedBlock(content, i);
      if StartsWith(part, "json") then Strip(part[4..]) else part
  }

  /** `content = reply.strip()`, then the extraction. */
  function ExtractJsonText(reply: string): string {
    ExtractFromContent(Strip(reply))
  }

  /** A search that finds the pattern at `i` and nowhere before it answers `i`. */
  lemma FindFromFirst(s: string, pat: string, from: nat, i: nat)
    requires |pat| > 0 && from <= i && OccursAt(s, pat, i)
    requires forall k :: from <= k < i ==> !OccursAt(s, pat, k)
    ensures FindFrom(s, pat, from) == Some(i)
  {
  }

  /** No fence starts inside a stretch free of backticks that ends before `|a|`. */
  lemma NoFenceIn(s: string, lo: nat, hi: nat)
    requires hi <= |s|
    requires forall k :: lo <= k < hi ==> s[k] != '`'
    ensures forall k :: lo <= k < hi ==> !OccursAt(s, Fence, k)
  {
    forall k | lo <= k < hi
      ensures !OccursAt(s, Fence, k)
    {
      if k + 3 <= |s| {
        assert s[k..k + 3][0] == s[k] != Fence[0];
      }
    }
  }

  /** In `pre ```block``` post`, with no backtick in `pre` or `block`, the
      first fence is the one after `pre` and its block is `block`. */
  lemma FencedBetween(pre: string, block: string, post: string)
    requires '`' !in pre && '`' !in block
    ensures var s := pre + Fence + block + Fence + post;
      FindFrom(s, Fence, 0) == Some(|pre|) && FencedBlock(s, |pre|) == block
  {
    var s := pre + Fence + block + Fence + post;
    var i, j := |pre|, |pre| + 3 + |block|;
    FenceLayout(pre, block, post);
    NoFenceIn(s, 0, i);
    NoFenceIn(s, i + 3, j);
    FindFromFirst(s, Fence, 0, i);
    FindFromFirst(s, Fence, i + 3, j);
  }

  /** Where the two fences of `pre ```block``` post` sit, and that no
      backtick comes before the second one except inside them. */
  lemma FenceLayout(pre: string, block: string, post: string)
    requires '`' !in pre && '`' !in block
    ensures var s := pre + Fence + block + Fence + post;
      var i, j := |pre|, |pre| + 3 + |block|;
      && OccursAt(s, Fence, i) && OccursAt(s, Fence, j)
      && (forall k :: 0 <= k < i ==> s[k] != '`')
      && (forall k :: i + 3 <= k < j ==> s[k] != '`')
      && s[i + 3..j] == block
  {
    var s := pre + Fence + block + Fence + post;
    var i, j := |pre|, |pre| + 3 + |block|;
    assert s[i..i + 3] == Fence;
    assert s[j..j + 3] == Fence;
    assert forall k :: 0 <= k < i ==> s[k] == pre[k];
    assert forall k :: i + 3 <= k < j ==> s[k] == block[k - i - 3];
    assert s[i + 3..j] == block;
  }

  /** A reply `pre ```body``` post` yields `body`, when neither `pre` nor
      `body` holds a backtick and `body` has no `json` tag. */
  lemma FenceRoundTrip(pre: string, body: string, post: string)
    requires '`' !in pre && '`' !in body
    requires !StartsWith(body, "json")
    ensures ExtractFromContent(pre + Fence + body + Fence + post) == body
  {
    FencedBetween(pre, body, post);
  }

  /** With a `json` tag the rest of the block is stripped of whitespace. */
  lemma FenceJsonTag(pre: string, body: string, post: string)
    requires '`' !in pre && '`' !in body
    ensures ExtractFromContent(pre + Fence + "json" + body + Fence + post) == Strip(body)
  {
    var b := "json" + body;
    assert '`' !in "json";
    FencedBetween(pre, b, post);
    assert pre + Fence + b + Fence + post == pre + Fence + "json" + body + Fence + post;
    assert StartsWith(b, "json") && b[4..] == body;
  }

  /** An unclosed fence takes everything after it. */
  lemma FenceUnclosed(pre: string, body: string)
    requires '`' !in pre && '`' !in body
    requires !StartsWith(body, "json")
    ensures ExtractFromContent(pre + Fence + body) == body
  {
    var s := pre + Fence + body;
    var i := |pre|;
    assert s[i..i + 3] == Fence;
    assert forall k :: 0 <= k < i ==> s[k] == pre[k];
    assert forall k :: i + 3 <= k < |s| ==> s[k] == body[k - i - 3];
    NoFenceIn(s, 0, i);
    NoFenceIn(s, i + 3, |s|);
    FindFromFirst(s, Fence, 0, i);
    assert s[i + 3..] == body;
  }

  // ---------------------------------------------------------------------------
  // content_generator.py
  // ---------------------------------------------------------------------------

  /** What the prompt is built from. */
  datatype Facts = Facts(title: Json, genres: seq<Json>, reviewScore: Json, reviewCount: Json,
                         maker: Json, series: Json, releaseDate: Json)

  const Unknown := "\U{4E0D}\U{660E}"

  /** Lines 11-18, outside the `try`: any exception here escapes. */
  function PromptFacts(item: Json): (r: Result<Facts>)
    ensures !item.Obj? ==> r == Err(AttributeError)
    ensures r.Ok? ==> Sub(item, "iteminfo").Obj?
    ensures r.Ok? ==> Iterate(Lookup(Sub(item, "iteminfo").fields, "genre").GetOr(Arr([]))).Ok?
    ensures r.Ok? ==> Pluck(Iterate(Lookup(Sub(item, "iteminfo").fields, "genre").GetOr(Arr([]))).value, "name") == Ok(r.value.genres)
    ensures r.Ok? && "maker" !in Keys(Sub(item, "iteminfo").fields) ==> r.value.maker == Str("")
    ensures r.Ok? && "series" !in Keys(Sub(item, "iteminfo").fields) ==> r.value.series == Str("")
  {
    if !item.Obj? then Err(AttributeError)
    else
      var info := Sub(item, "iteminfo");
      if !info.Obj? then Err(AttributeError)
      else
        var raw :- Iterate(Lookup(info.fields, "genre").GetOr(Arr([])));
        var genres :- Pluck(raw, "name");
        var review := Sub(item, "review");
        if !review.Obj? then Err(AttributeError)
        else
          var maker :- NameOfFirst(Lookup(info.fields, "maker").GetOr(Arr([Obj([])])), Str(""));
          var series :- NameOfFirst(Lookup(info.fields, "series").GetOr(Arr([Obj([])])), Str(""));
          Ok(Facts(Lookup(item.fields, "title").GetOr(Str("")), genres,
                   Lookup(review.fields, "average").GetOr(Str(Unknown)),
                   Lookup(review.fields, "count").GetOr(Int(0)),
                   maker, series, Lookup(item.fields, "date").GetOr(Str(""))))
  }

  /** Lines 64-68: the three keys, each defaulting to `""`; a parsed value
      that is not a dict has no `get`, which the `try` turns into the
      defaults. */
  function Shape(parsed: Option<Json>): (r: Json)
    ensures r.Obj? && Keys(r.fields) == AutoKeys
    ensures parsed.None? || !parsed.value.Obj? ==> r == Defaults
    ensures parsed.Some? && parsed.value.Obj? ==> forall i :: 0 <= i < 3 ==>
      r.fields[i].1 == Lookup(parsed.value.fields, AutoKeys[i]).GetOr(Str(""))
  {
    match parsed
    case Some(Obj(f)) =>
      Obj([("auto_comment", Lookup(f, "auto_comment").GetOr(Str(""))),
           ("auto_summary", Lookup(f, "auto_summary").GetOr(Str(""))),
           ("auto_point", Lookup(f, "auto_point").GetOr(Str("")))])
    case _ => Defaults
  }

  /** `generate_content(item)`: `complete(facts)` is the model's reply, or
      `None` when the call raises; `parse(text)` is `json.loads`, or `None`
      when it raises. */
  function GenerateContent(item: Json, complete: Facts -> Option<string>, parse: string -> Option<Json>)
    : (r: Result<Json>)
    ensures r.Err? <==> PromptFacts(item).Err?
    ensures r.Ok? ==> r.value.Obj? && Keys(r.value.fields) == AutoKeys
    ensures r.Ok? && complete(PromptFacts(item).value).None? ==> r.value == Defaults
    ensures r.Ok? && complete(PromptFacts(item).value).Some? ==>
      r.value == Shape(parse(ExtractJsonText(complete(PromptFacts(item).value).value)))
  {
    var facts :- PromptFacts(item);
    match complete(facts)
    case None => Ok(Defaults)
    case Some(reply) => Ok(Shape(parse(ExtractJsonText(reply))))
  }

  /** The reply is always a non-empty dict, so the `or {}` of the caller
      never applies. */
  lemma GeneratedIsTruthy(item: Json, complete: Facts -> Option<string>, parse: string -> Option<Json>)
    requires GenerateContent(item, complete, parse).Ok?
    ensures Truthy(GenerateContent(item, complete, parse).value)
  {
    var r := GenerateContent(item, complete, parse).value;
    assert |Keys(r.fields)| == 3;
  }

  // ---------------------------------------------------------------------------
  // test.py
  // ---------------------------------------------------------------------------

  /** `[g.get("name") for g in genres if "name" in g]`: `in` on a string is a
      substring test, so a string element mentioning "name" reaches `.get`
      and raises. */
  function DraftGenres(list: seq<Json>): (r: Result<seq<Json>>)
    ensures r.Ok? ==> |r.value| <= |list|
  {
    if |list| == 0 then Ok([])
    else
      var has :- JsonOps.Contains(list[0], "name");
      var head :- if has then (var v :- Get(list[0], "name", Null); Ok([v])) else Ok([]);
      var rest :- DraftGenres(list[1..]);
      Ok(head + rest)
  }

  /** Reference: the names of the dicts that have one, in order. */
  function NamesOf(list: seq<Json>): (r: seq<Json>)
    requires forall i :: 0 <= i < |list| ==> list[i].Obj?
  {
    if |list| == 0 then []
    else
      (if "name" in Keys(list[0].fields) then [Lookup(list[0].fields, "name").value] else [])
      + NamesOf(list[1..])
  }

  /** On a list of dicts the comprehension never raises and keeps exactly the
      named entries, in order; dicts without a name are skipped. */
  lemma {:induction false} DraftGenresOfDicts(list: seq<Json>)
    requires forall i :: 0 <= i < |list| ==> list[i].Obj?
    ensures DraftGenres(list) == Ok(NamesOf(list))
  {
    if |list| > 0 {
      DraftGenresOfDicts(list[1..]);
    }
  }

  /** A string element that mentions "name" makes the draft raise. */
  lemma DraftGenresRejectsNameString()
    ensures DraftGenres([Str("name")]) == Err(AttributeError)
  {
    var s := "name";
    assert OccursAt(s, "name", 0);
    assert Text.Contains(s, "name");
  }

  /** Reference: the truthy names of a list of dicts, in order, one per dict
      that has one. */
  function TruthyNamesOf(list: seq<Json>): seq<Json>
    requires forall i :: 0 <= i < |list| ==> list[i].Obj?
  {
    if |list| == 0 then []
    else
      var v := Field(list[0], "name");
      (if Truthy(v) then [v] else []) + TruthyNamesOf(list[1..])
  }

  /** `[a.get("name") for a in list if a.get("name")]` */
  function TruthyNames(list: seq<Json>): (r: Result<seq<Json>>)
    ensures r.Ok? <==> forall i :: 0 <= i < |list| ==> list[i].Obj?
    ensures r.Ok? ==> r.value == TruthyNamesOf(list)
    ensures r.Ok? ==> |r.value| <= |list| && forall x :: x in r.value ==> Truthy(x)
    ensures r.Ok? ==> forall i :: 0 <= i < |list| && Truthy(Field(list[i], "name")) ==> Field(list[i], "name") in r.value
  {
    if |list| == 0 then Ok([])
    else
      var v :- Get(list[0], "name", Null);
      var rest :- TruthyNames(list[1..]);
      assert forall i :: 1 <= i < |list| ==> list[i] == list[1..][i - 1];
      Ok((if Truthy(v) then [v] else []) + rest)
  }

  /** The texts of a list of names (a name that is not text counts as `""`). */
  function Texts(names: seq<Json>): (ts: seq<string>)
    ensures |ts| == |names|
    ensures forall i :: 0 <= i < |names| ==> ts[i] == (if names[i].Str? then names[i].s else "")
  {
    if |names| == 0 then [] else [if names[0].Str? then names[0].s else ""] + Texts(names[1..])
  }

  /** Reference: `sep.join(parts)`, built from the right end: everything
      before the last part, the separator, and the last part. */
  function JoinWith(parts: seq<string>, sep: string): string {
    if |parts| == 0 then ""
    else if |parts| == 1 then parts[0]
    else JoinWith(parts[..|parts| - 1], sep) + sep + parts[|parts| - 1]
  }

  /** Joining from the left end gives the same text. */
  lemma {:induction false} JoinWithCons(x: string, parts: seq<string>, sep: string)
    requires |parts| > 0
    ensures JoinWith([x] + parts, sep) == x + sep + JoinWith(parts, sep)
    decreases |parts|
  {
    var all := [x] + parts;
    if |parts| > 1 {
      assert all[..|all| - 1] == [x] + parts[..|parts| - 1];
      JoinWithCons(x, parts[..|parts| - 1], sep);
    } else {
      assert all[..|all| - 1] == [x];
    }
  }

  /** `", ".join(names)`; a name that is not a string raises `TypeError`. */
  function JoinNames(names: seq<Json>): (r: Result<string>)
    ensures r.Ok? <==> forall i :: 0 <= i < |names| ==> names[i].Str?
    ensures r.Ok? ==> r.value == JoinWith(Texts(names), ", ")
  {
    if |names| == 0 then Ok("")
    else if !names[0].Str? then Err(TypeError)
    else
      var rest :- JoinNames(names[1..]);
      assert (forall i :: 0 <= i < |names| ==> names[i].Str?) by {
        TextTail(names);
      }
      var joined := if |names| == 1 then names[0].s else names[0].s + ", " + rest;
      assert joined == JoinWith(Texts(names), ", ") by {
        JoinTextsCons(names, rest);
      }
      Ok(joined)
  }

  /** A list whose first name and whose tail are all text is all text. */
  lemma TextTail(names: seq<Json>)
    requires |names| > 0 && names[0].Str?
    requires forall i :: 0 <= i < |names| - 1 ==> names[1..][i].Str?
    ensures forall i :: 0 <= i < |names| ==> names[i].Str?
  {
    forall i | 1 <= i < |names| ensures names[i].Str? {
      assert names[i] == names[1..][i - 1];
    }
  }

  /** The join of the texts splits after the first name. */
  lemma JoinTextsCons(names: seq<Json>, rest: string)
    requires |names| > 0 && names[0].Str?
    requires rest == JoinWith(Texts(names[1..]), ", ")
    ensures JoinWith(Texts(names), ", ") == if |names| == 1 then names[0].s else names[0].s + ", " + rest
  {
    assert Texts(names) == [names[0].s] + Texts(names[1..]);
    if |names| > 1 {
      JoinWithCons(names[0].s, Texts(names[1..]), ", ");
    }
  }

  const CastLabel := "- \U{51FA}\U{6F14}: "
  const DirectorLabel := "- \U{76E3}\U{7763}: "

  /** The line `heading + ", ".join(names) + "\n"`, written only when there
      are names. */
  function NamesLine(heading: string, names: seq<Json>): (r: Result<string>)
    ensures |names| == 0 ==> r == Ok("")
    ensures |names| > 0 ==> (r.Ok? <==> forall i :: 0 <= i < |names| ==> names[i].Str?)
    ensures r.Ok? && |names| > 0 ==> r.value == heading + JoinWith(Texts(names), ", ") + "\n"
    ensures r.Ok? && |names| > 0 ==> StartsWith(r.value, heading) && r.value[|r.value| - 1] == '\n'
  {
    if |names| == 0 then Ok("")
    else
      var j :- JoinNames(names);
      Ok(heading + j + "\n")
  }

  /** Lines 35-39: one line per non-empty name list. */
  function CastInfo(actresses: seq<Json>, directors: seq<Json>): (r: Result<string>)
    ensures r.Ok? <==> ((forall i :: 0 <= i < |actresses| ==> actresses[i].Str?)
                        && (forall i :: 0 <= i < |directors| ==> directors[i].Str?))
    ensures r.Ok? ==> (r.value ==
      (if |actresses| > 0 then CastLabel + JoinWith(Texts(actresses), ", ") + "\n" else "")
      + (if |directors| > 0 then DirectorLabel + JoinWith(Texts(directors), ", ") + "\n" else ""))
    ensures r.Ok? ==> (r.value == "" <==> |actresses| == 0 && |directors| == 0)
    ensures r.Ok? && |actresses| > 0 ==> StartsWith(r.value, CastLabel)
    ensures r.Ok? && |actresses| == 0 && |directors| > 0 ==> StartsWith(r.value, DirectorLabel)
    ensures r.Ok? && |directors| > 0 ==> r.value[|r.value| - 1] == '\n'
  {
    var cast :- NamesLine(CastLabel, actresses);
    var direct :- NamesLine(DirectorLabel, directors);
    StartsWithConcat(cast, direct, CastLabel);
    assert |direct| > 0 ==> (cast + direct)[|cast + direct| - 1] == direct[|direct| - 1];
    Ok(cast + direct)
  }

  lemma StartsWithConcat(a: string, b: string, p: string)
    ensures StartsWith(a, p) ==> StartsWith(a + b, p)
  {
    if StartsWith(a, p) {
      assert (a + b)[..|p|] == a[..|p|];
    }
  }

  /** Lines 25-26 and 31-39 on their own: the cast lines of an `iteminfo`
      dict, from the truthy names of its `actress` and `director` lists. */
  function CastOfInfo(info: Json): (r: Result<string>)
    requires info.Obj?
    ensures r.Ok? <==>
      && Iterate(Lookup(info.fields, "actress").GetOr(Arr([]))).Ok?
      && Iterate(Lookup(info.fields, "director").GetOr(Arr([]))).Ok?
      && TruthyNames(Iterate(Lookup(info.fields, "actress").GetOr(Arr([]))).value).Ok?
      && TruthyNames(Iterate(Lookup(info.fields, "director").GetOr(Arr([]))).value).Ok?
      && CastInfo(TruthyNames(Iterate(Lookup(info.fields, "actress").GetOr(Arr([]))).value).value,
                  TruthyNames(Iterate(Lookup(info.fields, "director").GetOr(Arr([]))).value).value).Ok?
    ensures r.Ok? ==>
      r.value == CastInfo(TruthyNames(Iterate(Lookup(info.fields, "actress").GetOr(Arr([]))).value).value,
                          TruthyNames(Iterate(Lookup(info.fields, "director").GetOr(Arr([]))).value).value).value
  {
    var actressList :- Iterate(Lookup(info.fields, "actress").GetOr(Arr([])));
    var actresses :- TruthyNames(actressList);
    var directorList :- Iterate(Lookup(info.fields, "director").GetOr(Arr([])));
    var directors :- TruthyNames(directorList);
    CastInfo(actresses, directors)
  }

  /** What the draft's prompt is built from. */
  datatype DraftFacts = DraftFacts(title: Json, genres: seq<Json>, reviewScore: Json, reviewCount: Json,
                                   maker: Json, series: Json, releaseDate: Json, category: Json,
                                   htmlSummary: Json, castInfo: string)

  const SummaryPlaceholder := "(\U{30C6}\U{30B9}\U{30C8}\U{7528}\U{306E}\U{3042}\U{3089}\U{3059}\U{3058})"

  /** Lines 17-39, outside the `try`.  The maker list comes from the item
      itself (`maker`, else `manufacture`), not from `iteminfo`. */
  function DraftPromptFacts(item: Json): (r: Result<DraftFacts>)
    ensures !item.Obj? ==> r == Err(AttributeError)
    ensures r.Ok? && Truthy(Field(item, "maker")) ==> NameOfFirst(Field(item, "maker"), Str("")) == Ok(r.value.maker)
    ensures r.Ok? && !Truthy(Field(item, "maker")) && Truthy(Field(item, "manufacture")) ==>
      NameOfFirst(Field(item, "manufacture"), Str("")) == Ok(r.value.maker)
    ensures r.Ok? && !Truthy(Field(item, "maker")) && !Truthy(Field(item, "manufacture")) ==> r.value.maker == Str("")
    ensures r.Ok? && "html_summary" !in Keys(item.fields) ==> r.value.htmlSummary == Str(SummaryPlaceholder)
    ensures r.Ok? ==> Sub(item, "iteminfo").Obj?
    ensures r.Ok? ==> Iterate(Lookup(Sub(item, "iteminfo").fields, "genre").GetOr(Arr([]))).Ok?
    ensures r.Ok? ==> DraftGenres(Iterate(Lookup(Sub(item, "iteminfo").fields, "genre").GetOr(Arr([]))).value) == Ok(r.value.genres)
    ensures r.Ok? ==>
      var actresses := Iterate(Lookup(Sub(item, "iteminfo").fields, "actress").GetOr(Arr([])));
      var directors := Iterate(Lookup(Sub(item, "iteminfo").fields, "director").GetOr(Arr([])));
      && actresses.Ok? && directors.Ok? && TruthyNames(actresses.value).Ok? && TruthyNames(directors.value).Ok?
      && CastInfo(TruthyNames(actresses.value).value, TruthyNames(directors.value).value) == Ok(r.value.castInfo)
  {
    if !item.Obj? then Err(AttributeError)
    else
      var info := Sub(item, "iteminfo");
      if !info.Obj? then Err(AttributeError)
      else
        var raw :- Iterate(Lookup(info.fields, "genre").GetOr(Arr([])));
        var genres :- DraftGenres(raw);
        var review := Sub(item, "review");
        if !review.Obj? then Err(AttributeError)
        else
          var makers := if Truthy(Field(item, "maker")) then Field(item, "maker")
                        else if Truthy(Field(item, "manufacture")) then Field(item, "manufacture")
                        else Arr([Obj([])]);
          var maker :- NameOfFirst(makers, Str(""));
          var series :- NameOfFirst(Lookup(info.fields, "series").GetOr(Arr([Obj([])])), Str(""));
          var cast :- CastOfInfo(info);
          Ok(DraftFacts(Lookup(item.fields, "title").GetOr(Str("")), genres,
                        Lookup(review.fields, "average").GetOr(Str(Unknown)),
                        Lookup(review.fields, "count").GetOr(Int(0)),
                        maker, series, Lookup(item.fields, "date").GetOr(Str("")),
                        Lookup(item.fields, "category_name").GetOr(Str("")),
                        Lookup(item.fields, "html_summary").GetOr(Str(SummaryPlaceholder)), cast))
  }

  /** The value under `k` after the conversion of one key. */
  function Converted(v: Option<Json>): Option<Json> {
    match v
    case Some(Str(s)) => Some(Str(Unescape(s)))
    case other => other
  }

  /** One round of lines 115-117: `if key in data and isinstance(data[key], str)`.
      Only a dict can both contain the key and be indexed by it. */
  function ConvertKey(data: Json, k: string): (r: Result<Json>)
    ensures data.Obj? ==> r.Ok? && r.value.Obj? && Keys(r.value.fields) == Keys(data.fields)
    ensures data.Obj? ==> Lookup(r.value.fields, k) == Converted(Lookup(data.fields, k))
    ensures data.Obj? ==> forall o :: o != k ==> Lookup(r.value.fields, o) == Lookup(data.fields, o)
    ensures r.Ok? && !data.Obj? ==> r.value == data
    ensures !data.Obj? ==> (r.Ok? <==> JsonOps.Contains(data, k) == Ok(false))
  {
    var has :- JsonOps.Contains(data, k);
    if !has then Ok(data)
    else
      var v :- Index(data, k);
      if v.Str? then
        var f := Put(data.fields, k, Str(Unescape(v.s)));
        assert forall o :: o != k ==> Lookup(f, o) == Lookup(data.fields, o) by {
          forall o | o != k ensures Lookup(f, o) == Lookup(data.fields, o) {
            PutKeepsOthers(data.fields, k, Str(Unescape(v.s)), o);
          }
        }
        Ok(Obj(f))
      else Ok(data)
  }

  /** None of the three keys is `in` the parsed value (for a list: as an
      item; for a string: as a substring). */
  predicate NoAutoKeyIn(data: Json) {
    forall i :: 0 <= i < 3 ==> JsonOps.Contains(data, AutoKeys[i]) == Ok(false)
  }

  /** The conversion loop over the three keys. */
  function ConvertAll(data: Json): (r: Result<Json>)
    ensures data.Obj? ==> r.Ok? && r.value.Obj? && Keys(r.value.fields) == Keys(data.fields)
    ensures data.Obj? ==> forall k :: k in AutoKeys ==> Lookup(r.value.fields, k) == Converted(Lookup(data.fields, k))
    ensures data.Obj? ==> forall o :: o !in AutoKeys ==> Lookup(r.value.fields, o) == Lookup(data.fields, o)
    ensures r.Ok? && !data.Obj? ==> r.value == data
    ensures !data.Obj? ==> (r.Ok? <==> NoAutoKeyIn(data))
  {
    var a :- ConvertKey(data, AutoKeys[0]);
    var b :- ConvertKey(a, AutoKeys[1]);
    var c :- ConvertKey(b, AutoKeys[2]);
    NoAutoKeyInUnfold(data);
    if data.Obj? then
      ConvertThreeKeys(data, a, b, c);
      Ok(c)
    else Ok(c)
  }

  /** `NoAutoKeyIn` spelled out key by key. */
  lemma NoAutoKeyInUnfold(data: Json)
    ensures NoAutoKeyIn(data) <==>
      && JsonOps.Contains(data, AutoKeys[0]) == Ok(false)
      && JsonOps.Contains(data, AutoKeys[1]) == Ok(false)
      && JsonOps.Contains(data, AutoKeys[2]) == Ok(false)
  {
  }

  /** On a dict, the three rounds convert exactly the three keys. */
  lemma ConvertThreeKeys(data: Json, a: Json, b: Json, c: Json)
    requires data.Obj? && ConvertKey(data, AutoKeys[0]) == Ok(a)
    requires ConvertKey(a, AutoKeys[1]) == Ok(b) && ConvertKey(b, AutoKeys[2]) == Ok(c)
    ensures c.Obj? && Keys(c.fields) == Keys(data.fields)
    ensures forall k :: k in AutoKeys ==> Lookup(c.fields, k) == Converted(Lookup(data.fields, k))
    ensures forall o :: o !in AutoKeys ==> Lookup(c.fields, o) == Lookup(data.fields, o)
  {
    assert ConvertedAt(data, a, AutoKeys[0]) && ConvertedAt(a, b, AutoKeys[1]) && ConvertedAt(b, c, AutoKeys[2]);
    ThreeKeysConverted(data, a, b, c);
    ThreeKeysOthers(data, a, b, c);
  }

  /** `y` is the dict `x` with the value under `k` converted and every other
      key unchanged. */
  ghost predicate ConvertedAt(x: Json, y: Json, k: string) {
    && x.Obj? && y.Obj?
    && Lookup(y.fields, k) == Converted(Lookup(x.fields, k))
    && forall o :: o != k ==> Lookup(y.fields, o) == Lookup(x.fields, o)
  }

  /** Each of the three keys is converted once, by its own round. */
  lemma ThreeKeysConverted(data: Json, a: Json, b: Json, c: Json)
    requires ConvertedAt(data, a, AutoKeys[0]) && ConvertedAt(a, b, AutoKeys[1]) && ConvertedAt(b, c, AutoKeys[2])
    ensures forall k :: k in AutoKeys ==> Lookup(c.fields, k) == Converted(Lookup(data.fields, k))
  {
    var k0, k1, k2 := AutoKeys[0], AutoKeys[1], AutoKeys[2];
    AutoKeysDistinct();
    assert Lookup(c.fields, k0) == Lookup(b.fields, k0) == Lookup(a.fields, k0);
    assert Lookup(c.fields, k1) == Lookup(b.fields, k1);
    assert Lookup(a.fields, k1) == Lookup(data.fields, k1);
    assert Lookup(b.fields, k2) == Lookup(a.fields, k2) == Lookup(data.fields, k2);
    assert AutoKeys == [k0, k1, k2];
  }

  /** The three keys differ (at their sixth character). */
  lemma AutoKeysDistinct()
    ensures AutoKeys[0] != AutoKeys[1] && AutoKeys[1] != AutoKeys[2] && AutoKeys[0] != AutoKeys[2]
  {
    assert AutoKeys[0][5] == 'c' && AutoKeys[1][5] == 's' && AutoKeys[2][5] == 'p';
  }

  /** Every other key passes through the three rounds unchanged. */
  lemma ThreeKeysOthers(data: Json, a: Json, b: Json, c: Json)
    requires ConvertedAt(data, a, AutoKeys[0]) && ConvertedAt(a, b, AutoKeys[1]) && ConvertedAt(b, c, AutoKeys[2])
    ensures forall o :: o !in AutoKeys ==> Lookup(c.fields, o) == Lookup(data.fields, o)
  {
  }

  /** Lines 112-123 after the model call: parse, convert, and return the
      parsed value itself; any exception yields the defaults. */
  function DraftShape(parsed: Option<Json>): (r: Json)
    ensures parsed.None? ==> r == Defaults
    ensures parsed.Some? && parsed.value.Obj? ==> r.Obj? && Keys(r.fields) == Keys(parsed.value.fields)
    ensures parsed.Some? && parsed.value.Obj? ==> forall k :: (Lookup(r.fields, k) ==
      (if k in AutoKeys then Converted(Lookup(parsed.value.fields, k)) else Lookup(parsed.value.fields, k)))
    ensures parsed.Some? && !parsed.value.Obj? ==>
      r == (if NoAutoKeyIn(parsed.value) then parsed.value else Defaults)
  {
    match parsed
    case None => Defaults
    case Some(d) =>
      match ConvertAll(d)
      case Ok(v) => v
      case Err(_) => Defaults
  }

  /** `generate_content` of the draft. */
  function DraftGenerateContent(item: Json, complete: DraftFacts -> Option<string>,
                                parse: string -> Option<Json>): (r: Result<Json>)
    ensures r.Err? <==> DraftPromptFacts(item).Err?
    ensures r.Ok? && complete(DraftPromptFacts(item).value).None? ==> r.value == Defaults
    ensures r.Ok? && complete(DraftPromptFacts(item).value).Some? ==>
      r.value == DraftShape(parse(ExtractJsonText(complete(DraftPromptFacts(item).value).value)))
  {
    var facts :- DraftPromptFacts(item);
    match complete(facts)
    case None => Ok(Defaults)
    case Some(reply) => Ok(DraftShape(parse(ExtractJsonText(reply))))
  }

  /** After the draft's conversion none of the three texts holds a literal
      backslash-n. */
  lemma DraftLeavesNoEscapes(d: Json, k: string)
    requires d.Obj? && k in AutoKeys
    requires Lookup(DraftShape(Some(d)).fields, k).Some? && Lookup(DraftShape(Some(d)).fields, k).value.Str?
    ensures !HasEscapedNewline(Lookup(DraftShape(Some(d)).fields, k).value.s)
  {
    var v := Lookup(d.fields, k);
    assert Lookup(DraftShape(Some(d)).fields, k) == Converted(v) by {
      assert DraftShape(Some(d)) == ConvertAll(d).value;
    }
    ConvertedHasNoEscape(v);
  }

  /** A converted value that is text holds no literal backslash-n. */
  lemma ConvertedHasNoEscape(v: Option<Json>)
    requires Converted(v).Some? && Converted(v).value.Str?
    ensures !HasEscapedNewline(Converted(v).value.s)
  {
    if v.Some? && v.value.Str? {
      UnescapeLeavesNoEscape(v.value.s);
    }
  }

  /** A parsed dict comes back with its own keys and no defaults added:
      a missing key stays missing. */
  lemma DraftAddsNoKeys(d: Json, k: string)
    requires d.Obj? && k !in Keys(d.fields)
    ensures Lookup(DraftShape(Some(d)).fields, k).None?
  {
  }
}

=== FILE: genre_master.dfy ===
/** `insert_genres_to_master` of `dmm/genre.py`: for each genre, look its id
    up in `mst_genre` and insert `{id, name}` only when no row has it.  The
    table is a sequence of entries standing for the store, passed in and
    returned; reading `g["id"]` or `g["name"]` can raise, which stops the
    loop with the earlier inserts already made. */
module GenreMaster {
  import opened Wrappers
  import opened Json

  datatype Entry = Entry(id: Json, name: Json)

  /** `g["id"]`, then `g["name"]`. */
  function EntryOf(g: Json): (r: Result<Entry>)
    ensures r.Ok? <==> Index(g, "id").Ok? && Index(g, "name").Ok?
    ensures r.Ok? ==> Ok(r.value.id) == Index(g, "id") && Ok(r.value.name) == Index(g, "name")
    ensures Index(g, "id").Err? ==> r == Err(Index(g, "id").error)
  {
    var id :- Index(g, "id");
    var name :- Index(g, "name");
    Ok(Entry(id, name))
  }

  /** `select("id").eq("id", id)` finds a row. */
  predicate HasId(t: seq<Entry>, id: Json) {
    exists i :: 0 <= i < |t| && t[i].id == id
  }

  predicate UniqueIds(t: seq<Entry>) {
    forall i, j :: 0 <= i < j < |t| ==> t[i].id != t[j].id
  }

  /** `a` is `b` with some elements left out. */
  predicate Subseq<T(==)>(a: seq<T>, b: seq<T>)
    decreases |b|
  {
    |a| == 0 ||
    (|b| > 0 &&
     ((a[|a| - 1] == b[|b| - 1] && Subseq(a[..|a| - 1], b[..|b| - 1])) || Subseq(a, b[..|b| - 1])))
  }

  /** What reading `g["id"]` and `g["name"]` gives for each genre; the reads
      have no side effects, so doing them all first changes nothing. */
  function Parsed(genres: seq<Json>): (es: seq<Result<Entry>>)
    ensures |es| == |genres|
    ensures forall j :: 0 <= j < |genres| ==> es[j] == EntryOf(genres[j])
  {
    seq(|genres|, j requires 0 <= j < |genres| => EntryOf(genres[j]))
  }

  /** The entries of reads that all succeeded. */
  function Values(es: seq<Result<Entry>>): (r: seq<Entry>)
    requires forall j :: 0 <= j < |es| ==> es[j].Ok?
    ensures |r| == |es| && forall j :: 0 <= j < |es| ==> Ok(r[j]) == es[j]
  {
    seq(|es|, j requires 0 <= j < |es| => es[j].value)
  }

  lemma SubseqSkip<T>(a: seq<T>, b: seq<T>, x: T)
    requires Subseq(a, b)
    ensures Subseq(a, b + [x])
  {
    assert (b + [x])[..|b|] == b;
  }

  lemma SubseqTake<T>(a: seq<T>, b: seq<T>, x: T)
    requires Subseq(a, b)
    ensures Subseq(a + [x], b + [x])
  {
    assert (b + [x])[..|b|] == b;
    assert (a + [x])[..|a|] == a;
  }

  /** Every element of a subsequence occurs in the whole. */
  lemma {:induction false} SubseqMembers<T>(a: seq<T>, b: seq<T>)
    requires Subseq(a, b)
    ensures forall x :: x in a ==> x in b
    decreases |b|
  {
    if |a| > 0 {
      var b' := b[..|b| - 1];
      if a[|a| - 1] == b[|b| - 1] && Subseq(a[..|a| - 1], b') {
        SubseqMembers(a[..|a| - 1], b');
        assert a == a[..|a| - 1] + [a[|a| - 1]];
        assert b == b' + [b[|b| - 1]];
      } else {
        SubseqMembers(a, b');
        assert b == b' + [b[|b| - 1]];
      }
    }
  }

  lemma ValuesSnoc(es: seq<Result<Entry>>, i: nat)
    requires i < |es| && forall j :: 0 <= j <= i ==> es[j].Ok?
    ensures Values(es[..i + 1]) == Values(es[..i]) + [es[i].value]
  {
    var l, r := Values(es[..i + 1]), Values(es[..i]) + [es[i].value];
    assert forall j :: 0 <= j < i + 1 ==> l[j] == r[j] by {
      forall j | 0 <= j < i + 1 ensures l[j] == r[j] {
        assert es[..i + 1][j] == es[j];
        if j < i {
          assert es[..i][j] == es[j];
        }
      }
    }
  }

  lemma HasIdAppend(t: seq<Entry>, e: Entry, id: Json)
    requires HasId(t, id)
    ensures HasId(t + [e], id)
  {
    var i :| 0 <= i < |t| && t[i].id == id;
    assert (t + [e])[i].id == id;
  }

  lemma AppendFreshKeepsUnique(t: seq<Entry>, e: Entry)
    requires UniqueIds(t) && !HasId(t, e.id)
    ensures UniqueIds(t + [e])
  {
    var t' := t + [e];
    forall i, j | 0 <= i < j < |t'| ensures t'[i].id != t'[j].id {
      if j == |t| {
        assert t'[i] == t[i];
      } else {
        assert t'[i] == t[i] && t'[j] == t[j];
      }
    }
  }

  /** The table after the call, the rows inserted, how many genres were
      handled, and the exception that stopped the loop, if any. */
  datatype Run = Run(table: seq<Entry>, inserted: seq<Entry>, processed: nat, error: Option<PyError>)

  /** Each inserted entry was absent from the table as it stood when its
      genre was checked. */
  predicate InsertedFresh(table: seq<Entry>, inserted: seq<Entry>) {
    forall j :: 0 <= j < |inserted| ==> !HasId(table + inserted[..j], inserted[j].id)
  }

  lemma FreshAppend(table: seq<Entry>, ins: seq<Entry>, e: Entry)
    requires InsertedFresh(table, ins) && !HasId(table + ins, e.id)
    ensures InsertedFresh(table, ins + [e])
  {
    var ins' := ins + [e];
    forall j | 0 <= j < |ins'| ensures !HasId(table + ins'[..j], ins'[j].id) {
      if j == |ins| {
        assert ins'[..j] == ins;
      } else {
        assert ins'[..j] == ins[..j] && ins'[j] == ins[j];
      }
    }
  }

  /** What holds of the reads after the first `i` genres were handled
      without error: each succeeded, its id is in the table, and the
      inserted entries are some of theirs, in order. */
  predicate Scanned(es: seq<Result<Entry>>, ins: seq<Entry>, t: seq<Entry>, i: nat) {
    && i <= |es|
    && (forall j :: 0 <= j < i ==> es[j].Ok?)
    && (forall j :: 0 <= j < i ==> HasId(t, es[j].value.id))
    && Subseq(ins, Values(es[..i]))
  }

  /** What holds of the table: it only grew, and only by fresh ids. */
  predicate Kept(table: seq<Entry>, ins: seq<Entry>, t: seq<Entry>) {
    && t == table + ins
    && InsertedFresh(table, ins)
    && (UniqueIds(table) ==> UniqueIds(t))
  }

  lemma InsertKeeps(table: seq<Entry>, ins: seq<Entry>, t: seq<Entry>, e: Entry)
    requires Kept(table, ins, t) && !HasId(t, e.id)
    ensures Kept(table, ins + [e], t + [e])
  {
    FreshAppend(table, ins, e);
    if UniqueIds(table) {
      AppendFreshKeepsUnique(t, e);
    }
  }

  lemma PresentAfterInsert(es: seq<Result<Entry>>, t: seq<Entry>, i: nat, e: Entry)
    requires i < |es| && forall j :: 0 <= j < i ==> es[j].Ok?
    requires forall j :: 0 <= j < i ==> HasId(t, es[j].value.id)
    requires es[i] == Ok(e)
    ensures forall j :: 0 <= j < i + 1 ==> HasId(t + [e], es[j].value.id)
  {
    forall j | 0 <= j < i + 1 ensures HasId(t + [e], es[j].value.id) {
      if j < i {
        HasIdAppend(t, e, es[j].value.id);
      } else {
        assert (t + [e])[|t|] == e;
      }
    }
  }

  lemma InsertScans(es: seq<Result<Entry>>, ins: seq<Entry>, t: seq<Entry>, i: nat, e: Entry)
    requires Scanned(es, ins, t, i) && i < |es| && es[i] == Ok(e)
    ensures Scanned(es, ins + [e], t + [e], i + 1)
  {
    PresentAfterInsert(es, t, i, e);
    ValuesSnoc(es, i);
    SubseqTake(ins, Values(es[..i]), e);
  }

  /** Handling a genre whose id is present changes nothing. */
  lemma SkipScans(es: seq<Result<Entry>>, ins: seq<Entry>, t: seq<Entry>, i: nat, e: Entry)
    requires Scanned(es, ins, t, i) && i < |es|
    requires es[i] == Ok(e) && HasId(t, e.id)
    ensures Scanned(es, ins, t, i + 1)
  {
    ValuesSnoc(es, i);
    SubseqSkip(ins, Values(es[..i]), e);
  }

  /** The loop of `insert_genres_to_master`. */
  method InsertGenres(genres: seq<Json>, table: seq<Entry>) returns (r: Run)
    ensures Scanned(Parsed(genres), r.inserted, r.table, r.processed)
    ensures Kept(table, r.inserted, r.table)
    ensures r.error.None? <==> r.processed == |genres|
    ensures r.error.Some? ==> r.processed < |genres| && EntryOf(genres[r.processed]) == Err(r.error.value)
  {
    var es := Parsed(genres);
    var t := table;
    var ins: seq<Entry> := [];
    var i := 0;
    assert es[..0] == [];
    while i < |es|
      invariant Scanned(es, ins, t, i)
      invariant Kept(table, ins, t)
    {
      var e := es[i];
      if e.Err? {
        return Run(t, ins, i, Some(e.error));
      }
      if !HasId(t, e.value.id) {
        InsertKeeps(table, ins, t, e.value);
        InsertScans(es, ins, t, i, e.value);
        ins := ins + [e.value];
        t := t + [e.value];
      } else {
        SkipScans(es, ins, t, i, e.value);
      }
      i := i + 1;
    }
    return Run(t, ins, i, None);
  }

  lemma NotInPrefix(t: seq<Entry>, u: seq<Entry>, id: Json)
    requires !HasId(t + u, id)
    ensures !HasId(t, id)
  {
    forall i | 0 <= i < |t| ensures t[i].id != id {
      assert (t + u)[i] == t[i];
    }
  }

  /** Ids already in the table are never inserted again, and an id repeated
      in the input is inserted at most once. */
  lemma {:induction false} FreshInsertsAreNew(table: seq<Entry>, inserted: seq<Entry>)
    requires InsertedFresh(table, inserted)
    ensures forall j :: 0 <= j < |inserted| ==> !HasId(table, inserted[j].id)
    ensures UniqueIds(inserted)
  {
    forall j | 0 <= j < |inserted| ensures !HasId(table, inserted[j].id) {
      NotInPrefix(table, inserted[..j], inserted[j].id);
    }
    forall a, b | 0 <= a < b < |inserted| ensures inserted[a].id != inserted[b].id {
      var prefix := table + inserted[..b];
      assert prefix[|table| + a] == inserted[a];
      assert !HasId(prefix, inserted[b].id);
    }
  }

  /** Every inserted entry is the entry of one of the handled genres. */
  lemma InsertedComeFromInput(es: seq<Result<Entry>>, ins: seq<Entry>, t: seq<Entry>, i: nat)
    requires Scanned(es, ins, t, i)
    ensures forall k :: 0 <= k < |ins| ==> exists j :: 0 <= j < i && es[j] == Ok(ins[k])
  {
    var vs := Values(es[..i]);
    SubseqMembers(ins, vs);
    forall k | 0 <= k < |ins| ensures exists j :: 0 <= j < i && es[j] == Ok(ins[k]) {
      assert ins[k] in ins;
      var j :| 0 <= j < |vs| && vs[j] == ins[k];
      assert es[..i][j] == es[j];
    }
  }

  /** The ids in the table afterwards are exactly the old ids and the ids of
      the handled genres. */
  lemma IdsAfterwards(es: seq<Result<Entry>>, table: seq<Entry>, r: Run, id: Json)
    requires Scanned(es, r.inserted, r.table, r.processed)
    requires Kept(table, r.inserted, r.table)
    ensures HasId(r.table, id) <==>
      HasId(table, id) || exists j :: 0 <= j < r.processed && es[j].value.id == id
  {
    if HasId(r.table, id) && !HasId(table, id) {
      var k :| 0 <= k < |r.table| && r.table[k].id == id;
      assert forall m :: 0 <= m < |table| ==> r.table[m] == table[m];
      var e := r.inserted[k - |table|];
      InsertedComeFromInput(es, r.inserted, r.table, r.processed);
      var j :| 0 <= j < r.processed && es[j] == Ok(e);
      assert es[j].value.id == id;
    }
    if HasId(table, id) {
      var k :| 0 <= k < |table| && table[k].id == id;
      assert r.table[k].id == id;
    }
  }

  /** After a complete run, whatever a later run inserts has an id the
      table already held. */
  lemma InsertedAlreadyPresent(es: seq<Result<Entry>>, r1: Run, ins: seq<Entry>, t: seq<Entry>, i: nat)
    requires Scanned(es, r1.inserted, r1.table, r1.processed) && r1.processed == |es|
    requires Scanned(es, ins, t, i)
    ensures forall k :: 0 <= k < |ins| ==> HasId(r1.table, ins[k].id)
  {
    InsertedComeFromInput(es, ins, t, i);
    forall k | 0 <= k < |ins| ensures HasId(r1.table, ins[k].id) {
      var j :| 0 <= j < i && es[j] == Ok(ins[k]);
      assert HasId(r1.table, es[j].value.id);
    }
  }

  lemma FirstInsertFresh(table: seq<Entry>, ins: seq<Entry>)
    requires InsertedFresh(table, ins) && |ins| > 0
    ensures !HasId(table, ins[0].id)
  {
    assert table + ins[..0] == table;
  }

  /** Running the loop again over the same genres after a complete run
      inserts nothing: every id is already present. */
  lemma SecondRunInsertsNothing(es: seq<Result<Entry>>, r1: Run, r2: Run)
    requires Scanned(es, r1.inserted, r1.table, r1.processed) && r1.processed == |es|
    requires Scanned(es, r2.inserted, r2.table, r2.processed)
    requires Kept(r1.table, r2.inserted, r2.table)
    ensures r2.inserted == [] && r2.table == r1.table
  {
    if |r2.inserted| > 0 {
      FirstInsertFresh(r1.table, r2.inserted);
      InsertedAlreadyPresent(es, r1, r2.inserted, r2.table, r2.processed);
      assert false;
    }
  }
}

=== FILE: ingestion.dfy ===
/** The current revision of `insert_dmm_item`
    (`db/trn_dmm_items_repository2.py`): skip an item without a content id or
    one already stored, upload its preview pages, derive the row (genres,
    prices, maker, series, generated texts) and insert it.  The whole body
    sits in one `try`, so every exception ends the call quietly: the model
    reports it as `Failed` with the calls made so far.
    The table, the image uploader and the text generator are parameters. */
module Ingestion {
  import opened Wrappers
  import opened Json
  import opened Price

  /** A row of `trn_dmm_items`, one field per column the insert writes. */
  datatype Row = Row(
    contentId: Json, productId: Json, site: string, service: string, floor: string,
    title: Json, volume: Json, reviewCount: Json, reviewAverage: Json,
    itemUrl: Json, affiliateUrl: Json, imageLargeUrl: Json, imageSmallUrl: Json,
    sampleImages: Json, sampleImagesS: Json, sampleMovieUrl: Json,
    price: Option<nat>, listPrice: Option<nat>, releaseDate: Json,
    genres: Json, genreIds: Json, series: Json, maker: Json, campaign: Json,
    actress: Json, director: Json, author: Json, categoryName: Json,
    tachiyomiUrl: Json, tachiyomiAffiliateUrl: Json,
    autoComment: Json, autoSummary: Json, autoPoint: Json, rawJson: Json)

  /** External calls, in order. */
  datatype Event =
    | Query(contentId: Json)
    | UploadPage(page: Json, index: nat)
    | Generate
    | Insert(row: Row)

  datatype Outcome = Skipped | Inserted | Failed(error: PyError)

  type Table = seq<Row>

  /** The query `select id ... eq("content_id", cid)` finds a row. */
  predicate HasRow(table: Table, cid: Json) {
    exists i :: 0 <= i < |table| && table[i].contentId == cid
  }

  /** The collaborators: `upload(page, content_id, index, floor)` is the
      local-file S3 adapter (a path, `""`, or an exception); `generate(item)`
      is `generate_content`; the query and the insert may raise. */
  datatype Env = Env(
    upload: (Json, Json, nat, string) -> Result<string>,
    generate: Json -> Result<Json>,
    queryRaises: bool,
    insertRaises: bool)

  datatype Run = Run(events: seq<Event>, table: Table, outcome: Outcome)

  // ---------------------------------------------------------------------------
  // Pieces of the row
  // ---------------------------------------------------------------------------

  /** `genre_names` and `genre_ids` from `iteminfo.get("genre", [])`. */
  function GenreLists(iteminfo: Json): (r: Result<(seq<Json>, seq<Json>)>)
    ensures r.Ok? ==> |r.value.0| == |r.value.1|
    ensures r.Ok? ==> iteminfo.Obj? && Iterate(Get(iteminfo, "genre", Arr([])).value).Ok?
    ensures r.Ok? ==> var gs := Iterate(Get(iteminfo, "genre", Arr([])).value).value;
      && |r.value.0| == |gs|
      && (forall i :: 0 <= i < |gs| ==> Index(gs[i], "name") == Ok(r.value.0[i]))
      && (forall i :: 0 <= i < |gs| ==> Index(gs[i], "id") == Ok(r.value.1[i]))
  {
    var raw :- Get(iteminfo, "genre", Arr([]));
    var gs :- Iterate(raw);
    var names :- Pluck(gs, "name");
    var ids :- Pluck(gs, "id");
    Ok((names, ids))
  }

  /** `iteminfo.get("maker") or iteminfo.get("manufacture") or [{}]`, then
      `[0].get("name")`. */
  function Maker(iteminfo: Json): (r: Result<Json>)
    requires iteminfo.Obj?
    ensures Truthy(Field(iteminfo, "maker")) ==> r == NameOfFirst(Field(iteminfo, "maker"), Null)
    ensures !Truthy(Field(iteminfo, "maker")) && Truthy(Field(iteminfo, "manufacture")) ==>
      r == NameOfFirst(Field(iteminfo, "manufacture"), Null)
    ensures !Truthy(Field(iteminfo, "maker")) && !Truthy(Field(iteminfo, "manufacture")) ==> r == Ok(Null)
  {
    var maker := Lookup(iteminfo.fields, "maker").GetOr(Null);
    var manufacture := Lookup(iteminfo.fields, "manufacture").GetOr(Null);
    var list := if Truthy(maker) then maker else if Truthy(manufacture) then manufacture else Arr([Obj([])]);
    var first :- First(list);
    Get(first, "name", Null)
  }

  /** The maker falls back to the manufacturer when the maker list is
      missing or empty. */
  lemma MakerFallback(name: Json, other: seq<(string, Json)>)
    requires "maker" !in Keys(other) && "manufacture" !in Keys(other)
    ensures Maker(Obj(other + [("manufacture", Arr([Obj([("name", name)])]))])) == Ok(name)
  {
    var fields := other + [("manufacture", Arr([Obj([("name", name)])]))];
    LookupAppend(other, "maker", ("manufacture", Arr([Obj([("name", name)])])));
    LookupAppend(other, "manufacture", ("manufacture", Arr([Obj([("name", name)])])));
  }

  lemma {:induction false} LookupAppend(fields: seq<(string, Json)>, k: string, last: (string, Json))
    requires k !in Keys(fields)
    ensures Lookup(fields + [last], k) == (if last.0 == k then Some(last.1) else None)
  {
    if |fields| > 0 {
      assert (fields + [last])[1..] == fields[1..] + [last];
      assert k !in Keys(fields[1..]) by {
        assert forall i :: 0 <= i < |fields[1..]| ==> Keys(fields[1..])[i] == Keys(fields)[i + 1];
      }
      LookupAppend(fields[1..], k, last);
    } else {
      assert fields + [last] == [last];
    }
  }


  // ---------------------------------------------------------------------------
  // The upload loop
  // ---------------------------------------------------------------------------

  /** Calls made by the page loop, the non-empty paths it collected, and the
      exception that stopped it, if any. */
  datatype Uploads = Uploads(events: seq<Event>, kept: seq<string>, raised: Option<PyError>)

  /** What the adapter answers for page `i`, uploaded with index `i + 1`. */
  function Answer(pages: seq<Json>, i: nat, cid: Json, floor: string, env: Env): Result<string>
    requires i < |pages|
  {
    env.upload(pages[i], cid, i + 1, floor)
  }

  /** `for idx, img in enumerate(pages)` from page `k` on: one upload per
      page with index `idx + 1`; an empty reply is logged and skipped, an
      exception leaves the loop. */
  function UploadFrom(pages: seq<Json>, k: nat, cid: Json, floor: string, env: Env): (r: Uploads)
    requires k <= |pages|
    ensures |r.events| <= |pages| - k
    ensures forall i :: 0 <= i < |r.events| ==> r.events[i] == UploadPage(pages[k + i], k + i + 1)
    ensures r.raised.None? <==> forall i :: k <= i < |pages| ==> Answer(pages, i, cid, floor, env).Ok?
    ensures r.raised.None? ==> |r.events| == |pages| - k
    ensures r.raised.Some? ==>
      (0 < |r.events| && Answer(pages, k + |r.events| - 1, cid, floor, env) == Err(r.raised.value))
    ensures "" !in r.kept
    decreases |pages| - k
  {
    if k == |pages| then Uploads([], [], None)
    else
      match Answer(pages, k, cid, floor, env)
      case Err(e) => Uploads([UploadPage(pages[k], k + 1)], [], Some(e))
      case Ok(path) =>
        var rest := UploadFrom(pages, k + 1, cid, floor, env);
        Uploads([UploadPage(pages[k], k + 1)] + rest.events,
                (if path == "" then [] else [path]) + rest.kept, rest.raised)
  }

  /** The paths of `replies` that are not empty, in order. */
  function NonEmpty(replies: seq<string>): (r: seq<string>)
    ensures "" !in r && |r| <= |replies|
    ensures forall p :: p in replies && p != "" ==> p in r
  {
    if |replies| == 0 then []
    else (if replies[0] == "" then [] else [replies[0]]) + NonEmpty(replies[1..])
  }

  /** When no upload raises, the collected paths are exactly the non-empty
      replies, in page order: a page that fails does not stop the others. */
  lemma {:induction false} UploadKeepsSuccesses(pages: seq<Json>, k: nat, cid: Json, floor: string,
                                                env: Env, replies: seq<string>)
    requires k <= |pages| && |replies| == |pages| - k
    requires forall i :: k <= i < |pages| ==> Answer(pages, i, cid, floor, env) == Ok(replies[i - k])
    ensures UploadFrom(pages, k, cid, floor, env).kept == NonEmpty(replies)
    decreases |pages| - k
  {
    if k < |pages| {
      UploadKeepsSuccesses(pages, k + 1, cid, floor, env, replies[1..]);
    }
  }

  // ---------------------------------------------------------------------------
  // insert_dmm_item
  // ---------------------------------------------------------------------------

  /** `item.get("content_id")` of an object. */
  function ContentId(item: Json): Json
    requires item.Obj?
  {
    Field(item, "content_id")
  }

  /** Everything the row needs that is read before `generate_content`. */
  datatype Early = Early(sampleImages: Json, sampleImagesS: Json, iteminfo: Json, names: seq<Json>, ids: seq<Json>)

  /** The sample image lists and the genre lists. */
  function ReadEarly(item: Json): (r: Result<Early>)
    requires item.Obj?
    ensures r.Ok? ==> r.value.iteminfo.Obj? && |r.value.names| == |r.value.ids|
    ensures r.Ok? ==> GenreLists(r.value.iteminfo) == Ok((r.value.names, r.value.ids))
    ensures r.Ok? ==> r.value.iteminfo == Lookup(item.fields, "iteminfo").GetOr(Obj([]))
  {
    var urls := Lookup(item.fields, "sampleImageURL").GetOr(Obj([]));
    if !urls.Obj? then Err(AttributeError)
    else
    var sampleImages :- Get(Lookup(urls.fields, "sample_l").GetOr(Obj([])), "image", Null);
    var sampleImagesS :- Get(Lookup(urls.fields, "sample_s").GetOr(Obj([])), "image", Null);
    var iteminfo := Lookup(item.fields, "iteminfo").GetOr(Obj([]));
    var lists :- GenreLists(iteminfo);
    Ok(Early(sampleImages, sampleImagesS, iteminfo, lists.0, lists.1))
  }

  /** `ai_content.get(...)` for the three generated texts, `""` when a key
      is missing, where `ai_content` is the reply or `{}` when the reply is
      falsy; a truthy reply that is not a dict raises on `.get`. */
  function AutoTexts(ai: Json): (r: Result<(Json, Json, Json)>)
    ensures !Truthy(ai) ==> r == Ok((Str(""), Str(""), Str("")))
    ensures Truthy(ai) && !ai.Obj? ==> r == Err(AttributeError)
    ensures ai.Obj? ==> r.Ok?
    ensures ai.Obj? ==> Get(ai, "auto_comment", Str("")) == Ok(r.value.0)
    ensures ai.Obj? ==> Get(ai, "auto_summary", Str("")) == Ok(r.value.1)
    ensures ai.Obj? ==> Get(ai, "auto_point", Str("")) == Ok(r.value.2)
  {
    // A falsy dict is `{}` already, so `or {}` only replaces other values.
    if ai.Obj? then
      Ok((Lookup(ai.fields, "auto_comment").GetOr(Str("")),
          Lookup(ai.fields, "auto_summary").GetOr(Str("")),
          Lookup(ai.fields, "auto_point").GetOr(Str(""))))
    else if Truthy(ai) then Err(AttributeError)
    else Ok((Str(""), Str(""), Str("")))
  }

  /** The values of the `data` dict that can raise, read in the order the
      dict evaluates them: both prices, the maker, the review, the images,
      the series and the tachiyomi URLs. */
  datatype Reads = Reads(price: Option<nat>, listPrice: Option<nat>, maker: Json,
                         review: seq<Json>, image: seq<Json>, series: Json, tachiyomi: seq<Json>)

  function ItemReads(item: Json, e: Early): (r: Result<Reads>)
    requires item.Obj? && e.iteminfo.Obj?
    ensures r.Ok? ==> Get(Sub(item, "prices"), "price", Null).Ok?
    ensures r.Ok? ==> ParsePriceJson(Get(Sub(item, "prices"), "price", Null).value) == Ok(r.value.price)
    ensures r.Ok? ==> ParsePriceJson(Get(Sub(item, "prices"), "list_price", Null).value) == Ok(r.value.listPrice)
    ensures r.Ok? ==> Maker(e.iteminfo) == Ok(r.value.maker)
    ensures r.Ok? ==> GetAll(Sub(item, "review"), ["count", "average"], Null) == Ok(r.value.review)
    ensures r.Ok? ==> GetAll(Sub(item, "imageURL"), ["large", "small"], Null) == Ok(r.value.image)
    ensures r.Ok? ==>
      NameOfFirst(Lookup(e.iteminfo.fields, "series").GetOr(Arr([Obj([])])), Null) == Ok(r.value.series)
    ensures r.Ok? ==> GetAll(Sub(item, "tachiyomi"), ["URL", "affiliateURL"], Null) == Ok(r.value.tachiyomi)
    ensures r.Ok? ==> |r.value.review| == 2 && |r.value.image| == 2 && |r.value.tachiyomi| == 2
    ensures !Sub(item, "prices").Obj? ==> r == Err(AttributeError)
  {
    var prices :- GetAll(Sub(item, "prices"), ["price", "list_price"], Null);
    var price :- ParsePriceJson(prices[0]);
    var listPrice :- ParsePriceJson(prices[1]);
    var maker :- Maker(e.iteminfo);
    var review :- GetAll(Sub(item, "review"), ["count", "average"], Null);
    var image :- GetAll(Sub(item, "imageURL"), ["large", "small"], Null);
    var series :- NameOfFirst(Lookup(e.iteminfo.fields, "series").GetOr(Arr([Obj([])])), Null);
    var tachiyomi :- GetAll(Sub(item, "tachiyomi"), ["URL", "affiliateURL"], Null);
    Ok(Reads(price, listPrice, maker, review, image, series, tachiyomi))
  }

  /** The `data` dict built after `generate_content`; `ai` is its reply, and
      a falsy reply stands for `{}`.  Every nested `.get` raises on a value
      that is not a dict; the model reads each nested dict once, which only
      reorders reads that make no external call. */
  function BuildRow(item: Json, e: Early, ai: Json, site: string, service: string, floor: string)
    : (r: Result<Row>)
    requires item.Obj? && e.iteminfo.Obj?
    ensures r.Ok? ==> r.value.contentId == ContentId(item) && r.value.rawJson == item
    ensures r.Ok? ==> r.value.genres == NormalizeField(Arr(e.names)) && r.value.genreIds == NormalizeField(Arr(e.ids))
    ensures r.Ok? ==> Get(Sub(item, "prices"), "price", Null).Ok?
    ensures r.Ok? ==> ParsePriceJson(Get(Sub(item, "prices"), "price", Null).value) == Ok(r.value.price)
    ensures r.Ok? ==> ParsePriceJson(Get(Sub(item, "prices"), "list_price", Null).value) == Ok(r.value.listPrice)
    ensures r.Ok? ==> Maker(e.iteminfo) == Ok(r.value.maker)
    ensures r.Ok? && !Truthy(ai) ==>
      (r.value.autoComment == Str("") && r.value.autoSummary == Str("") && r.value.autoPoint == Str(""))
    ensures r.Ok? ==> AutoTexts(ai) == Ok((r.value.autoComment, r.value.autoSummary, r.value.autoPoint))
    ensures Truthy(ai) && !ai.Obj? ==> r.Err?
    ensures r.Ok? ==> r.value.sampleImages == e.sampleImages && r.value.sampleImagesS == e.sampleImagesS
    ensures r.Ok? ==>
      NameOfFirst(Lookup(e.iteminfo.fields, "series").GetOr(Arr([Obj([])])), Null) == Ok(r.value.series)
    ensures r.Ok? ==> Get(Sub(item, "review"), "count", Null) == Ok(r.value.reviewCount)
                      && Get(Sub(item, "review"), "average", Null) == Ok(r.value.reviewAverage)
    ensures r.Ok? ==> Get(Sub(item, "imageURL"), "large", Null) == Ok(r.value.imageLargeUrl)
                      && Get(Sub(item, "imageURL"), "small", Null) == Ok(r.value.imageSmallUrl)
    ensures r.Ok? ==> Get(Sub(item, "tachiyomi"), "URL", Null) == Ok(r.value.tachiyomiUrl)
                      && Get(Sub(item, "tachiyomi"), "affiliateURL", Null) == Ok(r.value.tachiyomiAffiliateUrl)
    ensures r.Ok? ==> r.value.site == site && r.value.service == service && r.value.floor == floor
    ensures !Sub(item, "prices").Obj? ==> r == Err(AttributeError)
  {
    var v :- ItemReads(item, e);
    var auto :- AutoTexts(ai);
    Ok(Row(
      ContentId(item), Field(item, "product_id"), site, service, floor,
      Field(item, "title"), Field(item, "volume"), v.review[0], v.review[1],
      Field(item, "URL"), Field(item, "affiliateURL"), v.image[0], v.image[1],
      e.sampleImages, e.sampleImagesS, Field(item, "sampleMovieURL_highest"),
      v.price, v.listPrice, Field(item, "date"),
      NormalizeField(Arr(e.names)), NormalizeField(Arr(e.ids)), v.series, v.maker, Field(item, "campaign_data"),
      NormalizeField(Field(e.iteminfo, "actress")), NormalizeField(Field(e.iteminfo, "director")),
      Field(item, "author"), Field(item, "category_name"),
      v.tachiyomi[0], v.tachiyomi[1],
      auto.0, auto.1, auto.2, item))
  }

  /** A truthy reply that is not a dict makes the row raise `AttributeError`
      wherever a falsy reply would have given a row; where the falsy reply
      fails too, both fail with the same earlier exception. */
  lemma NonDictReplyRaises(item: Json, e: Early, ai: Json, site: string, service: string, floor: string)
    requires item.Obj? && e.iteminfo.Obj?
    requires Truthy(ai) && !ai.Obj?
    ensures BuildRow(item, e, Obj([]), site, service, floor).Ok? ==>
      BuildRow(item, e, ai, site, service, floor) == Err(AttributeError)
    ensures BuildRow(item, e, Obj([]), site, service, floor).Err? ==>
      BuildRow(item, e, ai, site, service, floor) == BuildRow(item, e, Obj([]), site, service, floor)
  {
    assert ItemReads(item, e).Ok? <==> BuildRow(item, e, Obj([]), site, service, floor).Ok?;
  }

  /** `tachiyomi_image_paths` as the loop sees it: nothing when falsy. */
  function PageList(pages: Json): (r: Result<seq<Json>>)
    ensures !Truthy(pages) ==> r == Ok([])
    ensures pages.Arr? ==> r == Ok(pages.items)
  {
    if Truthy(pages) then Iterate(pages) else Ok([])
  }

  /** The row `insert_dmm_item` builds, or the first exception on the way:
      the reads before the generator, `generate_content`, then the `data`
      dict. */
  function RowFor(item: Json, site: string, service: string, floor: string, env: Env): (r: Result<Row>)
    requires item.Obj?
    ensures var early := ReadEarly(item); var ai := env.generate(item);
      r.Ok? <==> early.Ok? && ai.Ok? && BuildRow(item, early.value, ai.value, site, service, floor).Ok?
    ensures ReadEarly(item).Ok? && env.generate(item).Ok? ==>
      r == BuildRow(item, ReadEarly(item).value, env.generate(item).value, site, service, floor)
    ensures ReadEarly(item).Ok? && env.generate(item).Err? ==> r == Err(env.generate(item).error)
    ensures ReadEarly(item).Err? ==> r == Err(ReadEarly(item).error)
  {
    var early :- ReadEarly(item);
    var ai :- env.generate(item);
    BuildRow(item, early, ai, site, service, floor)
  }

  /** From the reads before the generator to the insert: the calls made
      after the page uploads.  The row is inserted exactly when it can be
      built and the insert does not raise. */
  function AfterUploads(item: Json, site: string, service: string, floor: string,
                        env: Env, table: Table): (r: Run)
    requires item.Obj?
    ensures ReadEarly(item).Ok? <==> |r.events| > 0
    ensures |r.events| > 0 ==> r.events[0] == Generate
    ensures r.outcome != Skipped
    ensures r.outcome == Inserted <==> RowFor(item, site, service, floor, env).Ok? && !env.insertRaises
    ensures r.outcome == Inserted ==> r.table == table + [RowFor(item, site, service, floor, env).value]
    ensures RowFor(item, site, service, floor, env).Ok? ==>
      r.events == [Generate, Insert(RowFor(item, site, service, floor, env).value)]
    ensures RowFor(item, site, service, floor, env).Ok? && env.insertRaises ==> r.outcome == Failed(StoreError)
    ensures RowFor(item, site, service, floor, env).Err? ==>
      r.outcome == Failed(RowFor(item, site, service, floor, env).error)
    ensures r.outcome != Inserted ==> r.table == table
  {
    var early := ReadEarly(item);
    if early.Err? then Run([], table, Failed(early.error))
    else
      var row := RowFor(item, site, service, floor, env);
      if row.Err? then Run([Generate], table, Failed(row.error))
      else if env.insertRaises then Run([Generate, Insert(row.value)], table, Failed(StoreError))
      else Run([Generate, Insert(row.value)], table + [row.value], Inserted)
  }

  /** `tachiyomi_image_paths` iterates and no page upload raises. */
  predicate UploadsSucceed(item: Json, pages: Json, floor: string, env: Env)
    requires item.Obj?
  {
    PageList(pages).Ok? && UploadFrom(PageList(pages).value, 0, ContentId(item), floor, env).raised.None?
  }

  /** The part after the duplicate check: the page uploads, then the rest. */
  function Register(item: Json, pages: Json, site: string, service: string, floor: string,
                    env: Env, table: Table): (r: Run)
    requires item.Obj?
    ensures |r.events| >= 1 && r.events[0] == Query(ContentId(item))
    ensures r.outcome != Skipped
    ensures r.outcome == Inserted ==>
      (|r.table| == |table| + 1 && r.table[..|table|] == table && r.table[|table|].contentId == ContentId(item))
    ensures r.outcome != Inserted ==> r.table == table
    ensures PageList(pages).Err? ==> r == Run([Query(ContentId(item))], table, Failed(PageList(pages).error))
    ensures PageList(pages).Ok? ==>
      var ups := UploadFrom(PageList(pages).value, 0, ContentId(item), floor, env);
      && |r.events| >= 1 + |ups.events|
      && r.events[1..1 + |ups.events|] == ups.events
      && (ups.raised.None? && ReadEarly(item).Ok? <==> |r.events| > 1 + |ups.events|)
      && (|r.events| > 1 + |ups.events| ==> r.events[1 + |ups.events|] == Generate)
    ensures r.outcome == Inserted <==>
      UploadsSucceed(item, pages, floor, env) && RowFor(item, site, service, floor, env).Ok? && !env.insertRaises
    ensures r.outcome == Inserted ==> r.table == table + [RowFor(item, site, service, floor, env).value]
  {
    var cid := ContentId(item);
    var pageList := PageList(pages);
    if pageList.Err? then Run([Query(cid)], table, Failed(pageList.error))
    else
      var ups := UploadFrom(pageList.value, 0, cid, floor, env);
      var prefix := [Query(cid)] + ups.events;
      assert prefix[1..] == ups.events;
      if ups.raised.Some? then Run(prefix, table, Failed(ups.raised.value))
      else
        var r := AfterUploads(item, site, service, floor, env, table);
        var events := prefix + r.events;
        assert events[1..1 + |ups.events|] == ups.events;
        Run(events, r.table, r.outcome)
  }

  /** `insert_dmm_item(item, tachiyomi_image_paths, ..., site, service, floor)`
      against the table `table`. */
  function InsertDmmItem(item: Json, pages: Json, site: string, service: string, floor: string,
                         env: Env, table: Table): (r: Run)
    ensures !item.Obj? ==> r == Run([], table, Failed(AttributeError))
    ensures item.Obj? && !Truthy(ContentId(item)) ==> r == Run([], table, Skipped)
    ensures item.Obj? && Truthy(ContentId(item)) ==> |r.events| >= 1 && r.events[0] == Query(ContentId(item))
    ensures item.Obj? && Truthy(ContentId(item)) && env.queryRaises ==>
      r == Run([Query(ContentId(item))], table, Failed(StoreError))
    ensures r.outcome == Skipped <==>
      item.Obj? && (!Truthy(ContentId(item)) || (!env.queryRaises && HasRow(table, ContentId(item))))
    ensures r.outcome == Skipped ==> r.table == table && |r.events| <= 1
    ensures r.outcome == Inserted ==>
      item.Obj? && Truthy(ContentId(item)) && !HasRow(table, ContentId(item))
      && |r.table| == |table| + 1 && r.table[..|table|] == table && r.table[|table|].contentId == ContentId(item)
    ensures r.outcome != Inserted ==> r.table == table
    ensures r.outcome == Inserted <==>
      item.Obj? && Truthy(ContentId(item)) && !env.queryRaises && !HasRow(table, ContentId(item))
      && UploadsSucceed(item, pages, floor, env) && RowFor(item, site, service, floor, env).Ok? && !env.insertRaises
    ensures r.outcome == Inserted ==>
      item.Obj? && r.table == table + [RowFor(item, site, service, floor, env).value]
  {
    if !item.Obj? then Run([], table, Failed(AttributeError))
    else
      var cid := ContentId(item);
      if !Truthy(cid) then Run([], table, Skipped)
      else if env.queryRaises then Run([Query(cid)], table, Failed(StoreError))
      else if HasRow(table, cid) then Run([Query(cid)], table, Skipped)
      else Register(item, pages, site, service, floor, env, table)
  }

  // ---------------------------------------------------------------------------
  // Properties
  // ---------------------------------------------------------------------------

  /** Content ids are unique among the stored rows. */
  predicate UniqueIds(table: Table) {
    forall i, j :: 0 <= i < j < |table| ==> table[i].contentId != table[j].contentId
  }

  /** Appending a row whose id the table lacks keeps ids unique. */
  lemma AppendFreshKeepsUnique(table: Table, row: Row)
    requires UniqueIds(table) && !HasRow(table, row.contentId)
    ensures UniqueIds(table + [row])
  {
    forall i, j | 0 <= i < j < |table| + 1
      ensures (table + [row])[i].contentId != (table + [row])[j].contentId
    {
      if j == |table| {
        assert (table + [row])[i] == table[i];
      }
    }
  }

  /** The duplicate check keeps content ids unique: one call adds at most one
      row, and only for an id the table did not hold. */
  lemma InsertKeepsIdsUnique(item: Json, pages: Json, site: string, service: string,
                             floor: string, env: Env, table: Table)
    requires UniqueIds(table)
    ensures UniqueIds(InsertDmmItem(item, pages, site, service, floor, env, table).table)
  {
    var r := InsertDmmItem(item, pages, site, service, floor, env, table);
    if r.outcome == Inserted {
      GrowByFresh(table, r.table, ContentId(item));
    }
  }

  lemma GrowByFresh(table: Table, t: Table, cid: Json)
    requires UniqueIds(table) && !HasRow(table, cid)
    requires |t| == |table| + 1 && t[..|table|] == table && t[|table|].contentId == cid
    ensures UniqueIds(t)
  {
    assert t == table + [t[|table|]];
    AppendFreshKeepsUnique(table, t[|table|]);
  }

  /** Running the same item again against the table the first run left only
      queries: the stored row makes the second call skip. */
  lemma {:induction false} InsertIdempotent(item: Json, pages: Json, pages2: Json, site: string, service: string,
                                            floor: string, env: Env, env2: Env, table: Table)
    requires InsertDmmItem(item, pages, site, service, floor, env, table).outcome == Inserted
    requires !env2.queryRaises
    ensures var t := InsertDmmItem(item, pages, site, service, floor, env, table).table;
      InsertDmmItem(item, pages2, site, service, floor, env2, t) == Run([Query(ContentId(item))], t, Skipped)
  {
    var t := InsertDmmItem(item, pages, site, service, floor, env, table).table;
    assert t[|table|].contentId == ContentId(item);
    assert HasRow(t, ContentId(item));
  }
}

=== FILE: ingestion_legacy.dfy ===
/** The older revision of `insert_dmm_item` (`db/trn_dmm_items_repository.py`):
    skip an item without a content id or one already stored, copy its large
    sample images into the Supabase bucket, and insert a row that records the
    stored paths.  Nothing is caught here: an exception escapes to the caller
    after whatever calls were already made, so images copied before a later
    failure stay in the bucket without a row. */
module LegacyIngestion {
  import opened Wrappers
  import opened Json
  import opened Price
  import opened StorageKeys
  import StorageSupabase
  import Ingestion

  /** A row as this revision writes it. */
  datatype Row = Row(
    contentId: Json, productId: Json, title: Json, volume: Json,
    reviewCount: Json, reviewAverage: real, itemUrl: Json, affiliateUrl: Json,
    imageListUrl: Json, imageLargeUrl: Json, sampleImages: seq<string>,
    price: int, listPrice: int, releaseDate: Json,
    genres: seq<Json>, genreIds: seq<Json>, series: Json, maker: Json, rawJson: Json)

  type Table = seq<Row>

  datatype Event =
    | Query(contentId: Json)
    | Storage(call: StorageSupabase.Call)
    | Insert(row: Row)

  /** `show` is Python's `str()` as the f-strings of the image adapter use it;
      `fetches(url)` says whether downloading `url` succeeds; the listing, the
      upload, the query and the insert raise or not. */
  datatype Env = Env(
    show: Json -> string,
    fetches: string -> bool,
    listRaises: bool,
    uploadRaises: bool,
    queryRaises: bool,
    insertRaises: bool)

  datatype Status = Skipped | Inserted

  /** The calls made, the table and the bucket afterwards, and the return
      value or the exception that escaped. */
  datatype Run = Run(events: seq<Event>, table: Table, bucket: set<string>, result: Result<Status>)

  predicate HasRow(table: Table, cid: Json) {
    exists i :: 0 <= i < |table| && table[i].contentId == cid
  }

  predicate UniqueIds(table: Table) {
    forall i, j :: 0 <= i < j < |table| ==> table[i].contentId != table[j].contentId
  }

  // ---------------------------------------------------------------------------
  // The image loop
  // ---------------------------------------------------------------------------

  function Lift(calls: seq<StorageSupabase.Call>): (r: seq<Event>)
    ensures |r| == |calls| && forall i :: 0 <= i < |calls| ==> r[i] == Storage(calls[i])
  {
    if |calls| == 0 then [] else [Storage(calls[0])] + Lift(calls[1..])
  }

  /** The adapter's view of one call: a URL that is not a string makes the
      download raise inside the adapter, which then answers `""`. */
  function StoreOne(image: Json, cid: string, index: nat, env: Env, bucket: set<string>): StorageSupabase.Run {
    var fetched := image.Str? && env.fetches(image.s);
    StorageSupabase.UploadImageToStorage(env.show(image), cid, index,
      StorageSupabase.Env(fetched, bucket, env.listRaises, env.uploadRaises))
  }

  datatype Stored = Stored(events: seq<Event>, bucket: set<string>, paths: seq<string>)

  /** `for idx, img_url in enumerate(sample_images)` from image `k` on: each
      image goes to the adapter with index `idx + 1`; a non-empty path is kept. */
  function StoreFrom(images: seq<Json>, k: nat, cid: string, env: Env, bucket: set<string>): (r: Stored)
    requires k <= |images|
    ensures bucket <= r.bucket
    ensures forall p :: p in r.bucket && p !in bucket ==> exists n :: k < n <= |images| && p == StoragePath(cid, n)
    ensures forall p :: p in r.paths ==> p in r.bucket
    ensures forall p :: p in r.paths ==> exists n :: k < n <= |images| && p == StoragePath(cid, n)
    ensures "" !in r.paths && |r.paths| <= |images| - k
    decreases |images| - k
  {
    if k == |images| then Stored([], bucket, [])
    else
      var one := StoreOne(images[k], cid, k + 1, env, bucket);
      var rest := StoreFrom(images, k + 1, cid, env, one.bucket);
      assert forall p :: p in rest.bucket && p !in bucket ==>
        (p in rest.bucket && p !in one.bucket) || p == StoragePath(cid, k + 1);
      assert one.path != "" ==> one.path == StoragePath(cid, k + 1);
      Stored(Lift(one.calls) + rest.events, rest.bucket,
             (if one.path == "" then [] else [one.path]) + rest.paths)
  }

  /** `[StoragePath(cid, n) for n in k+1 .. m]` */
  function PathsFrom(cid: string, k: nat, m: nat): (r: seq<string>)
    requires k <= m
    ensures |r| == m - k
  {
    Numbered(n => StoragePath(cid, n), k, m)
  }

  /** Entry `j - k` is the path of image `j`, stored under index `j + 1`. */
  lemma PathsFromAt(cid: string, k: nat, m: nat, j: nat)
    requires k <= j < m
    ensures PathsFrom(cid, k, m)[j - k] == StoragePath(cid, j + 1)
  {
    NumberedAt(n => StoragePath(cid, n), k, m, j);
  }

  /** When every download succeeds and the bucket answers, every image is
      stored and the row lists all of them, in order. */
  lemma {:induction false} StoreAllSucceed(images: seq<Json>, k: nat, cid: string, env: Env, bucket: set<string>)
    requires k <= |images|
    requires forall i :: k <= i < |images| ==> images[i].Str? && env.fetches(images[i].s)
    requires !env.listRaises && !env.uploadRaises
    ensures StoreFrom(images, k, cid, env, bucket).paths == PathsFrom(cid, k, |images|)
    decreases |images| - k
  {
    if k < |images| {
      var one := StoreOne(images[k], cid, k + 1, env, bucket);
      StoreAllSucceed(images, k + 1, cid, env, one.bucket);
      assert PathsFrom(cid, k, |images|) == [StoragePath(cid, k + 1)] + PathsFrom(cid, k + 1, |images|);
    }
  }

  /** Running the loop again on the bucket it left adds nothing. */
  lemma {:induction false} StoreAgainAddsNothing(images: seq<Json>, k: nat, cid: string, env: Env, bucket: set<string>)
    requires k <= |images|
    requires forall i :: k <= i < |images| ==> images[i].Str? && env.fetches(images[i].s)
    requires !env.listRaises && !env.uploadRaises
    requires forall n :: k < n <= |images| ==> StoragePath(cid, n) in bucket
    ensures StoreFrom(images, k, cid, env, bucket).bucket == bucket
    ensures forall e :: e in StoreFrom(images, k, cid, env, bucket).events ==> !(e.Storage? && e.call.Upload?)
    decreases |images| - k
  {
    if k < |images| {
      var one := StoreOne(images[k], cid, k + 1, env, bucket);
      assert one.bucket == bucket;
      assert |one.calls| == 2;
      StoreAgainAddsNothing(images, k + 1, cid, env, bucket);
    }
  }

  // ---------------------------------------------------------------------------
  // insert_dmm_item
  // ---------------------------------------------------------------------------

  /** `sample_images` of the item, as the loop iterates it. */
  function SampleImages(item: Json): (r: Result<seq<Json>>)
    requires item.Obj?
    ensures !Sub(item, "sampleImageURL").Obj? ==> r == Err(AttributeError)
  {
    var urls := Sub(item, "sampleImageURL");
    if !urls.Obj? then Err(AttributeError)
    else
      var images :- Get(Lookup(urls.fields, "sample_l").GetOr(Obj([])), "image", Arr([]));
      Iterate(images)
  }

  /** Lines 56-57: both prices, or the first exception `int()` raises. */
  function Prices(prices: Json): (r: Result<(int, int)>)
    ensures r.Ok? <==> LegacyPrice(prices, "price").Ok? && LegacyPrice(prices, "list_price").Ok?
    ensures r.Ok? ==> r.value == (LegacyPrice(prices, "price").value, LegacyPrice(prices, "list_price").value)
  {
    var price :- LegacyPrice(prices, "price");
    var listPrice :- LegacyPrice(prices, "list_price");
    Ok((price, listPrice))
  }

  /** Lines 61-62: the first series and the first maker; no fallback to the
      manufacturer, and an empty list raises `IndexError`. */
  function SeriesAndMaker(iteminfo: Json): (r: Result<(Json, Json)>)
    requires iteminfo.Obj?
    ensures Field(iteminfo, "maker") == Arr([]) ==> r.Err?
  {
    var series :- NameOfFirst(Lookup(iteminfo.fields, "series").GetOr(Arr([Obj([])])), Null);
    var maker :- NameOfFirst(Lookup(iteminfo.fields, "maker").GetOr(Arr([Obj([])])), Null);
    Ok((series, maker))
  }

  /** The `data` dict, in the order its entries are evaluated, with no
      stored paths yet (the caller fills in `sample_images`).  A price that
      `int()` rejects aborts the whole insert. */
  function BuildRow(item: Json): (r: Result<Row>)
    requires item.Obj?
    ensures r.Ok? ==> r.value.contentId == Ingestion.ContentId(item) && r.value.rawJson == item
    ensures r.Ok? ==> Prices(Sub(item, "prices")) == Ok((r.value.price, r.value.listPrice))
    ensures r.Ok? ==> Ingestion.GenreLists(Sub(item, "iteminfo")) == Ok((r.value.genres, r.value.genreIds))
    ensures r.Ok? ==> (Sub(item, "review").Obj? &&
      ToFloat(Lookup(Sub(item, "review").fields, "average").GetOr(Int(0))) == Ok(r.value.reviewAverage))
    ensures r.Ok? ==> SeriesAndMaker(Sub(item, "iteminfo")) == Ok((r.value.series, r.value.maker))
    ensures !Sub(item, "iteminfo").Obj? ==> r == Err(AttributeError)
    ensures Ingestion.GenreLists(Sub(item, "iteminfo")).Ok? && !Sub(item, "review").Obj? ==> r == Err(AttributeError)
  {
    var review := Sub(item, "review");
    var imageUrl := Sub(item, "imageURL");
    var iteminfo := Sub(item, "iteminfo");
    var genres :- Ingestion.GenreLists(iteminfo);
    if !review.Obj? then Err(AttributeError)
    else
      var average :- ToFloat(Lookup(review.fields, "average").GetOr(Int(0)));
      if !imageUrl.Obj? then Err(AttributeError)
      else
        var prices :- Prices(Sub(item, "prices"));
        var names :- SeriesAndMaker(iteminfo);
        Ok(Row(
          Ingestion.ContentId(item), Field(item, "product_id"),
          Field(item, "title"), Field(item, "volume"),
          Field(review, "count"), average,
          Field(item, "URL"), Field(item, "affiliateURL"),
          Field(imageUrl, "list"), Field(imageUrl, "large"), [],
          prices.0, prices.1, Field(item, "date"),
          genres.0, genres.1, names.0, names.1, item))
  }

  /** Line 50: a review without `average` gives the average 0.0. */
  lemma MissingAverageIsZero(item: Json)
    requires item.Obj? && BuildRow(item).Ok?
    requires Lookup(Sub(item, "review").fields, "average").None?
    ensures BuildRow(item).value.reviewAverage == 0.0
  {
  }

  /** `insert_dmm_item(item)` against `table` and the image bucket `bucket`. */
  function InsertDmmItem(item: Json, env: Env, table: Table, bucket: set<string>): (r: Run)
    ensures !item.Obj? ==> r == Run([], table, bucket, Err(AttributeError))
    ensures item.Obj? && !Truthy(Ingestion.ContentId(item)) ==> r == Run([], table, bucket, Ok(Skipped))
    ensures r.result == Ok(Skipped) <==>
      item.Obj? && (!Truthy(Ingestion.ContentId(item))
                    || (!env.queryRaises && HasRow(table, Ingestion.ContentId(item))))
    ensures r.result == Ok(Skipped) ==> r.bucket == bucket && r.table == table
    ensures bucket <= r.bucket
    ensures r.result != Ok(Inserted) ==> r.table == table
    ensures r.result == Ok(Inserted) ==>
      item.Obj? && !HasRow(table, Ingestion.ContentId(item))
      && |r.table| == |table| + 1 && r.table[..|table|] == table
      && r.table[|table|].contentId == Ingestion.ContentId(item)
    ensures r.result == Ok(Inserted) ==>
      forall p :: p in r.table[|table|].sampleImages ==> p in r.bucket
    ensures r.result == Ok(Inserted) <==>
      item.Obj? && Truthy(Ingestion.ContentId(item)) && !env.queryRaises
      && !HasRow(table, Ingestion.ContentId(item))
      && SampleImages(item).Ok? && BuildRow(item).Ok? && !env.insertRaises
    ensures r.result == Ok(Inserted) ==>
      item.Obj? && SampleImages(item).Ok? && BuildRow(item).Ok?
      && r.table == table + [BuildRow(item).value.(sampleImages :=
           StoreFrom(SampleImages(item).value, 0, env.show(Ingestion.ContentId(item)), env, bucket).paths)]
  {
    if !item.Obj? then Run([], table, bucket, Err(AttributeError))
    else
      var cid := Ingestion.ContentId(item);
      if !Truthy(cid) then Run([], table, bucket, Ok(Skipped))
      else if env.queryRaises then Run([Query(cid)], table, bucket, Err(StoreError))
      else if HasRow(table, cid) then Run([Query(cid)], table, bucket, Ok(Skipped))
      else
        match SampleImages(item)
        case Err(e) => Run([Query(cid)], table, bucket, Err(e))
        case Ok(images) =>
          var stored := StoreFrom(images, 0, env.show(cid), env, bucket);
          var events := [Query(cid)] + stored.events;
          match BuildRow(item)
          case Err(e) => Run(events, table, stored.bucket, Err(e))
          case Ok(data) =>
            var row := data.(sampleImages := stored.paths);
            if env.insertRaises then Run(events + [Insert(row)], table, stored.bucket, Err(StoreError))
            else Run(events + [Insert(row)], table + [row], stored.bucket, Ok(Inserted))
  }

  // ---------------------------------------------------------------------------
  // Properties
  // ---------------------------------------------------------------------------

  lemma AppendFreshKeepsUnique(table: Table, row: Row)
    requires UniqueIds(table) && !HasRow(table, row.contentId)
    ensures UniqueIds(table + [row])
  {
    forall i, j | 0 <= i < j < |table| + 1
      ensures (table + [row])[i].contentId != (table + [row])[j].contentId
    {
      if j == |table| {
        assert (table + [row])[i] == table[i];
      }
    }
  }

  /** A row is only added for an id the table lacked. */
  lemma InsertKeepsIdsUnique(item: Json, env: Env, table: Table, bucket: set<string>)
    requires UniqueIds(table)
    ensures UniqueIds(InsertDmmItem(item, env, table, bucket).table)
  {
    var r := InsertDmmItem(item, env, table, bucket);
    if r.result == Ok(Inserted) {
      assert r.table == table + [r.table[|table|]];
      AppendFreshKeepsUnique(table, r.table[|table|]);
    }
  }

  /** An item whose download, listing and row all succeed is inserted with
      every sample image stored under `cid/cid_NN.jpg`, numbered from 1 in
      list order. */
  lemma InsertRecordsEveryImage(item: Json, env: Env, table: Table, bucket: set<string>)
    requires item.Obj? && Truthy(Ingestion.ContentId(item))
    requires !env.queryRaises && !env.insertRaises && !env.listRaises && !env.uploadRaises
    requires !HasRow(table, Ingestion.ContentId(item))
    requires SampleImages(item).Ok?
    requires forall x :: x in SampleImages(item).value ==> x.Str? && env.fetches(x.s)
    requires BuildRow(item).Ok?
    ensures var r := InsertDmmItem(item, env, table, bucket);
      r.result == Ok(Inserted)
      && r.table[|table|].sampleImages
         == PathsFrom(env.show(Ingestion.ContentId(item)), 0, |SampleImages(item).value|)
  {
    var images := SampleImages(item).value;
    var cid := env.show(Ingestion.ContentId(item));
    StoreAllSucceed(images, 0, cid, env, bucket);
  }

  /** Running the same item again, against the table and bucket the first
      run left, queries once and stops. */
  lemma InsertIdempotent(item: Json, env: Env, env2: Env, table: Table, bucket: set<string>)
    requires InsertDmmItem(item, env, table, bucket).result == Ok(Inserted)
    requires !env2.queryRaises
    ensures var r := InsertDmmItem(item, env, table, bucket);
      InsertDmmItem(item, env2, r.table, r.bucket)
        == Run([Query(Ingestion.ContentId(item))], r.table, r.bucket, Ok(Skipped))
  {
    var r := InsertDmmItem(item, env, table, bucket);
    assert r.table[|table|].contentId == Ingestion.ContentId(item);
    assert HasRow(r.table, Ingestion.ContentId(item));
  }

  /** Nothing is rolled back: when the row cannot be built (a price `int()`
      rejects, say), the call raises after every image was already copied, and
      the images stay in the bucket with no row pointing at them. */
  lemma FailedRowLeavesImages(item: Json, env: Env, table: Table, bucket: set<string>)
    requires item.Obj? && Truthy(Ingestion.ContentId(item))
    requires !env.queryRaises && !env.listRaises && !env.uploadRaises
    requires !HasRow(table, Ingestion.ContentId(item))
    requires SampleImages(item).Ok?
    requires forall x :: x in SampleImages(item).value ==> x.Str? && env.fetches(x.s)
    requires BuildRow(item).Err?
    ensures var r := InsertDmmItem(item, env, table, bucket);
      && r.result == Err(BuildRow(item).error)
      && r.table == table
      && forall p :: p in PathsFrom(env.show(Ingestion.ContentId(item)), 0, |SampleImages(item).value|) ==>
           p in r.bucket
  {
    var cid := env.show(Ingestion.ContentId(item));
    var images := SampleImages(item).value;
    var stored := StoreFrom(images, 0, cid, env, bucket);
    StoreAllSucceed(images, 0, cid, env, bucket);
    assert InsertDmmItem(item, env, table, bucket).bucket == stored.bucket;
  }
}

=== FILE: json.dfy ===
/** The decoded JSON values the pipeline passes around (catalog records, API
    replies, language-model replies) and the Python dictionary and list
    operations applied to them, with the exception each one raises on a value
    of the wrong shape.  Objects keep their key order, as Python dicts do. */
module Json {
  import opened Wrappers
  import opened Text

  datatype Json =
    | Null
    | Bool(b: bool)
    | Int(i: int)
    | Float(r: real)
    | Str(s: string)
    | Arr(items: seq<Json>)
    | Obj(fields: seq<(string, Json)>)

  /** Python truthiness: `None`, `False`, zero, `""`, `[]` and `{}` are false. */
  predicate Truthy(j: Json) {
    match j
    case Null => false
    case Bool(b) => b
    case Int(i) => i != 0
    case Float(r) => r != 0.0
    case Str(s) => |s| > 0
    case Arr(a) => |a| > 0
    case Obj(f) => |f| > 0
  }

  function Keys(fields: seq<(string, Json)>): (ks: seq<string>)
    ensures |ks| == |fields|
    ensures forall i :: 0 <= i < |fields| ==> ks[i] == fields[i].0
  {
    if |fields| == 0 then [] else [fields[0].0] + Keys(fields[1..])
  }

  /** The value stored under `k`. */
  function Lookup(fields: seq<(string, Json)>, k: string): (r: Option<Json>)
    ensures r.Some? <==> k in Keys(fields)
    ensures r.Some? ==> (k, r.value) in fields
  {
    if |fields| == 0 then None
    else if fields[0].0 == k then Some(fields[0].1)
    else Lookup(fields[1..], k)
  }

  /** `d.get(k, default)`; anything but a dict has no `get`. */
  function Get(d: Json, k: string, default: Json): (r: Result<Json>)
    ensures r.Err? <==> !d.Obj?
    ensures d.Obj? && k !in Keys(d.fields) ==> r == Ok(default)
    ensures d.Obj? && k in Keys(d.fields) ==> r.Ok? && (k, r.value) in d.fields
  {
    if d.Obj? then Ok(Lookup(d.fields, k).GetOr(default)) else Err(AttributeError)
  }

  /** `d[k]` for a string key. */
  function Index(d: Json, k: string): (r: Result<Json>)
    ensures r.Ok? <==> d.Obj? && k in Keys(d.fields)
    ensures r.Ok? ==> (k, r.value) in d.fields
  {
    match d
    case Obj(f) => if k in Keys(f) then Ok(Lookup(f, k).value) else Err(KeyError)
    case _ => Err(TypeError)
  }

  /** `j[0]`. */
  function First(j: Json): (r: Result<Json>)
    ensures j.Arr? && |j.items| > 0 ==> r == Ok(j.items[0])
    ensures j.Arr? && |j.items| == 0 ==> r == Err(IndexError)
    ensures r.Ok? ==> j.Arr? || j.Str?
  {
    match j
    case Arr(a) => if |a| > 0 then Ok(a[0]) else Err(IndexError)
    case Str(s) => if |s| > 0 then Ok(Str([s[0]])) else Err(IndexError)
    case Obj(_) => Err(KeyError)
    case _ => Err(TypeError)
  }

  /** What `for x in j` visits: list elements, dict keys, or one-character
      strings; other values are not iterable. */
  function Iterate(j: Json): (r: Result<seq<Json>>)
    ensures r.Ok? <==> j.Arr? || j.Obj? || j.Str?
    ensures j.Arr? ==> r == Ok(j.items)
    ensures j.Obj? ==> r.Ok? && |r.value| == |j.fields|
    ensures r.Ok? && !j.Arr? ==> forall x :: x in r.value ==> x.Str?
  {
    match j
    case Arr(a) => Ok(a)
    case Obj(f) => Ok(seq(|f|, i requires 0 <= i < |f| => Str(f[i].0)))
    case Str(s) => Ok(seq(|s|, i requires 0 <= i < |s| => Str([s[i]])))
    case _ => Err(TypeError)
  }

  /** Python `key in j` for a string key: dict membership, list element
      equality, or substring; other values raise `TypeError`. */
  function Contains(j: Json, key: string): (r: Result<bool>)
    ensures r.Err? <==> !(j.Obj? || j.Arr? || j.Str?)
    ensures j.Obj? ==> r == Ok(key in Keys(j.fields))
    ensures j.Arr? ==> r == Ok(Str(key) in j.items)
  {
    match j
    case Obj(f) => Ok(key in Keys(f))
    case Arr(a) => Ok(Str(key) in a)
    case Str(s) => Ok(|key| == 0 || Text.Contains(s, key))
    case _ => Err(TypeError)
  }

  /** `d[k] = v` on a dict: an existing key keeps its place, a new key goes last. */
  function Put(fields: seq<(string, Json)>, k: string, v: Json): (r: seq<(string, Json)>)
    ensures Lookup(r, k) == Some(v)
    ensures k in Keys(fields) ==> Keys(r) == Keys(fields)
    ensures k !in Keys(fields) ==> Keys(r) == Keys(fields) + [k]
  {
    if |fields| == 0 then [(k, v)]
    else
      assert [fields[0]] + fields[1..] == fields;
      if fields[0].0 == k then
        KeysCons((k, v), fields[1..]);
        KeysCons(fields[0], fields[1..]);
        [(k, v)] + fields[1..]
      else
        var rest := Put(fields[1..], k, v);
        PutBehind(fields[0], fields[1..], k, v, rest);
        [fields[0]] + rest
  }

  lemma KeysCons(f: (string, Json), rest: seq<(string, Json)>)
    ensures Keys([f] + rest) == [f.0] + Keys(rest)
  {
    assert ([f] + rest)[1..] == rest;
  }

  /** Setting a key that is not the first one leaves the first pair in front. */
  lemma PutBehind(f: (string, Json), tail: seq<(string, Json)>, k: string, v: Json, rest: seq<(string, Json)>)
    requires f.0 != k
    requires Lookup(rest, k) == Some(v)
    requires k in Keys(tail) ==> Keys(rest) == Keys(tail)
    requires k !in Keys(tail) ==> Keys(rest) == Keys(tail) + [k]
    ensures Lookup([f] + rest, k) == Some(v)
    ensures k in Keys([f] + tail) ==> Keys([f] + rest) == Keys([f] + tail)
    ensures k !in Keys([f] + tail) ==> Keys([f] + rest) == Keys([f] + tail) + [k]
  {
    assert ([f] + rest)[1..] == rest;
    KeysCons(f, rest);
    KeysCons(f, tail);
    ConsKeys(f.0, Keys(tail), Keys(rest), k);
  }

  lemma ConsKeys(x: string, a: seq<string>, b: seq<string>, k: string)
    requires x != k
    requires k in a ==> b == a
    requires k !in a ==> b == a + [k]
    ensures k in [x] + a ==> [x] + b == [x] + a
    ensures k !in [x] + a ==> [x] + b == [x] + a + [k]
  {
    assert k in [x] + a <==> k in a;
  }

  /** Setting one key leaves the value under every other key as it was. */
  lemma {:induction false} PutKeepsOthers(fields: seq<(string, Json)>, k: string, v: Json, other: string)
    requires other != k
    ensures Lookup(Put(fields, k, v), other) == Lookup(fields, other)
  {
    if |fields| > 0 && fields[0].0 != k {
      PutKeepsOthers(fields[1..], k, v, other);
    }
  }

  // ---------------------------------------------------------------------------
  // Common access patterns
  // ---------------------------------------------------------------------------

  /** `item.get(k)` of an object. */
  function Field(item: Json, k: string): Json
    requires item.Obj?
  {
    Lookup(item.fields, k).GetOr(Null)
  }

  /** `item.get(k, {})` of an object. */
  function Sub(item: Json, k: string): Json
    requires item.Obj?
  {
    Lookup(item.fields, k).GetOr(Obj([]))
  }

  /** `[d.get(k, default) for k in keys]`; anything but a dict raises on the
      first `get`. */
  function GetAll(d: Json, keys: seq<string>, default: Json): (r: Result<seq<Json>>)
    ensures r.Err? <==> !d.Obj?
    ensures r.Ok? ==> |r.value| == |keys|
    ensures r.Ok? ==> forall i :: 0 <= i < |keys| ==> Get(d, keys[i], default) == Ok(r.value[i])
  {
    if !d.Obj? then Err(AttributeError)
    else Ok(seq(|keys|, i requires 0 <= i < |keys| => Lookup(d.fields, keys[i]).GetOr(default)))
  }

  /** `[g[key] for g in list]`: one value per element, in order; the first
      element without the key raises. */
  function Pluck(list: seq<Json>, key: string): (r: Result<seq<Json>>)
    ensures r.Ok? <==> forall i :: 0 <= i < |list| ==> Index(list[i], key).Ok?
    ensures r.Ok? ==> |r.value| == |list| && forall i :: 0 <= i < |list| ==> Index(list[i], key) == Ok(r.value[i])
  {
    if |list| == 0 then Ok([])
    else
      var v :- Index(list[0], key);
      var rest :- Pluck(list[1..], key);
      assert forall i :: 1 <= i < |list| ==> list[i] == list[1..][i - 1];
      Ok([v] + rest)
  }

  /** `list[0].get("name", default)` */
  function NameOfFirst(list: Json, default: Json): Result<Json> {
    var first :- First(list);
    Get(first, "name", default)
  }

  /** Python `j == n` for an int literal `n`. */
  predicate EqualsInt(j: Json, n: int) {
    match j
    case Int(i) => i == n
    case Float(r) => r == n as real
    case Bool(b) => (if b then 1 else 0) == n
    case _ => false
  }

  /** Truncation toward zero, as Python's `int()` of a float. */
  function Truncate(r: real): int {
    if r >= 0.0 then r.Floor else -((-r).Floor)
  }

  /** Python `int(j)`. */
  function ToInt(j: Json): (r: Result<int>)
    ensures j.Int? ==> r == Ok(j.i)
    ensures j.Str? ==> (r.Ok? <==> ParseInt(j.s).Some?)
    ensures j.Null? || j.Arr? || j.Obj? ==> r == Err(TypeError)
  {
    match j
    case Int(i) => Ok(i)
    case Bool(b) => Ok(if b then 1 else 0)
    case Float(x) => Ok(Truncate(x))
    case Str(s) => (match ParseInt(s) case Some(v) => Ok(v) case None => Err(ValueError))
    case _ => Err(TypeError)
  }

  /** Python `float(j)`. */
  function ToFloat(j: Json): (r: Result<real>)
    ensures j.Int? ==> r == Ok(j.i as real)
    ensures j.Float? ==> r == Ok(j.r)
    ensures j.Null? || j.Arr? || j.Obj? ==> r == Err(TypeError)
  {
    match j
    case Int(i) => Ok(i as real)
    case Bool(b) => Ok(if b then 1.0 else 0.0)
    case Float(x) => Ok(x)
    case Str(s) => (match ParseReal(s) case Some(v) => Ok(v) case None => Err(ValueError))
    case _ => Err(TypeError)
  }

  /** An unsigned decimal `I`, `I.F`, `I.` or `.F` with ASCII digits. */
  function UnsignedReal(s: string): Option<real> {
    var parts := Split(s, '.');
    if |parts| == 1 && |s| > 0 && AllDigits(s) then Some(DigitsValue(s) as real)
    else if |parts| == 2 && |parts[0]| + |parts[1]| > 0
         && AllDigits(parts[0]) && AllDigits(parts[1]) then
      Some(DigitsValue(parts[0]) as real + DigitsValue(parts[1]) as real / Pow10(|parts[1]|) as real)
    else None
  }

  /** Python `float(s)` restricted to optionally signed plain decimals. */
  function ParseReal(s: string): Option<real> {
    if |s| > 0 && IsSign(s[0]) then
      match UnsignedReal(s[1..])
      case Some(v) => Some(if s[0] == '-' then -v else v)
      case None => None
    else UnsignedReal(s)
  }

  /** A numeral `int()` accepts is read by `float()` as the same number. */
  lemma ParseRealOfInt(s: string)
    requires ParseInt(s).Some?
    ensures ParseReal(s) == Some(ParseInt(s).value as real)
  {
    if |s| > 1 && IsSign(s[0]) && AllDigits(s[1..]) {
      SplitNoSeparator(s[1..], '.');
    } else {
      assert '.' !in s;
      SplitNoSeparator(s, '.');
    }
  }
}

=== FILE: master.dfy ===
/** The master-data job of `main_create_master.py`: the floor list of the
    catalog API flattened into one row per (site, service, floor), the genre
    list of one floor mapped to genre rows, and the driver that syncs the
    genres of every stored floor.  The HTTP requests and the upserts are
    parameters: a request is `None` when it raised a request exception, and an
    upsert only reports whether it raised, since both handlers swallow it. */
module Master {
  import opened Wrappers
  import opened Json
  import Text

  /** How a sync ended: it returned before any upsert, or it sent `rows`
      (and the upsert may have raised, which is only logged). */
  datatype Sync<T> = Aborted | Sent(rows: seq<T>, upsertFailed: bool)

  // ---------------------------------------------------------------------------
  // sync_floor_master
  // ---------------------------------------------------------------------------

  datatype FloorRow = FloorRow(floorId: int, floorName: Json, floorCode: Json,
                               siteName: Json, siteCode: Json, serviceName: Json, serviceCode: Json)

  /** The names and codes of a floor's site and service. */
  datatype Parents = Parents(siteName: Json, siteCode: Json, serviceName: Json, serviceCode: Json)

  function ParentsOf(site: Json, service: Json): Parents
    requires site.Obj? && service.Obj?
  {
    Parents(Field(site, "name"), Field(site, "code"), Field(service, "name"), Field(service, "code"))
  }

  /** The row for one floor; `int(floor.get("id"))` is evaluated first, and
      a floor that is not a dict has no `get`. */
  function FloorRowOf(p: Parents, floor: Json): (r: Result<FloorRow>)
    ensures r.Ok? <==> floor.Obj? && ToInt(Field(floor, "id")).Ok?
    ensures r.Ok? ==> Ok(r.value.floorId) == ToInt(Field(floor, "id"))
    ensures r.Ok? ==> r.value.floorName == Field(floor, "name") && r.value.floorCode == Field(floor, "code")
    ensures r.Ok? ==> r.value.siteName == p.siteName && r.value.siteCode == p.siteCode
    ensures r.Ok? ==> r.value.serviceName == p.serviceName && r.value.serviceCode == p.serviceCode
  {
    var idField :- Get(floor, "id", Null);
    var id :- ToInt(idField);
    Ok(FloorRow(id, Field(floor, "name"), Field(floor, "code"),
                p.siteName, p.siteCode, p.serviceName, p.serviceCode))
  }

  /** The innermost loop: one row per floor of one service, in order. */
  function FlattenFloors(p: Parents, floors: seq<Json>): (r: Result<seq<FloorRow>>)
    ensures r.Ok? <==> forall j :: 0 <= j < |floors| ==> FloorRowOf(p, floors[j]).Ok?
    ensures r.Ok? ==> |r.value| == |floors|
    ensures r.Ok? ==> forall i :: 0 <= i < |floors| ==> Ok(r.value[i]) == FloorRowOf(p, floors[i])
  {
    MapResult(floors, 0, floor => FloorRowOf(p, floor))
  }

  /** `service.get("floor", [])`, iterated. */
  function FloorsOf(service: Json): Result<seq<Json>>
    requires service.Obj?
  {
    Iterate(Lookup(service.fields, "floor").GetOr(Arr([])))
  }

  /** `site.get("service", [])`, iterated. */
  function ServicesOf(site: Json): Result<seq<Json>>
    requires site.Obj?
  {
    Iterate(Lookup(site.fields, "service").GetOr(Arr([])))
  }

  /** Reference count: the floors listed under `services[k..]`. */
  function FloorCount(services: seq<Json>, k: nat): nat
    requires k <= |services|
    decreases |services| - k
  {
    if k == |services| then 0
    else
      var here := if services[k].Obj? && FloorsOf(services[k]).Ok? then |FloorsOf(services[k]).value| else 0;
      here + FloorCount(services, k + 1)
  }

  /** Reference count: the floors listed under `sites[k..]`. */
  function SiteFloorCount(sites: seq<Json>, k: nat): nat
    requires k <= |sites|
    decreases |sites| - k
  {
    if k == |sites| then 0
    else
      var here := if sites[k].Obj? && ServicesOf(sites[k]).Ok? then FloorCount(ServicesOf(sites[k]).value, 0) else 0;
      here + SiteFloorCount(sites, k + 1)
  }

  /** Each floor of a list paired with its parents. */
  function Tag(p: Parents, floors: seq<Json>): (r: seq<(Parents, Json)>)
    ensures |r| == |floors| && forall i :: 0 <= i < |floors| ==> r[i] == (p, floors[i])
  {
    seq(|floors|, i requires 0 <= i < |floors| => (p, floors[i]))
  }

  /** Reference order: the floors under `services[k..]`, service by service,
      each paired with its site and service. */
  function ServiceFloors(site: Json, services: seq<Json>, k: nat): seq<(Parents, Json)>
    requires site.Obj? && k <= |services|
    decreases |services| - k
  {
    if k == |services| then []
    else
      var here := if services[k].Obj? && FloorsOf(services[k]).Ok?
                  then Tag(ParentsOf(site, services[k]), FloorsOf(services[k]).value) else [];
      here + ServiceFloors(site, services, k + 1)
  }

  /** Reference order: the floors under `sites[k..]`, site by site. */
  function SiteFloors(sites: seq<Json>, k: nat): seq<(Parents, Json)>
    requires k <= |sites|
    decreases |sites| - k
  {
    if k == |sites| then []
    else
      var here := if sites[k].Obj? && ServicesOf(sites[k]).Ok?
                  then ServiceFloors(sites[k], ServicesOf(sites[k]).value, 0) else [];
      here + SiteFloors(sites, k + 1)
  }

  /** Pointwise agreement of two lists under `rel`, kept by concatenation. */
  lemma ConcatPointwise<A, B>(a: seq<A>, b: seq<A>, pa: seq<B>, pb: seq<B>, rel: (A, B) -> bool)
    requires |a| == |pa| && forall i :: 0 <= i < |a| ==> rel(a[i], pa[i])
    requires |b| == |pb| && forall i :: 0 <= i < |b| ==> rel(b[i], pb[i])
    ensures |a + b| == |pa + pb| && forall i :: 0 <= i < |a + b| ==> rel((a + b)[i], (pa + pb)[i])
  {
    forall i | 0 <= i < |a + b|
      ensures rel((a + b)[i], (pa + pb)[i])
    {
      if i >= |a| {
        assert (a + b)[i] == b[i - |a|] && (pa + pb)[i] == pb[i - |a|];
      }
    }
  }

  /** Rows that match a reference list keep matching when both grow by
      matching parts. */
  lemma RowsConcat(a: seq<FloorRow>, b: seq<FloorRow>, pa: seq<(Parents, Json)>, pb: seq<(Parents, Json)>)
    requires |a| == |pa| && forall i :: 0 <= i < |a| ==> Ok(a[i]) == FloorRowOf(pa[i].0, pa[i].1)
    requires |b| == |pb| && forall i :: 0 <= i < |b| ==> Ok(b[i]) == FloorRowOf(pb[i].0, pb[i].1)
    ensures |a + b| == |pa + pb|
    ensures forall i :: 0 <= i < |a + b| ==> Ok((a + b)[i]) == FloorRowOf((pa + pb)[i].0, (pa + pb)[i].1)
  {
    var rel := (row: FloorRow, pf: (Parents, Json)) => Ok(row) == FloorRowOf(pf.0, pf.1);
    ConcatPointwise(a, b, pa, pb, rel);
  }

  /** The middle loop: the rows of `services[k..]` of one site. */
  function FlattenServices(site: Json, services: seq<Json>, k: nat): (r: Result<seq<FloorRow>>)
    requires site.Obj? && k <= |services|
    ensures r.Ok? ==> |r.value| == FloorCount(services, k)
    ensures r.Ok? ==> forall i :: 0 <= i < |r.value| ==>
      r.value[i].siteName == Field(site, "name") && r.value[i].siteCode == Field(site, "code")
    ensures r.Ok? && k < |services| ==> services[k].Obj? && FloorsOf(services[k]).Ok?
    ensures r.Ok? && k < |services| ==>
      forall i :: 0 <= i < |FloorsOf(services[k]).value| ==>
        Ok(r.value[i]) == FloorRowOf(ParentsOf(site, services[k]), FloorsOf(services[k]).value[i])
    ensures r.Ok? ==> |r.value| == |ServiceFloors(site, services, k)|
    ensures r.Ok? ==> forall i :: 0 <= i < |r.value| ==>
      Ok(r.value[i]) == FloorRowOf(ServiceFloors(site, services, k)[i].0, ServiceFloors(site, services, k)[i].1)
    decreases |services| - k
  {
    if k == |services| then Ok([])
    else
      var service := services[k];
      if !service.Obj? then Err(AttributeError)
      else
        var floors :- FloorsOf(service);
        var head :- FlattenFloors(ParentsOf(site, service), floors);
        var rest :- FlattenServices(site, services, k + 1);
        ServicesStep(site, services, k, head, rest);
        Ok(head + rest)
  }

  /** One step of the middle loop: a service's rows followed by rows that
      match the services after it are the rows of `services[k..]`. */
  lemma ServicesStep(site: Json, services: seq<Json>, k: nat, head: seq<FloorRow>, rest: seq<FloorRow>)
    requires site.Obj? && k < |services| && services[k].Obj? && FloorsOf(services[k]).Ok?
    requires FlattenFloors(ParentsOf(site, services[k]), FloorsOf(services[k]).value) == Ok(head)
    requires |rest| == FloorCount(services, k + 1) && |rest| == |ServiceFloors(site, services, k + 1)|
    requires forall i :: 0 <= i < |rest| ==>
      rest[i].siteName == Field(site, "name") && rest[i].siteCode == Field(site, "code")
    requires forall i :: 0 <= i < |rest| ==>
      Ok(rest[i]) == FloorRowOf(ServiceFloors(site, services, k + 1)[i].0, ServiceFloors(site, services, k + 1)[i].1)
    ensures |head + rest| == FloorCount(services, k)
    ensures forall i :: 0 <= i < |head + rest| ==>
      (head + rest)[i].siteName == Field(site, "name") && (head + rest)[i].siteCode == Field(site, "code")
    ensures forall i :: 0 <= i < |FloorsOf(services[k]).value| ==>
      Ok((head + rest)[i]) == FloorRowOf(ParentsOf(site, services[k]), FloorsOf(services[k]).value[i])
    ensures |head + rest| == |ServiceFloors(site, services, k)|
    ensures forall i :: 0 <= i < |head + rest| ==>
      Ok((head + rest)[i]) == FloorRowOf(ServiceFloors(site, services, k)[i].0, ServiceFloors(site, services, k)[i].1)
  {
    var p := ParentsOf(site, services[k]);
    var floors := FloorsOf(services[k]).value;
    assert ServiceFloors(site, services, k) == Tag(p, floors) + ServiceFloors(site, services, k + 1);
    RowsConcat(head, rest, Tag(p, floors), ServiceFloors(site, services, k + 1));
    forall i | 0 <= i < |head + rest|
      ensures (head + rest)[i].siteName == Field(site, "name") && (head + rest)[i].siteCode == Field(site, "code")
    {
      if i < |head| {
        assert Ok(head[i]) == FloorRowOf(p, floors[i]);
      }
    }
  }

  /** The outer loop: the rows of `sites[k..]`. */
  function FlattenSites(sites: seq<Json>, k: nat): (r: Result<seq<FloorRow>>)
    requires k <= |sites|
    ensures r.Ok? ==> |r.value| == SiteFloorCount(sites, k)
    ensures r.Ok? && k < |sites| ==> sites[k].Obj? && ServicesOf(sites[k]).Ok?
    ensures r.Ok? && k < |sites| ==>
      forall i :: 0 <= i < FloorCount(ServicesOf(sites[k]).value, 0) ==>
        r.value[i].siteName == Field(sites[k], "name") && r.value[i].siteCode == Field(sites[k], "code")
    ensures r.Ok? ==> |r.value| == |SiteFloors(sites, k)|
    ensures r.Ok? ==> forall i :: 0 <= i < |r.value| ==>
      Ok(r.value[i]) == FloorRowOf(SiteFloors(sites, k)[i].0, SiteFloors(sites, k)[i].1)
    decreases |sites| - k
  {
    if k == |sites| then Ok([])
    else
      var site := sites[k];
      if !site.Obj? then Err(AttributeError)
      else
        var services :- ServicesOf(site);
        var head :- FlattenServices(site, services, 0);
        var rest :- FlattenSites(sites, k + 1);
        RowsConcat(head, rest, ServiceFloors(site, services, 0), SiteFloors(sites, k + 1));
        Ok(head + rest)
  }

  /** `result.get("result", {}).get(key, [])` of a response body. */
  function Listed(body: Json, key: string): Result<Json> {
    var inner :- Get(body, "result", Obj([]));
    Get(inner, key, Arr([]))
  }

  /** `sync_floor_master`, given the response body (or `None` when the
      request raised) and whether the upsert raises. */
  function SyncFloorMaster(fetched: Option<Json>, upsertRaises: bool): (r: Result<Sync<FloorRow>>)
    ensures fetched.None? ==> r == Ok(Aborted)
    ensures fetched.Some? && Listed(fetched.value, "site").Ok? && !Truthy(Listed(fetched.value, "site").value)
            ==> r == Ok(Aborted)
    ensures r.Ok? && r.value.Sent? ==> fetched.Some? && Listed(fetched.value, "site").Ok?
    ensures r.Ok? && r.value.Sent? ==> Iterate(Listed(fetched.value, "site").value).Ok?
    ensures r.Ok? && r.value.Sent? ==> |r.value.rows| == SiteFloorCount(Iterate(Listed(fetched.value, "site").value).value, 0)
    ensures r.Ok? && r.value.Sent? ==> r.value.upsertFailed == upsertRaises
    ensures fetched.Some? ==>
      var sites := Listed(fetched.value, "site");
      sites.Ok? && Truthy(sites.value) && Iterate(sites.value).Ok? && FlattenSites(Iterate(sites.value).value, 0).Ok?
      ==> r == Ok(Sent(FlattenSites(Iterate(sites.value).value, 0).value, upsertRaises))
    ensures r.Err? <==>
      fetched.Some? &&
      var sites := Listed(fetched.value, "site");
      (sites.Err? || (Truthy(sites.value) &&
                      (Iterate(sites.value).Err? || FlattenSites(Iterate(sites.value).value, 0).Err?)))
  {
    match fetched
    case None => Ok(Aborted)
    case Some(body) =>
      var sites :- Listed(body, "site");
      if !Truthy(sites) then Ok(Aborted)
      else
        var list :- Iterate(sites);
        var rows :- FlattenSites(list, 0);
        Ok(Sent(rows, upsertRaises))
  }

  /** A raising upsert changes nothing but the logged failure. */
  lemma FloorUpsertFailureContained(fetched: Option<Json>)
    ensures SyncFloorMaster(fetched, true).Ok? == SyncFloorMaster(fetched, false).Ok?
    ensures SyncFloorMaster(fetched, true).Ok? && SyncFloorMaster(fetched, true).value.Sent? ==>
      SyncFloorMaster(fetched, false).value.Sent? &&
      SyncFloorMaster(fetched, true).value.rows == SyncFloorMaster(fetched, false).value.rows
  {
  }

  // One site with one service with two floors.
  const ExFloor1 := Obj([("id", Str("1")), ("name", Str("a"))])
  const ExFloor2 := Obj([("id", Int(2)), ("name", Str("b"))])
  const ExService := Obj([("code", Str("s")), ("floor", Arr([ExFloor1, ExFloor2]))])
  const ExSite := Obj([("code", Str("x")), ("service", Arr([ExService]))])
  const ExParents := Parents(Null, Str("x"), Null, Str("s"))
  const ExRow1 := FloorRow(1, Str("a"), Null, Null, Str("x"), Null, Str("s"))
  const ExRow2 := FloorRow(2, Str("b"), Null, Null, Str("x"), Null, Str("s"))

  lemma ExampleFloorRows()
    ensures FloorRowOf(ExParents, ExFloor1) == Ok(ExRow1)
    ensures FloorRowOf(ExParents, ExFloor2) == Ok(ExRow2)
  {
    Text.ParseIntRoundTrip(1);
    assert Text.IntToString(1) == "1";
  }

  lemma ExampleService()
    ensures FlattenFloors(ExParents, [ExFloor1, ExFloor2]) == Ok([ExRow1, ExRow2])
  {
    ExampleFloorRows();
    var floors := [ExFloor1, ExFloor2];
    var r := FlattenFloors(ExParents, floors);
    assert FloorRowOf(ExParents, floors[0]).Ok? && FloorRowOf(ExParents, floors[1]).Ok?;
    assert Ok(r.value[0]) == FloorRowOf(ExParents, floors[0]);
    assert Ok(r.value[1]) == FloorRowOf(ExParents, floors[1]);
    assert |r.value| == 2;
    assert r.value == [ExRow1, ExRow2];
  }

  /** A single site contributes exactly the rows of its services. */
  lemma SingleSite(site: Json)
    requires site.Obj?
    ensures ServicesOf(site).Err? ==> FlattenSites([site], 0) == Err(ServicesOf(site).error)
    ensures ServicesOf(site).Ok? ==> FlattenSites([site], 0) == FlattenServices(site, ServicesOf(site).value, 0)
  {
    var sites := [site];
    assert sites[0] == site;
    assert FlattenSites(sites, 1) == Ok([]);
    if ServicesOf(site).Ok? {
      var rows := FlattenServices(site, ServicesOf(site).value, 0);
      assert rows.Ok? ==> rows.value + [] == rows.value;
    }
  }

  /** A single service contributes exactly the rows of its floors. */
  lemma SingleService(site: Json, service: Json)
    requires site.Obj? && service.Obj?
    ensures FloorsOf(service).Err? ==> FlattenServices(site, [service], 0) == Err(FloorsOf(service).error)
    ensures FloorsOf(service).Ok? ==>
      FlattenServices(site, [service], 0) == FlattenFloors(ParentsOf(site, service), FloorsOf(service).value)
  {
    var services := [service];
    assert services[0] == service;
    assert FlattenServices(site, services, 1) == Ok([]);
    if FloorsOf(service).Ok? {
      var rows := FlattenFloors(ParentsOf(site, service), FloorsOf(service).value);
      assert rows.Ok? ==> rows.value + [] == rows.value;
    }
  }

  /** The example flattens to two rows in floor order, each carrying the
      site and service codes. */
  lemma FlattenExample()
    ensures FlattenSites([ExSite], 0) == Ok([ExRow1, ExRow2])
  {
    ExampleService();
    ExampleLists();
    SingleService(ExSite, ExService);
    SingleSite(ExSite);
  }

  lemma ExampleLists()
    ensures ParentsOf(ExSite, ExService) == ExParents
    ensures FloorsOf(ExService) == Ok([ExFloor1, ExFloor2])
    ensures ServicesOf(ExSite) == Ok([ExService])
  {
    assert ParentsOf(ExSite, ExService) == ExParents;
    assert FloorsOf(ExService) == Ok([ExFloor1, ExFloor2]);
  }

  // ---------------------------------------------------------------------------
  // sync_genre_master
  // ---------------------------------------------------------------------------

  datatype GenreRow = GenreRow(genreId: int, name: Json, ruby: Json, floorId: Json)

  /** `{"genre_id": int(g["genre_id"]), "genres_name": g["name"], ...}` */
  function GenreRowOf(g: Json, floorId: Json): (r: Result<GenreRow>)
    ensures r.Ok? <==> Index(g, "genre_id").Ok? && ToInt(Index(g, "genre_id").value).Ok?
                       && Index(g, "name").Ok? && Index(g, "ruby").Ok?
    ensures r.Ok? ==> Ok(r.value.genreId) == ToInt(Index(g, "genre_id").value)
    ensures r.Ok? ==> Ok(r.value.name) == Index(g, "name") && Ok(r.value.ruby) == Index(g, "ruby")
    ensures r.Ok? ==> r.value.floorId == floorId
  {
    var raw :- Index(g, "genre_id");
    var id :- ToInt(raw);
    var name :- Index(g, "name");
    var ruby :- Index(g, "ruby");
    Ok(GenreRow(id, name, ruby, floorId))
  }

  /** One row per genre, in order; the first malformed genre raises. */
  function GenreRows(genres: seq<Json>, floorId: Json): (r: Result<seq<GenreRow>>)
    ensures r.Ok? <==> forall j :: 0 <= j < |genres| ==> GenreRowOf(genres[j], floorId).Ok?
    ensures r.Ok? ==> |r.value| == |genres|
    ensures r.Ok? ==> forall i :: 0 <= i < |genres| ==> Ok(r.value[i]) == GenreRowOf(genres[i], floorId)
  {
    MapResult(genres, 0, g => GenreRowOf(g, floorId))
  }

  /** `sync_genre_master(floor_id)`. */
  function SyncGenreMaster(floorId: Json, fetched: Option<Json>, upsertRaises: bool): (r: Result<Sync<GenreRow>>)
    ensures fetched.None? ==> r == Ok(Aborted)
    ensures fetched.Some? && Listed(fetched.value, "genre").Ok? && !Truthy(Listed(fetched.value, "genre").value)
            ==> r == Ok(Aborted)
    ensures r.Ok? && r.value.Sent? ==> fetched.Some? && Listed(fetched.value, "genre").Ok?
    ensures r.Ok? && r.value.Sent? ==> Iterate(Listed(fetched.value, "genre").value).Ok?
    ensures r.Ok? && r.value.Sent? ==> |r.value.rows| == |Iterate(Listed(fetched.value, "genre").value).value|
    ensures r.Ok? && r.value.Sent? ==> forall i :: 0 <= i < |r.value.rows| ==> r.value.rows[i].floorId == floorId
    ensures r.Ok? && r.value.Sent? ==> r.value.upsertFailed == upsertRaises
    ensures fetched.Some? ==>
      var genres := Listed(fetched.value, "genre");
      genres.Ok? && Truthy(genres.value) && Iterate(genres.value).Ok? && GenreRows(Iterate(genres.value).value, floorId).Ok?
      ==> r == Ok(Sent(GenreRows(Iterate(genres.value).value, floorId).value, upsertRaises))
    ensures r.Err? <==>
      fetched.Some? &&
      var genres := Listed(fetched.value, "genre");
      (genres.Err? || (Truthy(genres.value) &&
                       (Iterate(genres.value).Err? || GenreRows(Iterate(genres.value).value, floorId).Err?)))
  {
    match fetched
    case None => Ok(Aborted)
    case Some(body) =>
      var genres :- Listed(body, "genre");
      if !Truthy(genres) then Ok(Aborted)
      else
        var list :- Iterate(genres);
        var rows :- GenreRows(list, floorId);
        Ok(Sent(rows, upsertRaises))
  }

  // ---------------------------------------------------------------------------
  // main
  // ---------------------------------------------------------------------------

  /** The genre request and the upsert outcome for each floor id. */
  datatype Env = Env(fetch: Json -> Option<Json>, upsertRaises: Json -> bool)

  /** The floor ids synced, the outcome of each (an error is only logged),
      and the exception that reached the outer handler, if any. */
  datatype MainRun = MainRun(synced: seq<Json>, outcomes: seq<Result<Sync<GenreRow>>>, fatal: Option<PyError>)

  function SyncOne(id: Json, env: Env): Result<Sync<GenreRow>> {
    SyncGenreMaster(id, env.fetch(id), env.upsertRaises(id))
  }

  /** `floors[j]["floor_id"]` */
  function FloorIdAt(floors: seq<Json>, j: nat): Result<Json>
    requires j < |floors|
  {
    Index(floors[j], "floor_id")
  }

  /** The floor ids the loop reaches from position `k`, and the exception
      that ends it: `floor["floor_id"]` sits outside the inner `try`. */
  datatype Scan = Scan(ids: seq<Json>, fatal: Option<PyError>)

  function ScanFrom(floors: seq<Json>, k: nat): (r: Scan)
    requires k <= |floors|
    ensures |r.ids| <= |floors| - k
    ensures forall i :: 0 <= i < |r.ids| ==> FloorIdAt(floors, k + i) == Ok(r.ids[i])
    ensures r.fatal.None? <==> forall j :: k <= j < |floors| ==> FloorIdAt(floors, j).Ok?
    ensures r.fatal.None? ==> |r.ids| == |floors| - k
    ensures r.fatal.Some? ==> k + |r.ids| < |floors| && FloorIdAt(floors, k + |r.ids|) == Err(r.fatal.value)
    decreases |floors| - k
  {
    if k == |floors| then Scan([], None)
    else
      match FloorIdAt(floors, k)
      case Err(e) => Scan([], Some(e))
      case Ok(id) =>
        var rest := ScanFrom(floors, k + 1);
        IdsShift(floors, k, id, rest.ids);
        Scan([id] + rest.ids, rest.fatal)
  }

  lemma IdsShift(floors: seq<Json>, k: nat, id: Json, ids: seq<Json>)
    requires k + |ids| < |floors| && FloorIdAt(floors, k) == Ok(id)
    requires forall i :: 0 <= i < |ids| ==> FloorIdAt(floors, k + 1 + i) == Ok(ids[i])
    ensures forall i :: 0 <= i < |[id] + ids| ==> FloorIdAt(floors, k + i) == Ok(([id] + ids)[i])
  {
    forall i | 0 <= i < |[id] + ids| ensures FloorIdAt(floors, k + i) == Ok(([id] + ids)[i]) {
      if i > 0 {
        var j := i - 1;
        assert k + 1 + j == k + i;
        assert FloorIdAt(floors, k + 1 + j) == Ok(ids[j]);
      }
    }
  }

  /** `main()`: `selected` is the `floor_id` column of `mst_floor`, or the
      error of the select, which the outer handler logs.  Each reached floor
      is synced in its own `try`, so its outcome is recorded and the loop
      goes on. */
  function Main(selected: Result<seq<Json>>, env: Env): (r: MainRun)
    ensures selected.Err? ==> r == MainRun([], [], Some(selected.error))
    ensures |r.synced| == |r.outcomes|
    ensures forall i :: 0 <= i < |r.synced| ==> r.outcomes[i] == SyncOne(r.synced[i], env)
    ensures selected.Ok? ==> |r.synced| <= |selected.value|
    ensures selected.Ok? ==> forall i :: 0 <= i < |r.synced| ==> FloorIdAt(selected.value, i) == Ok(r.synced[i])
    ensures selected.Ok? ==> (r.fatal.None? <==> forall j :: 0 <= j < |selected.value| ==> FloorIdAt(selected.value, j).Ok?)
    ensures selected.Ok? && r.fatal.None? ==> |r.synced| == |selected.value|
    ensures selected.Ok? && r.fatal.Some? ==>
      |r.synced| < |selected.value| && FloorIdAt(selected.value, |r.synced|) == Err(r.fatal.value)
  {
    match selected
    case Err(e) => MainRun([], [], Some(e))
    case Ok(floors) =>
      var scan := ScanFrom(floors, 0);
      MainRun(scan.ids, seq(|scan.ids|, i requires 0 <= i < |scan.ids| => SyncOne(scan.ids[i], env)), scan.fatal)
  }

  /** Per-floor isolation: which floors are synced, and whether the loop
      ends early, does not depend on how any genre request or upsert turns
      out. */
  lemma FloorsSyncedRegardless(selected: Result<seq<Json>>, env1: Env, env2: Env)
    ensures Main(selected, env1).synced == Main(selected, env2).synced
    ensures Main(selected, env1).fatal == Main(selected, env2).fatal
  {
  }

  /** A failing floor in the middle does not stop the ones after it. */
  lemma FailureIsIsolated(floors: seq<Json>, env: Env, j: nat)
    requires forall i :: 0 <= i < |floors| ==> FloorIdAt(floors, i).Ok?
    requires j < |floors| && SyncOne(FloorIdAt(floors, j).value, env).Err?
    ensures |Main(Ok(floors), env).synced| == |floors|
    ensures Main(Ok(floors), env).outcomes[j].Err?
    ensures Main(Ok(floors), env).fatal.None?
  {
  }
}

=== FILE: migration.dfy ===
/** The Supabase-to-Storj migration script (`main_supabase2storj.py`): MIME
    inference from the file extension, the breadth-first listing of the
    source bucket, the bounded upload retry, and the per-file bookkeeping of
    `migrate`.  Both buckets are replaced by oracles: the source bucket by a
    finite folder tree, the target bucket by the set of keys it holds. */
module Migration {
  import opened Wrappers
  import opened Text

  // ---------------------------------------------------------------------------
  // detect_mime
  // ---------------------------------------------------------------------------

  /** The extension table; anything else is `application/octet-stream`. */
  function MimeOf(ext: string): (m: string)
    ensures m == "image/jpeg" <==> ext == "jpg" || ext == "jpeg"
    ensures m == "image/png" <==> ext == "png"
    ensures m == "image/gif" <==> ext == "gif"
    ensures m == "image/webp" <==> ext == "webp"
    ensures m == "application/octet-stream" <==> ext !in {"jpg", "jpeg", "png", "gif", "webp"}
  {
    if ext == "jpg" || ext == "jpeg" then "image/jpeg"
    else if ext == "png" then "image/png"
    else if ext == "gif" then "image/gif"
    else if ext == "webp" then "image/webp"
    else "application/octet-stream"
  }

  /** `detect_mime(path)`: the text after the last dot of the lower-cased
      path (the whole path when it has no dot) looked up in the table. */
  function DetectMime(path: string): (m: string)
    ensures m in {"image/jpeg", "image/png", "image/gif", "image/webp", "application/octet-stream"}
  {
    MimeOf(Last(Split(LowerAscii(path), '.')))
  }

  lemma LowerAsciiConcat(a: string, b: string)
    ensures LowerAscii(a + b) == LowerAscii(a) + LowerAscii(b)
  {
    var l, r := LowerAscii(a + b), LowerAscii(a) + LowerAscii(b);
    assert |l| == |r|;
    forall i | 0 <= i < |l| ensures l[i] == r[i] {
      if i < |a| {
        assert (a + b)[i] == a[i];
      } else {
        assert (a + b)[i] == b[i - |a|];
      }
    }
  }

  lemma LowerAsciiIdempotent(s: string)
    ensures LowerAscii(LowerAscii(s)) == LowerAscii(s)
  {
    var l := LowerAscii(s);
    forall i | 0 <= i < |s| ensures LowerAscii(l)[i] == l[i] {
    }
  }

  /** `name.ext` is typed by the lower-cased `ext`, whatever precedes it. */
  lemma {:induction false} DetectMimeOfName(stem: string, ext: string)
    requires '.' !in ext
    ensures DetectMime(stem + "." + ext) == MimeOf(LowerAscii(ext))
  {
    LowerAsciiConcat(stem + ".", ext);
    LowerAsciiConcat(stem, ".");
    assert LowerAscii(".") == ".";
    var le := LowerAscii(ext);
    assert '.' !in le by {
      assert forall i :: 0 <= i < |le| ==> le[i] == LowerChar(ext[i]) && ext[i] != '.';
    }
    assert LowerAscii(stem + "." + ext) == LowerAscii(stem) + ['.'] + le;
    SplitLast(LowerAscii(stem), le, '.');
  }

  /** A path without a dot is looked up whole. */
  lemma DetectMimeNoDot(path: string)
    requires '.' !in path
    ensures DetectMime(path) == MimeOf(LowerAscii(path))
  {
    var l := LowerAscii(path);
    assert '.' !in l by {
      assert forall i :: 0 <= i < |l| ==> l[i] == LowerChar(path[i]) && path[i] != '.';
    }
    SplitNoSeparator(l, '.');
  }

  /** The lookup ignores letter case. */
  lemma DetectMimeCaseInsensitive(path: string)
    ensures DetectMime(path) == DetectMime(LowerAscii(path))
  {
    LowerAsciiIdempotent(path);
  }

  lemma DetectMimeExample(stem: string, ext: string)
    requires ext == "JPEG"
    ensures DetectMime(stem + "." + ext) == "image/jpeg"
  {
    assert '.' !in ext by {
      assert forall i :: 0 <= i < |ext| ==> ext[i] in {'J', 'P', 'E', 'G'};
    }
    DetectMimeOfName(stem, ext);
    assert LowerAscii(ext) == "jpeg";
  }

  // ---------------------------------------------------------------------------
  // list_recursive
  // ---------------------------------------------------------------------------

  /** What the source bucket lists: a file (its metadata is set) or a folder
      (its metadata is `None`) together with what listing it returns. */
  datatype Entry = File(name: string) | Folder(name: string, entries: seq<Entry>)

  function Size(e: Entry): nat
    decreases e
  {
    match e
    case File(_) => 1
    case Folder(_, es) => 1 + SizeAll(es)
  }

  function SizeAll(es: seq<Entry>): nat
    decreases es
  {
    if |es| == 0 then 0 else Size(es[0]) + SizeAll(es[1..])
  }

  /** A queued folder: its path and the entries its listing returns. */
  datatype Pending = Pending(path: string, entries: seq<Entry>)

  function Weight(q: seq<Pending>): nat {
    if |q| == 0 then 0 else 1 + SizeAll(q[0].entries) + Weight(q[1..])
  }

  lemma {:induction false} WeightConcat(a: seq<Pending>, b: seq<Pending>)
    ensures Weight(a + b) == Weight(a) + Weight(b)
  {
    if |a| == 0 {
      assert a + b == b;
    } else {
      assert (a + b)[1..] == a[1..] + b;
      WeightConcat(a[1..], b);
    }
  }

  /** `f"{current}/{name}" if current else name` */
  function FullPath(current: string, name: string): string {
    if current == "" then name else current + "/" + name
  }

  /** One pass of `for obj in objs`: files listed under `current` in order,
      and the folders to enqueue in order. */
  function Expand(current: string, es: seq<Entry>): (r: (seq<string>, seq<Pending>))
    ensures Weight(r.1) <= SizeAll(es)
    decreases es
  {
    if |es| == 0 then ([], [])
    else
      var rest := Expand(current, es[1..]);
      match es[0]
      case File(n) => ([FullPath(current, n)] + rest.0, rest.1)
      case Folder(n, sub) =>
        var ds := [Pending(FullPath(current, n), sub)] + rest.1;
        assert ds[1..] == rest.1;
        (rest.0, ds)
  }

  /** The `while queue` loop: pop the first folder, list it, append its files
      to the result and its sub-folders to the queue. */
  function Walk(q: seq<Pending>): seq<string>
    decreases Weight(q)
  {
    if |q| == 0 then []
    else
      var (fs, ds) := Expand(q[0].path, q[0].entries);
      WeightConcat(q[1..], ds);
      fs + Walk(q[1..] + ds)
  }

  /** `list_recursive("")` over the bucket whose root lists `root`. */
  function ListRecursive(root: seq<Entry>): seq<string> {
    Walk([Pending("", root)])
  }

  /** Reference listing, depth first: every file of the tree with its path. */
  function Paths(current: string, es: seq<Entry>): seq<string>
    decreases es
  {
    if |es| == 0 then []
    else
      var here := match es[0]
        case File(n) => [FullPath(current, n)]
        case Folder(n, sub) => Paths(FullPath(current, n), sub);
      here + Paths(current, es[1..])
  }

  function PathsOfQueue(q: seq<Pending>): multiset<string> {
    if |q| == 0 then multiset{} else multiset(Paths(q[0].path, q[0].entries)) + PathsOfQueue(q[1..])
  }

  lemma {:induction false} PathsOfQueueConcat(a: seq<Pending>, b: seq<Pending>)
    ensures PathsOfQueue(a + b) == PathsOfQueue(a) + PathsOfQueue(b)
  {
    if |a| == 0 {
      assert a + b == b;
    } else {
      assert (a + b)[1..] == a[1..] + b;
      PathsOfQueueConcat(a[1..], b);
    }
  }

  lemma {:induction false} ExpandPaths(current: string, es: seq<Entry>)
    ensures var (fs, ds) := Expand(current, es);
      multiset(Paths(current, es)) == multiset(fs) + PathsOfQueue(ds)
    decreases es
  {
    if |es| > 0 {
      ExpandPaths(current, es[1..]);
      var rest := Expand(current, es[1..]);
      match es[0]
      case File(n) =>
      case Folder(n, sub) =>
        var ds := [Pending(FullPath(current, n), sub)] + rest.1;
        assert ds[1..] == rest.1;
    }
  }

  lemma {:induction false} WalkPaths(q: seq<Pending>)
    ensures multiset(Walk(q)) == PathsOfQueue(q)
    decreases Weight(q)
  {
    if |q| > 0 {
      var (fs, ds) := Expand(q[0].path, q[0].entries);
      WeightConcat(q[1..], ds);
      WalkPaths(q[1..] + ds);
      PathsOfQueueConcat(q[1..], ds);
      ExpandPaths(q[0].path, q[0].entries);
    }
  }

  /** The listing returns every file of the tree exactly as often as the
      depth-first reference does: nothing lost, nothing duplicated. */
  lemma ListRecursiveComplete(root: seq<Entry>)
    ensures multiset(ListRecursive(root)) == multiset(Paths("", root))
  {
    WalkPaths([Pending("", root)]);
    assert [Pending("", root)][1..] == [];
  }

  // Breadth-first order

  /** Number of `/` in a path: its depth below the bucket root. */
  function Slashes(s: string): nat {
    if |s| == 0 then 0 else (if s[|s| - 1] == '/' then 1 else 0) + Slashes(s[..|s| - 1])
  }

  lemma {:induction false} SlashesConcat(a: string, b: string)
    ensures Slashes(a + b) == Slashes(a) + Slashes(b)
    decreases |b|
  {
    if |b| == 0 {
      assert a + b == a;
    } else {
      assert (a + b)[..|a + b| - 1] == a + b[..|b| - 1];
      SlashesConcat(a, b[..|b| - 1]);
    }
  }

  lemma {:induction false} NoSlashes(s: string)
    requires '/' !in s
    ensures Slashes(s) == 0
    decreases |s|
  {
    if |s| > 0 {
      assert '/' !in s[..|s| - 1];
      NoSlashes(s[..|s| - 1]);
    }
  }

  /** Object names are non-empty and contain no `/`. */
  predicate NameOk(n: string) {
    |n| > 0 && '/' !in n
  }

  predicate WellNamed(es: seq<Entry>)
    decreases es
  {
    forall i :: 0 <= i < |es| ==>
      NameOk(es[i].name) && (es[i].Folder? ==> WellNamed(es[i].entries))
  }

  /** The depth of the files listed under a queued folder path. */
  function Level(p: string): nat {
    if p == "" then 0 else Slashes(p) + 1
  }

  lemma FullPathDepth(current: string, n: string)
    requires NameOk(n)
    ensures Slashes(FullPath(current, n)) == Level(current)
    ensures FullPath(current, n) != "" && Level(FullPath(current, n)) == Level(current) + 1
  {
    NoSlashes(n);
    if current != "" {
      SlashesConcat(current + "/", n);
      SlashesConcat(current, "/");
      assert "/"[..0] == "";
    }
  }

  /** Files found in one listing share its depth; the folders it enqueues
      are one level deeper. */
  lemma {:induction false} ExpandLevels(current: string, es: seq<Entry>)
    requires WellNamed(es)
    ensures forall i :: 0 <= i < |Expand(current, es).0| ==> Slashes(Expand(current, es).0[i]) == Level(current)
    ensures forall i :: 0 <= i < |Expand(current, es).1| ==>
      Level(Expand(current, es).1[i].path) == Level(current) + 1 && WellNamed(Expand(current, es).1[i].entries)
    decreases es
  {
    if |es| > 0 {
      assert WellNamed(es[1..]) by {
        assert forall i :: 0 <= i < |es[1..]| ==> es[1..][i] == es[i + 1];
      }
      ExpandLevels(current, es[1..]);
      FullPathDepth(current, es[0].name);
      var rest := Expand(current, es[1..]);
      var L := Level(current);
      match es[0]
      case File(n) =>
        var fs := [FullPath(current, n)] + rest.0;
        assert Expand(current, es) == (fs, rest.1);
        assert forall i :: 0 < i < |fs| ==> fs[i] == rest.0[i - 1];
      case Folder(n, sub) =>
        var ds := [Pending(FullPath(current, n), sub)] + rest.1;
        assert Expand(current, es) == (rest.0, ds);
        assert WellNamed(sub);
        assert forall i :: 0 < i < |ds| ==> ds[i] == rest.1[i - 1];
    }
  }

  /** The queue invariant of a breadth-first walk: levels never decrease
      from front to back and span at most one level. */
  predicate QueueOk(q: seq<Pending>) {
    && (forall i :: 0 <= i < |q| ==> WellNamed(q[i].entries))
    && (forall i, j :: 0 <= i <= j < |q| ==> Level(q[i].path) <= Level(q[j].path))
    && (forall i :: 0 <= i < |q| ==> Level(q[i].path) <= Level(q[0].path) + 1)
  }

  predicate DepthSorted(xs: seq<string>) {
    forall i, j :: 0 <= i <= j < |xs| ==> Slashes(xs[i]) <= Slashes(xs[j])
  }

  lemma QueueStep(q: seq<Pending>, ds: seq<Pending>)
    requires |q| > 0 && QueueOk(q)
    requires forall i :: 0 <= i < |ds| ==>
      Level(ds[i].path) == Level(q[0].path) + 1 && WellNamed(ds[i].entries)
    ensures QueueOk(q[1..] + ds)
    ensures |q[1..] + ds| > 0 ==> Level((q[1..] + ds)[0].path) >= Level(q[0].path)
  {
    var q' := q[1..] + ds;
    assert forall i :: 0 <= i < |q'| ==>
      (i < |q| - 1 ==> q'[i] == q[i + 1]) && (i >= |q| - 1 ==> q'[i] == ds[i - |q| + 1]);
  }

  lemma {:induction false} WalkSorted(q: seq<Pending>)
    requires QueueOk(q)
    ensures DepthSorted(Walk(q))
    ensures |q| > 0 ==> forall i :: 0 <= i < |Walk(q)| ==> Slashes(Walk(q)[i]) >= Level(q[0].path)
    decreases Weight(q)
  {
    if |q| > 0 {
      var fs, ds := Expand(q[0].path, q[0].entries).0, Expand(q[0].path, q[0].entries).1;
      ExpandLevels(q[0].path, q[0].entries);
      QueueStep(q, ds);
      var q' := q[1..] + ds;
      WeightConcat(q[1..], ds);
      WalkSorted(q');
      var w := Walk(q');
      assert Walk(q) == fs + w;
      SortedJoin(fs, w, Level(q[0].path));
    }
  }

  lemma SortedJoin(fs: seq<string>, w: seq<string>, L: nat)
    requires forall i :: 0 <= i < |fs| ==> Slashes(fs[i]) == L
    requires forall i :: 0 <= i < |w| ==> Slashes(w[i]) >= L
    requires DepthSorted(w)
    ensures DepthSorted(fs + w)
    ensures forall i :: 0 <= i < |fs + w| ==> Slashes((fs + w)[i]) >= L
  {
    assert forall i :: 0 <= i < |fs + w| ==>
      (i < |fs| ==> (fs + w)[i] == fs[i]) && (i >= |fs| ==> (fs + w)[i] == w[i - |fs|]);
  }

  /** Breadth-first order: a file of a shallower folder is never listed after
      a file of a deeper one. */
  lemma ListRecursiveBreadthFirst(root: seq<Entry>)
    requires WellNamed(root)
    ensures DepthSorted(ListRecursive(root))
  {
    WalkSorted([Pending("", root)]);
  }

  // ---------------------------------------------------------------------------
  // upload_storj
  // ---------------------------------------------------------------------------

  /** What `upload_storj` receives: bytes, or anything else. */
  datatype Payload = Bytes(data: seq<bv8>) | NotBytes

  /** Attempt `k` (0-based) of `put_object` succeeds; `plan` lists the
      outcome of each attempt and attempts beyond it fail. */
  predicate Succeeds(plan: seq<bool>, k: nat) {
    k < |plan| && plan[k]
  }

  /** `range(1, retry + 1)` has this many elements. */
  function Attempts(retry: int): nat {
    if retry > 0 then retry else 0
  }

  /** `upload_storj(key, data, mime, retry)`: non-bytes data raises before any
      attempt; otherwise up to `retry` attempts, `True` at the first success,
      `False` once every attempt failed.  `tries` counts the attempts made. */
  method UploadStorj(payload: Payload, retry: int, plan: seq<bool>) returns (r: Result<bool>, tries: nat)
    ensures payload.NotBytes? ==> r == Err(RuntimeError) && tries == 0
    ensures payload.Bytes? ==> r.Ok? && tries <= Attempts(retry)
    ensures r == Ok(true) ==>
      tries >= 1 && Succeeds(plan, tries - 1) && forall k :: 0 <= k < tries - 1 ==> !Succeeds(plan, k)
    ensures r == Ok(false) ==>
      tries == Attempts(retry) && forall k :: 0 <= k < tries ==> !Succeeds(plan, k)
  {
    if payload.NotBytes? {
      return Err(RuntimeError), 0;
    }
    tries := 0;
    var attempt := 1;
    while attempt <= retry
      invariant attempt >= 1 && tries == attempt - 1
      invariant attempt <= Attempts(retry) + 1
      invariant forall k :: 0 <= k < tries ==> !Succeeds(plan, k)
    {
      tries := attempt;
      if Succeeds(plan, attempt - 1) {
        return Ok(true), tries;
      }
      attempt := attempt + 1;
    }
    return Ok(false), tries;
  }

  /** The upload succeeds within `n` attempts. */
  predicate SucceedsWithin(plan: seq<bool>, n: nat) {
    exists k :: 0 <= k < n && Succeeds(plan, k)
  }

  /** `upload_storj` returns `True` exactly when some attempt within the
      retry budget succeeds. */
  method UploadStorjOutcome(data: seq<bv8>, retry: int, plan: seq<bool>) returns (ok: bool)
    ensures ok <==> SucceedsWithin(plan, Attempts(retry))
  {
    var r, tries := UploadStorj(Bytes(data), retry, plan);
    ok := r.value;
    if ok {
      assert Succeeds(plan, tries - 1);
    }
  }

  // ---------------------------------------------------------------------------
  // migrate
  // ---------------------------------------------------------------------------

  datatype Call = Head(key: string) | Download(path: string) | Put(key: string, attempt: nat)

  /** The source side: which downloads raise, and the outcome plan of the
      `put_object` attempts for each key (no plan: every attempt fails). */
  datatype Source = Source(downloadFails: set<string>, plans: map<string, seq<bool>>)

  function PlanFor(src: Source, key: string): seq<bool> {
    if key in src.plans then src.plans[key] else []
  }

  datatype Summary = Summary(total: nat, migrated: nat, skipped: nat, failed: nat)

  /** The calls `put_object` receives for the first `n` attempts. */
  function Puts(key: string, n: nat): (cs: seq<Call>)
    ensures |cs| == n && forall i :: 0 <= i < n ==> cs[i] == Put(key, i + 1)
  {
    if n == 0 then [] else Puts(key, n - 1) + [Put(key, n)]
  }

  /** Calls that touch the file itself (anything but the existence probe). */
  predicate Touches(c: Call, p: string) {
    (c.Download? && c.path == p) || (c.Put? && c.key == p)
  }

  /** What the loop body does with one listed path. */
  datatype PathOutcome = Skipped | DownloadFailed | Migrated | UploadFailed

  /** Lines 258-278 for one path, given the keys the target holds at that
      moment: skip a present key, fail a download that raises, otherwise
      migrate exactly when an attempt within the default budget of three
      succeeds. */
  function Decide(present: set<string>, src: Source, p: string): PathOutcome {
    if p in present then Skipped
    else if p in src.downloadFails then DownloadFailed
    else if SucceedsWithin(PlanFor(src, p), 3) then Migrated
    else UploadFailed
  }

  /** Reference for the loop: the outcome of every path in turn and the
      target's keys at the end.  A migrated key is present for later paths. */
  function Replay(paths: seq<string>, present: set<string>, src: Source): (r: (seq<PathOutcome>, set<string>))
    ensures |r.0| == |paths| && present <= r.1
    decreases |paths|
  {
    if |paths| == 0 then ([], present)
    else
      var o := Decide(present, src, paths[0]);
      var rest := Replay(paths[1..], if o == Migrated then present + {paths[0]} else present, src);
      ([o] + rest.0, rest.1)
  }

  /** How many outcomes equal `o`. */
  function CountOf(os: seq<PathOutcome>, o: PathOutcome): (n: nat)
    ensures n <= |os|
  {
    if |os| == 0 then 0 else CountOf(os[..|os| - 1], o) + (if os[|os| - 1] == o then 1 else 0)
  }

  /** The loop body of `migrate()` for one path: the probe, then the
      download, then the upload with the default three attempts. */
  method MigrateOne(path: string, store: set<string>, src: Source)
    returns (o: PathOutcome, after: set<string>, added: seq<Call>)
    ensures o == Decide(store, src, path)
    ensures after == if o == Migrated then store + {path} else store
    ensures o != Skipped ==> Download(path) in added
    ensures forall j :: 0 <= j < |added| ==>
      added[j] == Head(path) || (o != Skipped && Touches(added[j], path) && (added[j].Put? ==> o != DownloadFailed))
  {
    if path in store {
      return Skipped, store, [Head(path)];
    } else if path in src.downloadFails {
      return DownloadFailed, store, [Head(path), Download(path)];
    }
    var ok, tries := UploadStorj(Bytes([]), 3, PlanFor(src, path));
    added := [Head(path), Download(path)] + Puts(path, tries);
    if ok.value {
      assert Succeeds(PlanFor(src, path), tries - 1);
      o, after := Migrated, store + {path};
    } else {
      o, after := UploadFailed, store;
    }
  }

  /** `migrate()`: the sanity check, the listing, and for every path a probe
      of the target (skip), a download (fail) and an upload (migrate or
      fail).  Returns the summary counts, the target's keys afterwards, the
      calls made and the outcome of each listed path. */
  method Migrate(configOk: bool, root: seq<Entry>, storj: set<string>, src: Source)
    returns (r: Result<Summary>, store: set<string>, calls: seq<Call>, outcomes: seq<PathOutcome>)
    ensures !configOk ==> r == Err(RuntimeError) && store == storj && calls == [] && outcomes == []
    ensures configOk ==> r.Ok?
    ensures r.Ok? ==> (outcomes, store) == Replay(ListRecursive(root), storj, src)
    ensures r.Ok? ==> r.value.total == |ListRecursive(root)|
    ensures r.Ok? ==> r.value.migrated == CountOf(outcomes, Migrated) && r.value.skipped == CountOf(outcomes, Skipped)
    ensures r.Ok? ==> r.value.failed == CountOf(outcomes, DownloadFailed) + CountOf(outcomes, UploadFailed)
    ensures r.Ok? ==> r.value.migrated + r.value.skipped + r.value.failed == r.value.total
    ensures storj <= store
    ensures r.Ok? ==> r.value.migrated == |store - storj|
    ensures forall p :: p in store - storj ==> p in ListRecursive(root) && p !in src.downloadFails
    ensures r.Ok? ==> forall p :: (p in ListRecursive(root) && p !in storj && p !in src.downloadFails &&
      SucceedsWithin(PlanFor(src, p), 3)) ==> p in store
    ensures forall i :: 0 <= i < |outcomes| && outcomes[i] != Skipped ==> Download(ListRecursive(root)[i]) in calls
    ensures forall p, i :: p in storj && 0 <= i < |calls| ==> !Touches(calls[i], p)
    ensures forall p, i :: p in src.downloadFails && 0 <= i < |calls| ==> !(calls[i].Put? && calls[i].key == p)
  {
    if !configOk {
      return Err(RuntimeError), storj, [], [];
    }
    var paths := ListRecursive(root);
    var summary;
    summary, store, calls, outcomes := MigrateAll(paths, storj, src);
    ReplayNewKeys(paths, storj, src);
    ReplayComplete(paths, storj, src);
    ReplayCounts(paths, storj, src);
    CountsCover(outcomes);
    r := Ok(summary);
  }

  /** The loop of `migrate()` over the listed paths. */
  method MigrateAll(paths: seq<string>, storj: set<string>, src: Source)
    returns (summary: Summary, store: set<string>, calls: seq<Call>, outcomes: seq<PathOutcome>)
    ensures (outcomes, store) == Replay(paths, storj, src)
    ensures summary.total == |paths|
    ensures summary.migrated == CountOf(outcomes, Migrated) && summary.skipped == CountOf(outcomes, Skipped)
    ensures summary.failed == CountOf(outcomes, DownloadFailed) + CountOf(outcomes, UploadFailed)
    ensures forall i :: 0 <= i < |outcomes| && outcomes[i] != Skipped ==> Download(paths[i]) in calls
    ensures Respects(calls, storj, src)
  {
    var migrated, skipped, failed := 0, 0, 0;
    store, calls, outcomes := storj, [], [];
    var i := 0;
    ReplayStart(paths, storj, src);
    while i < |paths|
      invariant 0 <= i <= |paths| && |outcomes| == i
      invariant Replay(paths, storj, src).0 == outcomes + Replay(paths[i..], store, src).0
      invariant Replay(paths, storj, src).1 == Replay(paths[i..], store, src).1
      invariant migrated == CountOf(outcomes, Migrated) && skipped == CountOf(outcomes, Skipped)
      invariant failed == CountOf(outcomes, DownloadFailed) + CountOf(outcomes, UploadFailed)
      invariant storj <= store
      invariant forall k :: 0 <= k < i && outcomes[k] != Skipped ==> Download(paths[k]) in calls
      invariant Respects(calls, storj, src)
    {
      var path := paths[i];
      var o, after, added := MigrateOne(path, store, src);
      if o == Migrated {
        migrated := migrated + 1;
      } else if o == Skipped {
        skipped := skipped + 1;
      } else {
        failed := failed + 1;
      }
      CountSnoc(outcomes, o);
      RespectsAppend(calls, added, storj, store, src, path, o);
      ReplayAdvance(paths, i, storj, store, outcomes, src);
      store, calls, outcomes := after, calls + added, outcomes + [o];
      i := i + 1;
    }
    assert paths[i..] == [];
    assert outcomes + [] == outcomes;
    summary := Summary(|paths|, migrated, skipped, failed);
  }

  /** Counting over a prepended outcome. */
  lemma {:induction false} CountCons(o: PathOutcome, os: seq<PathOutcome>)
    ensures forall x :: CountOf([o] + os, x) == (if o == x then 1 else 0) + CountOf(os, x)
    decreases |os|
  {
    if |os| > 0 {
      var init := os[..|os| - 1];
      assert ([o] + os)[..|os|] == [o] + init;
      assert ([o] + os)[|os|] == os[|os| - 1];
      CountCons(o, init);
    } else {
      assert ([o] + os)[..0] == [];
    }
  }

  /** Every key the run adds is a listed path whose download does not raise. */
  lemma {:induction false} ReplayNewKeys(paths: seq<string>, present: set<string>, src: Source)
    ensures forall p :: p in Replay(paths, present, src).1 - present ==> p in paths && p !in src.downloadFails
    decreases |paths|
  {
    if |paths| > 0 {
      var o := Decide(present, src, paths[0]);
      var next := if o == Migrated then present + {paths[0]} else present;
      ReplayNewKeys(paths[1..], next, src);
      assert forall p :: p in paths[1..] ==> p in paths;
    }
  }

  /** Every listed path that is absent, downloadable and uploadable within
      three attempts is in the target afterwards. */
  lemma {:induction false} ReplayComplete(paths: seq<string>, present: set<string>, src: Source)
    ensures forall p :: (p in paths && p !in present && p !in src.downloadFails &&
      SucceedsWithin(PlanFor(src, p), 3)) ==> p in Replay(paths, present, src).1
    decreases |paths|
  {
    if |paths| > 0 {
      var o := Decide(present, src, paths[0]);
      var next := if o == Migrated then present + {paths[0]} else present;
      ReplayComplete(paths[1..], next, src);
      assert forall p :: p in paths ==> p == paths[0] || p in paths[1..];
    }
  }

  /** The migrated count is the number of keys added. */
  lemma {:induction false} ReplayCounts(paths: seq<string>, present: set<string>, src: Source)
    ensures CountOf(Replay(paths, present, src).0, Migrated) == |Replay(paths, present, src).1 - present|
    decreases |paths|
  {
    if |paths| > 0 {
      var o := Decide(present, src, paths[0]);
      var next := if o == Migrated then present + {paths[0]} else present;
      var rest := Replay(paths[1..], next, src);
      assert Replay(paths, present, src) == ([o] + rest.0, rest.1);
      ReplayCounts(paths[1..], next, src);
      CountCons(o, rest.0);
      if o == Migrated {
        assert rest.1 - present == (rest.1 - next) + {paths[0]};
      }
    }
  }

  /** The four counts cover every outcome. */
  lemma {:induction false} CountsCover(os: seq<PathOutcome>)
    ensures CountOf(os, Migrated) + CountOf(os, Skipped) + CountOf(os, DownloadFailed) + CountOf(os, UploadFailed) == |os|
    decreases |os|
  {
    if |os| > 0 {
      CountsCover(os[..|os| - 1]);
    }
  }

  /** No path is listed twice. */
  predicate Distinct(paths: seq<string>) {
    forall i, j :: 0 <= i < j < |paths| ==> paths[i] != paths[j]
  }

  /** With no path listed twice, each path's outcome is decided against the
      target as it was before the run. */
  lemma {:induction false} ReplayDistinct(paths: seq<string>, present: set<string>, src: Source)
    requires Distinct(paths)
    ensures forall i :: 0 <= i < |paths| ==> Replay(paths, present, src).0[i] == Decide(present, src, paths[i])
    decreases |paths|
  {
    if |paths| > 0 {
      var o := Decide(present, src, paths[0]);
      var next := if o == Migrated then present + {paths[0]} else present;
      var rest := paths[1..];
      ReplayDistinct(rest, next, src);
      forall i | 1 <= i < |paths|
        ensures Replay(paths, present, src).0[i] == Decide(present, src, paths[i])
      {
        assert rest[i - 1] == paths[i] && paths[i] != paths[0];
        assert (paths[i] in next) == (paths[i] in present);
      }
    }
  }

  /** The listed keys the target holds. */
  function Held(paths: seq<string>, present: set<string>): set<string> {
    set p | p in paths && p in present
  }

  /** Prepending a new path adds it to `Held` exactly when it is present. */
  lemma HeldCons(x: string, rest: seq<string>, present: set<string>)
    requires x !in rest
    ensures |Held([x] + rest, present)| == |Held(rest, present)| + (if x in present then 1 else 0)
  {
    assert Held([x] + rest, present) == Held(rest, present) + (if x in present then {x} else {});
  }

  /** Adding a key that is not listed does not change `Held`. */
  lemma HeldIgnores(rest: seq<string>, present: set<string>, x: string)
    requires x !in rest
    ensures Held(rest, present + {x}) == Held(rest, present)
  {
  }

  /** With no path listed twice, the skipped count is the number of listed
      keys the target already held. */
  lemma {:induction false} SkippedCount(paths: seq<string>, present: set<string>, src: Source)
    requires Distinct(paths)
    ensures CountOf(Replay(paths, present, src).0, Skipped) == |Held(paths, present)|
    decreases |paths|
  {
    if |paths| > 0 {
      var o := Decide(present, src, paths[0]);
      var next := if o == Migrated then present + {paths[0]} else present;
      var rest := paths[1..];
      assert paths == [paths[0]] + rest;
      assert Distinct(rest);
      assert paths[0] !in rest;
      SkippedCount(rest, next, src);
      assert Replay(paths, present, src).0 == [o] + Replay(rest, next, src).0;
      CountCons(o, Replay(rest, next, src).0);
      if o == Migrated {
        HeldIgnores(rest, present, paths[0]);
      }
      HeldCons(paths[0], rest, present);
    } else {
      assert Held(paths, present) == {};
    }
  }

  /** With no path listed twice, a second run skips every path the first run
      skipped or migrated. */
  lemma MigrateAgainSkips(paths: seq<string>, present: set<string>, src: Source)
    requires Distinct(paths)
    ensures var first := Replay(paths, present, src);
      forall i :: 0 <= i < |paths| && first.0[i] != DownloadFailed && first.0[i] != UploadFailed ==>
        Replay(paths, first.1, src).0[i] == Skipped
  {
    var first := Replay(paths, present, src);
    ReplayDistinct(paths, present, src);
    ReplayDistinct(paths, first.1, src);
    ReplayComplete(paths, present, src);
    forall i | 0 <= i < |paths| && first.0[i] != DownloadFailed && first.0[i] != UploadFailed
      ensures Replay(paths, first.1, src).0[i] == Skipped
    {
      assert paths[i] in paths;
    }
  }

  /** Before the loop, the reference from position 0 is the whole reference. */
  lemma ReplayStart(paths: seq<string>, storj: set<string>, src: Source)
    ensures Replay(paths, storj, src).0 == [] + Replay(paths[0..], storj, src).0
    ensures Replay(paths, storj, src).1 == Replay(paths[0..], storj, src).1
  {
    assert paths[0..] == paths;
  }

  /** One loop step keeps the loop's relation to the reference. */
  lemma ReplayAdvance(paths: seq<string>, i: nat, storj: set<string>, store: set<string>,
                      outcomes: seq<PathOutcome>, src: Source)
    requires i < |paths|
    requires Replay(paths, storj, src).0 == outcomes + Replay(paths[i..], store, src).0
    requires Replay(paths, storj, src).1 == Replay(paths[i..], store, src).1
    ensures var o := Decide(store, src, paths[i]);
      var after := if o == Migrated then store + {paths[i]} else store;
      && Replay(paths, storj, src).0 == (outcomes + [o]) + Replay(paths[i + 1..], after, src).0
      && Replay(paths, storj, src).1 == Replay(paths[i + 1..], after, src).1
  {
    assert paths[i..][1..] == paths[i + 1..];
  }

  /** The calls never touch a key already in the target and never upload a
      path whose download raises. */
  predicate Respects(calls: seq<Call>, storj: set<string>, src: Source) {
    && (forall p, j :: p in storj && 0 <= j < |calls| ==> !Touches(calls[j], p))
    && (forall p, j :: p in src.downloadFails && 0 <= j < |calls| ==> !(calls[j].Put? && calls[j].key == p))
  }

  /** The calls of one more path keep `Respects`. */
  lemma RespectsAppend(calls: seq<Call>, added: seq<Call>, storj: set<string>, store: set<string>, src: Source,
                       path: string, o: PathOutcome)
    requires Respects(calls, storj, src) && storj <= store && o == Decide(store, src, path)
    requires forall j :: 0 <= j < |added| ==>
      added[j] == Head(path) || (o != Skipped && Touches(added[j], path) && (added[j].Put? ==> o != DownloadFailed))
    ensures Respects(calls + added, storj, src)
  {
    var all := calls + added;
    forall p, j | 0 <= j < |all|
      ensures p in storj ==> !Touches(all[j], p)
      ensures p in src.downloadFails ==> !(all[j].Put? && all[j].key == p)
    {
      if j >= |calls| {
        assert all[j] == added[j - |calls|];
      }
    }
  }

  /** Counting over an appended outcome. */
  lemma CountSnoc(os: seq<PathOutcome>, o: PathOutcome)
    ensures forall x :: CountOf(os + [o], x) == CountOf(os, x) + (if o == x then 1 else 0)
  {
    assert (os + [o])[..|os|] == os;
  }
}

=== FILE: price.dfy ===
/** Field normalisation of the ingestion step: `parse_price` and
    `normalize_field` of the current repository revision, and the older
    revision's inline `int(price.replace(",", ""))`. */
module Price {
  import opened Wrappers
  import opened Text
  import opened Json

  // ---------------------------------------------------------------------------
  // First maximal run of ASCII digits (`re.search(r'\d+', s)`)
  // ---------------------------------------------------------------------------

  predicate NoDigitIn(s: string, lo: int, hi: int)
    requires 0 <= lo && hi <= |s|
  {
    forall k :: lo <= k < hi ==> !IsDigit(s[k])
  }

  function FirstDigit(s: string, from: nat): (r: Option<nat>)
    requires from <= |s|
    ensures r.Some? ==> from <= r.value < |s| && IsDigit(s[r.value]) && NoDigitIn(s, from, r.value)
    ensures r.None? ==> NoDigitIn(s, from, |s|)
    decreases |s| - from
  {
    if from == |s| then None
    else if IsDigit(s[from]) then Some(from)
    else FirstDigit(s, from + 1)
  }

  function RunEnd(s: string, i: nat): (j: nat)
    requires i <= |s|
    ensures i <= j <= |s| && AllDigits(s[i..j])
    ensures j == |s| || !IsDigit(s[j])
    decreases |s| - i
  {
    if i < |s| && IsDigit(s[i]) then
      var j := RunEnd(s, i + 1);
      assert s[i..j] == [s[i]] + s[i + 1..j];
      j
    else i
  }

  /** `s[i..j]` is the first maximal run of digits in `s`: no digit before
      `i`, only digits up to `j`, and no digit at `j`. */
  predicate IsFirstRun(s: string, i: int, j: int) {
    && 0 <= i < j <= |s|
    && NoDigitIn(s, 0, i)
    && AllDigits(s[i..j])
    && (j == |s| || !IsDigit(s[j]))
  }

  /** The value of the first maximal digit run of `s`, if `s` has a digit. */
  function FirstNumber(s: string): (r: Option<nat>)
    ensures r.None? <==> NoDigitIn(s, 0, |s|)
    ensures r.Some? ==> exists i, j :: IsFirstRun(s, i, j) && r.value == DigitsValue(s[i..j])
  {
    match FirstDigit(s, 0)
    case None => None
    case Some(i) =>
      var j := RunEnd(s, i);
      assert s[i..j][0] == s[i];
      assert IsFirstRun(s, i, j);
      Some(DigitsValue(s[i..j]))
  }

  // ---------------------------------------------------------------------------
  // parse_price (current revision)
  // ---------------------------------------------------------------------------

  lemma NoDigitConcat(a: string, b: string)
    ensures NoDigitIn(a + b, 0, |a + b|) <==> NoDigitIn(a, 0, |a|) && NoDigitIn(b, 0, |b|)
  {
    assert forall k :: 0 <= k < |a| ==> (a + b)[k] == a[k];
    assert forall k :: 0 <= k < |b| ==> (a + b)[|a| + k] == b[k];
  }

  /** Removing commas keeps exactly the digits there were. */
  lemma {:induction false} CommaFreeDigits(s: string)
    ensures NoDigitIn(RemoveAll(s, ','), 0, |RemoveAll(s, ',')|) <==> NoDigitIn(s, 0, |s|)
  {
    if |s| > 0 {
      CommaFreeDigits(s[1..]);
      var head := if s[0] == ',' then "" else [s[0]];
      NoDigitConcat(head, RemoveAll(s[1..], ','));
      NoDigitConcat([s[0]], s[1..]);
      assert [s[0]] + s[1..] == s;
    }
  }

  /** `parse_price`: a missing or empty string is `None`; otherwise every comma
      is removed and the first digit run is read.  A string without any digit
      is `None`, never 0. */
  function ParsePrice(price: Option<string>): (r: Option<nat>)
    ensures price.None? || price == Some("") ==> r.None?
    ensures price.Some? ==> (r.Some? <==> !NoDigitIn(price.value, 0, |price.value|))
    ensures r.Some? ==> exists i, j :: IsFirstRun(RemoveAll(price.value, ','), i, j)
                                     && r.value == DigitsValue(RemoveAll(price.value, ',')[i..j])
  {
    match price
    case None => None
    case Some(s) =>
      if s == "" then None
      else
        var t := RemoveAll(s, ',');
        assert NoDigitIn(t, 0, |t|) <==> NoDigitIn(s, 0, |s|) by {
          CommaFreeDigits(s);
        }
        FirstNumber(t)
  }

  /** The converse: the first digit run of the comma-free text of a non-empty
      price string is the price read. */
  lemma ParsePriceIsFirstRun(s: string, i: int, j: int)
    requires s != "" && IsFirstRun(RemoveAll(s, ','), i, j)
    ensures ParsePrice(Some(s)) == Some(DigitsValue(RemoveAll(s, ',')[i..j]))
  {
    FirstNumberIsFirstRun(RemoveAll(s, ','), i, j);
  }

  lemma {:induction false} FirstDigitAt(t: string, from: nat, i: nat)
    requires from <= i < |t| && NoDigitIn(t, from, i) && IsDigit(t[i])
    ensures FirstDigit(t, from) == Some(i)
    decreases i - from
  {
    if from < i {
      FirstDigitAt(t, from + 1, i);
    }
  }

  lemma {:induction false} RunEndAt(t: string, i: nat, j: nat)
    requires i <= j <= |t| && AllDigits(t[i..j]) && (j == |t| || !IsDigit(t[j]))
    ensures RunEnd(t, i) == j
    decreases j - i
  {
    if i < j {
      assert t[i] == t[i..j][0];
      assert t[i + 1..j] == t[i..j][1..];
      RunEndAt(t, i + 1, j);
    }
  }

  /** Whatever first maximal digit run a text has, that run is the number
      read: the converse of the ensures of `FirstNumber`. */
  lemma FirstNumberIsFirstRun(s: string, i: int, j: int)
    requires IsFirstRun(s, i, j)
    ensures FirstNumber(s) == Some(DigitsValue(s[i..j]))
  {
    assert s[i] == s[i..j][0];
    FirstDigitAt(s, 0, i);
    RunEndAt(s, i, j);
  }

  /** A digit run after digit-free text, ended by the end of the text or by a
      character that is not a digit, is the first number; digits further on
      do not matter. */
  lemma FirstNumberOfEmbedded(p: string, g: string, q: string)
    requires NoDigitIn(p, 0, |p|)
    requires |g| > 0 && AllDigits(g)
    requires q == "" || !IsDigit(q[0])
    ensures FirstNumber(p + g + q) == Some(DigitsValue(g))
  {
    var t := p + g + q;
    assert forall k :: 0 <= k < |p| ==> t[k] == p[k];
    assert t[|p|..|p| + |g|] == g;
    if |q| > 0 {
      assert t[|p| + |g|] == q[0];
    }
    assert IsFirstRun(t, |p|, |p| + |g|);
    FirstNumberIsFirstRun(t, |p|, |p| + |g|);
  }

  /** The first digit run of a digits-only string is the whole string. */
  lemma FirstNumberAllDigits(s: string)
    requires |s| > 0 && AllDigits(s)
    ensures FirstNumber(s) == Some(DigitsValue(s))
  {
    FirstNumberOfEmbedded("", s, "");
    assert "" + s + "" == s;
  }

  /** Three digits, zero-padded, as the groups after a thousands separator. */
  function Pad3(n: nat): (s: string)
    requires n < 1000
    ensures |s| == 3 && AllDigits(s) && DigitsValue(s) == n
  {
    var d := Decimal(n);
    var s := if n < 10 then "00" + d else if n < 100 then "0" + d else d;
    assert n < 10 ==> |d| == 1;
    assert 10 <= n < 100 ==> |d| == 2 by {
      if 10 <= n < 100 {
        assert |Decimal(n / 10)| == 1;
      }
    }
    assert 100 <= n ==> |d| == 3 by {
      if 100 <= n {
        assert |Decimal(n / 10)| == 2 by { assert |Decimal(n / 100)| == 1; }
      }
    }
    DigitsValueConcat(if n < 10 then "00" else if n < 100 then "0" else "", d);
    s
  }

  /** A price as the catalog prints it: thousands separated by commas. */
  function Grouped(n: nat): (s: string)
    ensures |s| > 0 && s[0] != ','
  {
    if n < 1000 then Decimal(n) else Grouped(n / 1000) + "," + Pad3(n % 1000)
  }

  /** Dropping the separator between two groups of a printed number. */
  lemma RemoveSeparator(hi: string, lo: string)
    requires ',' !in lo
    ensures RemoveAll(hi + "," + lo, ',') == RemoveAll(hi, ',') + lo
  {
    var a := hi + ",";
    RemoveAllConcat(a, lo, ',');
    RemoveAllConcat(hi, ",", ',');
    RemoveAllAbsent(lo, ',');
    RemoveAllSeparator();
    assert RemoveAll(a, ',') == RemoveAll(hi, ',');
  }

  lemma RemoveAllSeparator()
    ensures RemoveAll(",", ',') == ""
  {
    assert ","[1..] == "";
  }

  lemma {:induction false} GroupedWithoutCommas(n: nat)
    ensures AllDigits(RemoveAll(Grouped(n), ','))
    ensures |RemoveAll(Grouped(n), ',')| > 0
    ensures DigitsValue(RemoveAll(Grouped(n), ',')) == n
  {
    if n < 1000 {
      RemoveAllAbsent(Decimal(n), ',');
    } else {
      var hi := Grouped(n / 1000);
      var lo := Pad3(n % 1000);
      GroupedWithoutCommas(n / 1000);
      assert ',' !in lo by {
        assert forall i :: 0 <= i < |lo| ==> IsDigit(lo[i]);
      }
      RemoveSeparator(hi, lo);
      var h := RemoveAll(hi, ',');
      assert Grouped(n) == hi + "," + lo;
      DigitsValueConcat(h, lo);
    }
  }

  /** A price printed with thousands separators after text with no digit (a
      currency sign) parses back to the number, whatever follows it once a
      character other than a digit or a comma ends it (a unit, a range such
      as `～2,000円`). */
  lemma ParsePriceGroupedRoundTrip(pre: string, n: nat, post: string)
    requires NoDigitIn(pre, 0, |pre|)
    requires post == "" || (post[0] != ',' && !IsDigit(post[0]))
    ensures ParsePrice(Some(pre + Grouped(n) + post)) == Some(n)
  {
    var s := pre + Grouped(n) + post;
    var p := RemoveAll(pre, ',');
    var g := RemoveAll(Grouped(n), ',');
    var q := RemoveAll(post, ',');
    RemoveAllConcat(pre + Grouped(n), post, ',');
    RemoveAllConcat(pre, Grouped(n), ',');
    GroupedWithoutCommas(n);
    assert RemoveAll(s, ',') == p + g + q;
    CommaFreeDigits(pre);
    if post != "" {
      assert q[0] == post[0];
    }
    FirstNumberOfEmbedded(p, g, q);
  }

  lemma GroupedThousands()
    ensures Grouped(1000) == "1,000" && Grouped(2000) == "2,000"
  {
    assert Pad3(0) == "000";
    assert Decimal(1) == "1" && Decimal(2) == "2";
  }

  /** Of a price range only the first price is read:
      `"1,000円～2,000円"` is 1000. */
  lemma ParsePriceRange()
    ensures ParsePrice(Some("1,000円～2,000円")) == Some(1000)
  {
    GroupedThousands();
    var post := "円～2,000円";
    assert "1,000円～2,000円" == "" + Grouped(1000) + post;
    ParsePriceGroupedRoundTrip("", 1000, post);
  }

  lemma StripCommasOf4200()
    ensures RemoveAll("4,200", ',') == "4200"
  {
    assert "4,200"[1..] == ",200" && ",200"[1..] == "200" && "200"[1..] == "00";
    assert "00"[1..] == "0" && "0"[1..] == "";
  }

  lemma StripCommasOf4200Unit()
    ensures RemoveAll("4,200~", ',') == "4200~"
  {
    assert "4,200~"[1..] == ",200~" && ",200~"[1..] == "200~" && "200~"[1..] == "00~";
    assert "00~"[1..] == "0~" && "0~"[1..] == "~" && "~"[1..] == "";
  }

  lemma ValueOf4200()
    ensures AllDigits("4200") && DigitsValue("4200") == 4200
  {
    assert "4200"[..3] == "420" && "420"[..2] == "42" && "42"[..1] == "4" && "4"[..0] == "";
  }

  /** The catalog's "4,200" reads as 4200. */
  lemma ParsePriceThousands()
    ensures ParsePrice(Some("4,200")) == Some(4200)
  {
    StripCommasOf4200();
    ValueOf4200();
    FirstNumberAllDigits("4200");
  }

  /** "0" is a price of zero, while text without digits is no price at all. */
  lemma ParsePriceZeroIsNotMissing()
    ensures ParsePrice(Some("0")) == Some(0)
    ensures ParsePrice(Some("abc")) == None
    ensures ParsePrice(Some("")) == None && ParsePrice(None) == None
  {
    assert RemoveAll("0", ',') == "0";
    assert "0"[..0] == "";
    FirstNumberAllDigits("0");
    assert NoDigitIn("abc", 0, 3);
  }

  /** `parse_price` as called on the raw JSON value: falsy is `None`; a truthy
      value that is not a string has no `replace`. */
  function ParsePriceJson(j: Json): (r: Result<Option<nat>>)
    ensures !Truthy(j) ==> r == Ok(None)
    ensures Truthy(j) && !j.Str? ==> r == Err(AttributeError)
    ensures j.Str? ==> r == Ok(ParsePrice(Some(j.s)))
  {
    if !Truthy(j) then Ok(None)
    else if j.Str? then Ok(ParsePrice(Some(j.s)))
    else Err(AttributeError)
  }

  // ---------------------------------------------------------------------------
  // normalize_field
  // ---------------------------------------------------------------------------

  predicate IsBlank(v: Json) {
    v == Null || v == Arr([]) || v == Str("")
  }

  /** `normalize_field`: `None`, `[]` and `""` all become `None`; every other
      value, including `0`, `False` and `{}`, is returned unchanged. */
  function NormalizeField(v: Json): (r: Json)
    ensures r == Null <==> IsBlank(v)
    ensures r != Null ==> r == v
  {
    if IsBlank(v) then Null else v
  }

  lemma NormalizeFieldIdempotent(v: Json)
    ensures NormalizeField(NormalizeField(v)) == NormalizeField(v)
  {
  }

  // ---------------------------------------------------------------------------
  // Older revision: int(prices.get("price", "0").replace(",", ""))
  // ---------------------------------------------------------------------------

  /** The older revision's price conversion: a missing key reads as `"0"`;
      commas are removed and the rest must be an integer numeral, otherwise
      `int()` raises `ValueError`; a non-string value has no `replace`. */
  function LegacyPrice(prices: Json, key: string): (r: Result<int>)
    ensures !prices.Obj? ==> r == Err(AttributeError)
    ensures prices.Obj? && key !in Keys(prices.fields) ==> r == Ok(0)
    ensures prices.Obj? && Lookup(prices.fields, key).Some? && !Lookup(prices.fields, key).value.Str?
      ==> r == Err(AttributeError)
    ensures prices.Obj? && Lookup(prices.fields, key).Some? && Lookup(prices.fields, key).value.Str? ==>
      var t := RemoveAll(Lookup(prices.fields, key).value.s, ',');
      && (r.Ok? <==> ParseInt(t).Some?)
      && (r.Ok? ==> Some(r.value) == ParseInt(t))
      && (r.Err? ==> r.error == ValueError)
  {
    var v :- Get(prices, key, Str("0"));
    assert RemoveAll("0", ',') == "0" && "0"[..0] == "";
    if !v.Str? then Err(AttributeError)
    else
      match ParseInt(RemoveAll(v.s, ','))
      case Some(n) => Ok(n)
      case None => Err(ValueError)
  }

  /** Both revisions read a comma-grouped catalog price the same way. */
  lemma LegacyPriceAgreesOnGrouped(n: nat, key: string)
    ensures LegacyPrice(Obj([(key, Str(Grouped(n)))]), key) == Ok(n)
    ensures ParsePrice(Some(Grouped(n))) == Some(n)
  {
    GroupedWithoutCommas(n);
    var t := RemoveAll(Grouped(n), ',');
    assert !IsSign(t[0]);
    assert ParseInt(t) == Some(n);
    var d := Obj([(key, Str(Grouped(n)))]);
    assert Keys(d.fields) == [key];
    assert Get(d, key, Str("0")) == Ok(Str(Grouped(n)));
    ParsePriceGroupedRoundTrip("", n, "");
    assert "" + Grouped(n) + "" == Grouped(n);
  }

  /** The revisions disagree on decorated prices: the older one raises where
      the newer one finds the number. */
  lemma NotANumeral()
    ensures ParseInt("4200~") == None
  {
    assert !IsDigit("4200~"[4]);
    assert "4200~"[1..][3] == '~';
  }

  /** The older revision raises on a price decorated with a unit. */
  lemma LegacyPriceRejectsDecorated()
    ensures LegacyPrice(Obj([("price", Str("4,200~"))]), "price") == Err(ValueError)
  {
    StripCommasOf4200Unit();
    NotANumeral();
    var d := Obj([("price", Str("4,200~"))]);
    assert Get(d, "price", Str("0")) == Ok(Str("4,200~"));
  }

  /** The current revision reads the number out of the same decorated price. */
  lemma ParsePriceDecorated()
    ensures ParsePrice(Some("4,200~")) == Some(4200)
  {
    StripCommasOf4200Unit();
    FirstNumberOf4200Unit();
    assert ParsePrice(Some("4,200~")) == FirstNumber("4200~");
  }

  lemma FirstNumberOf4200Unit()
    ensures FirstNumber("4200~") == Some(4200)
  {
    ValueOf4200();
    assert "4200~" == "" + "4200" + "~";
    assert NoDigitIn("~", 0, 1);
    FirstNumberOfEmbedded("", "4200", "~");
  }
}

=== FILE: storage_keys.dfy ===
/** Object keys of the three storage adapters.  Every adapter names an image
    `content_id_NN<ext>` inside a `content_id` folder, where `NN` is the
    1-based upload index formatted with `{index:02d}`:
      - S3:       `floor/content_id/content_id_NN<ext>`
      - MEGA:     `/floor/content_id/content_id_NN<ext>`
      - Supabase: `content_id/content_id_NN.jpg`
    The extension is the one `os.path.splitext` returns for the local file,
    or `.jpg` for images fetched from a URL. */
module StorageKeys {
  import opened Wrappers
  import opened Text

  // ---------------------------------------------------------------------------
  // os.path.splitext (POSIX)
  // ---------------------------------------------------------------------------

  /** Index of the last `c` in `s`, as `s.rfind(c)` (with `None` for -1). */
  function LastIndex(s: string, c: char): (r: Option<nat>)
    ensures r.Some? ==> r.value < |s| && s[r.value] == c
    ensures r.Some? ==> forall k :: r.value < k < |s| ==> s[k] != c
    ensures r.None? ==> c !in s
  {
    if |s| == 0 then None
    else if s[|s| - 1] == c then Some(|s| - 1)
    else
      var r := LastIndex(s[..|s| - 1], c);
      assert s == s[..|s| - 1] + [s[|s| - 1]];
      r
  }

  predicate AllDots(s: string, lo: nat, hi: nat)
    requires lo <= hi <= |s|
  {
    forall k :: lo <= k < hi ==> s[k] == '.'
  }

  /** The extension `os.path.splitext(path)[1]`: from the last dot of the last
      path component, unless everything before that dot in the component is
      dots (a hidden file such as `.bashrc` has no extension). */
  function Ext(path: string): (e: string)
    ensures |e| <= |path| && e == path[|path| - |e|..]
    ensures e == "" || (e[0] == '.' && '.' !in e[1..] && '/' !in e)
  {
    match LastIndex(path, '.')
    case None => ""
    case Some(d) =>
      var start := match LastIndex(path, '/') case None => 0 case Some(sep) => sep + 1;
      if start <= d && !AllDots(path, start, d) then
        var e := path[d..];
        assert forall k :: 0 <= k < |e| ==> e[k] == path[d + k];
        assert '.' !in e[1..] by {
          assert forall k :: 1 <= k < |e| ==> e[k] != '.';
        }
        e
      else ""
  }

  /** The extension of a file name `stem.x` is `.x`, whatever directories
      precede it, provided the stem's last character is an ordinary one. */
  lemma ExtOfFileName(stem: string, x: string)
    requires '.' !in x && '/' !in x
    requires |stem| > 0 && stem[|stem| - 1] != '.' && stem[|stem| - 1] != '/'
    ensures Ext(stem + "." + x) == "." + x
  {
    var p := stem + "." + x;
    var d := |stem|;
    assert p[d] == '.';
    assert forall k :: d < k < |p| ==> p[k] == x[k - d - 1];
    var li := LastIndex(p, '.');
    assert li == Some(d);
    var sep := LastIndex(p, '/');
    var start := match sep case None => 0 case Some(s) => s + 1;
    assert p[d - 1] == stem[d - 1];
    assert start <= d - 1;
    assert p[d..] == "." + x;
  }

  lemma ExtExample()
    ensures Ext("temp/page_1.png") == ".png"
  {
    var stem, x := "temp/page_1", "png";
    assert stem[|stem| - 1] == '1';
    assert '.' !in x && '/' !in x by {
      assert forall k :: 0 <= k < |x| ==> x[k] in {'p', 'n', 'g'};
    }
    ExtOfFileName(stem, x);
    assert stem + "." + x == "temp/page_1.png";
  }

  // ---------------------------------------------------------------------------
  // Keys
  // ---------------------------------------------------------------------------

  /** `f"{content_id}_{index:02d}{ext}"` */
  function FileName(contentId: string, index: nat, ext: string): string {
    contentId + "_" + Pad2(index) + ext
  }

  /** Key of an image in the S3 bucket. */
  function S3Key(floor: string, contentId: string, index: nat, ext: string): string {
    floor + "/" + contentId + "/" + FileName(contentId, index, ext)
  }

  /** Remote path of an image on the MEGA drive. */
  function MegaPath(floor: string, contentId: string, index: nat, ext: string): string {
    "/" + floor + "/" + contentId + "/" + FileName(contentId, index, ext)
  }

  /** Path of an image in the Supabase bucket (always `.jpg`). */
  function StoragePath(contentId: string, index: nat): string {
    contentId + "/" + FileName(contentId, index, ".jpg")
  }

  /** An extension as `splitext` returns it: empty or starting with a dot. */
  predicate IsExt(e: string) {
    e == "" || e[0] == '.'
  }

  /** A run of digits followed by an extension splits back uniquely. */
  lemma DigitsThenExt(a: string, e: string, b: string, f: string)
    requires AllDigits(a) && AllDigits(b) && IsExt(e) && IsExt(f)
    requires a + e == b + f
    ensures a == b && e == f
  {
    var m := if |a| <= |b| then |a| else |b|;
    if m < |a + e| {
      assert (a + e)[m] == (b + f)[m];
    }
    assert |a| == |b|;
    assert a == (a + e)[..|a|];
    assert b == (b + f)[..|b|];
    assert e == (a + e)[|a|..];
    assert f == (b + f)[|b|..];
  }

  lemma CommonPrefix(p: string, x: string, y: string)
    requires p + x == p + y
    ensures x == y
  {
    assert x == (p + x)[|p|..];
    assert y == (p + y)[|p|..];
  }

  lemma FileNameInjective(cid: string, i: nat, e: string, j: nat, f: string)
    requires IsExt(e) && IsExt(f)
    requires FileName(cid, i, e) == FileName(cid, j, f)
    ensures i == j && e == f
  {
    NameSplits(cid + "_", Pad2(i), e, Pad2(j), f);
    Pad2Injective(i, j);
  }

  /** A prefix, a run of digits and an extension split back uniquely. */
  lemma NameSplits(p: string, a: string, e: string, b: string, f: string)
    requires AllDigits(a) && AllDigits(b) && IsExt(e) && IsExt(f)
    requires p + a + e == p + b + f
    ensures a == b && e == f
  {
    assert p + a + e == p + (a + e);
    assert p + b + f == p + (b + f);
    CommonPrefix(p, a + e, b + f);
    DigitsThenExt(a, e, b, f);
  }

  /** Within one item's folder, an S3 key determines the upload index and the
      extension: distinct indices never share a key. */
  lemma S3KeyInjective(floor: string, cid: string, i: nat, e: string, j: nat, f: string)
    requires IsExt(e) && IsExt(f)
    requires S3Key(floor, cid, i, e) == S3Key(floor, cid, j, f)
    ensures i == j && e == f
  {
    var p := floor + "/" + cid + "/";
    assert S3Key(floor, cid, i, e) == p + FileName(cid, i, e);
    assert S3Key(floor, cid, j, f) == p + FileName(cid, j, f);
    CommonPrefix(p, FileName(cid, i, e), FileName(cid, j, f));
    FileNameInjective(cid, i, e, j, f);
  }

  lemma MegaPathInjective(floor: string, cid: string, i: nat, e: string, j: nat, f: string)
    requires IsExt(e) && IsExt(f)
    requires MegaPath(floor, cid, i, e) == MegaPath(floor, cid, j, f)
    ensures i == j && e == f
  {
    var p := "/" + floor + "/" + cid + "/";
    assert MegaPath(floor, cid, i, e) == p + FileName(cid, i, e);
    assert MegaPath(floor, cid, j, f) == p + FileName(cid, j, f);
    CommonPrefix(p, FileName(cid, i, e), FileName(cid, j, f));
    FileNameInjective(cid, i, e, j, f);
  }

  lemma StoragePathInjective(cid: string, i: nat, j: nat)
    requires StoragePath(cid, i) == StoragePath(cid, j)
    ensures i == j
  {
    var p := cid + "/";
    CommonPrefix(p, FileName(cid, i, ".jpg"), FileName(cid, j, ".jpg"));
    FileNameInjective(cid, i, ".jpg", j, ".jpg");
  }

  /** A concrete key: index 3 is padded to `03`. */
  lemma S3KeyExample()
    ensures S3Key("comic", "X1", 3, ".jpg") == "comic/X1/X1_03.jpg"
  {
    assert Pad2(3) == "03";
  }
}

=== FILE: storage_mega.dfy ===
/** The MEGA adapter: uploads through the MEGAcmd tools (`mega-login`,
    `mega-put -c`, `mega-logout`), run as subprocesses.  A single upload never
    raises; it returns the remote path or `""`.  The batch functions log in
    first and always log out in a `finally` block.
    The subprocesses, the HTTP fetch and the local file system are replaced by
    an environment (credentials, which commands fail, which URLs answer) and a
    state (the local files and the paths stored on the drive). */
module StorageMega {
  import opened Wrappers
  import opened Text
  import opened StorageKeys

  datatype Call =
    | Login
    | Logout
    | Put(local: string, remote: string)
    | Fetch(url: string)
    | WriteTemp(name: string)
    | RemoveTemp(name: string)

  /** `MEGA_EMAIL` / `MEGA_PASSWORD` from the environment; whether the login
      and logout commands exit non-zero, separately for the case where no
      MEGAcmd session is open and the case where one is; which remote paths
      `mega-put` fails on; which URLs download. */
  datatype Env = Env(
    email: Option<string>,
    password: Option<string>,
    loginRaises: bool,
    reloginRaises: bool,
    logoutRaises: bool,
    idleLogoutRaises: bool,
    failingPuts: set<string>,
    reachable: set<string>)

  /** The local files, the paths stored on the drive, and whether a MEGAcmd
      session is open. */
  datatype State = State(local: set<string>, drive: set<string>, session: bool)

  /** `mega-login` exits non-zero: `loginRaises` with no session open,
      `reloginRaises` inside an open one. */
  predicate LoginFails(env: Env, open: bool) {
    if open then env.reloginRaises else env.loginRaises
  }

  /** `mega-logout` exits non-zero: `logoutRaises` when it closes an open
      session, `idleLogoutRaises` when none is open. */
  predicate LogoutFails(env: Env, open: bool) {
    if open then env.logoutRaises else env.idleLogoutRaises
  }

  /** Both credentials are set and non-empty (`if not email or not password`). */
  predicate HasCredentials(env: Env) {
    env.email.Some? && |env.email.value| > 0 && env.password.Some? && |env.password.value| > 0
  }

  /** Subprocess calls made, the exception raised, if any, and whether a
      session is open afterwards. */
  datatype Step = Step(calls: seq<Call>, raised: Option<PyError>, session: bool)

  /** `mega_login()` with a session open or not: missing credentials raise
      `ValueError` before any subprocess; a failing `mega-login` raises
      `CalledProcessError` (`check=True`) and leaves the session as it was; a
      working one leaves a session open. */
  function MegaLogin(env: Env, open: bool): (s: Step)
    ensures !HasCredentials(env) ==> s == Step([], Some(ValueError), open)
    ensures HasCredentials(env) ==> s.calls == [Login]
    ensures s.raised.None? <==> HasCredentials(env) && !LoginFails(env, open)
    ensures s.raised.Some? ==> s.session == open
    ensures s.raised.None? ==> s.session
  {
    if !HasCredentials(env) then Step([], Some(ValueError), open)
    else if LoginFails(env, open) then Step([Login], Some(ProcessError), open)
    else Step([Login], None, true)
  }

  /** `mega_logout()` with a session open or not: one `mega-logout`; a
      non-zero exit raises `CalledProcessError` and leaves the session as it
      was; otherwise no session is open afterwards. */
  function MegaLogout(env: Env, open: bool): (s: Step)
    ensures s.calls == [Logout]
    ensures s.raised.None? <==> !LogoutFails(env, open)
    ensures s.raised.Some? ==> s.session == open
    ensures s.raised.None? ==> !s.session
  {
    if LogoutFails(env, open) then Step([Logout], Some(ProcessError), open)
    else Step([Logout], None, false)
  }

  /** Whether a session is open after a login attempt followed by a logout
      attempt, starting from `open`: a session is open after the login when
      one already was or the login works, and it survives only a failing
      logout. */
  function LoginLogoutSession(env: Env, open: bool): bool {
    (open || (HasCredentials(env) && !LoginFails(env, open))) && env.logoutRaises
  }

  /** The call trace ends with the one and only logout. */
  predicate LogoutOnceAtEnd(calls: seq<Call>) {
    |calls| >= 1 && calls[|calls| - 1] == Logout && Logout !in calls[..|calls| - 1]
  }

  /** What a single-file upload answers: the remote path when the file
      exists and its put succeeds, `""` otherwise. */
  function LocalReply(filepath: string, cid: string, index: nat, floor: string,
                      env: Env, local: set<string>): string
  {
    var remote := MegaPath(floor, cid, index, Ext(filepath));
    if filepath in local && remote !in env.failingPuts then remote else ""
  }

  /** One single-file upload: the calls made, the drive afterwards, the reply. */
  datatype Upload = Upload(calls: seq<Call>, drive: set<string>, path: string)

  /** `upload_local_image_to_mega(filepath, content_id, index, floor)`. */
  function UploadLocal(filepath: string, cid: string, index: nat, floor: string,
                       env: Env, st: State): (u: Upload)
    ensures var remote := MegaPath(floor, cid, index, Ext(filepath));
      && (filepath !in st.local ==> u == Upload([], st.drive, ""))
      && (filepath in st.local ==> u.calls == [Put(filepath, remote)])
      && (u.path == "" || u.path == remote)
      && (u.path != "" <==> filepath in st.local && remote !in env.failingPuts)
      && (u.path != "" ==> u.path in u.drive)
      && (u.drive == st.drive || u.drive == st.drive + {remote})
    ensures u.path == LocalReply(filepath, cid, index, floor, env, st.local)
  {
    if filepath !in st.local then Upload([], st.drive, "")
    else
      var remote := MegaPath(floor, cid, index, Ext(filepath));
      if remote in env.failingPuts then Upload([Put(filepath, remote)], st.drive, "")
      else Upload([Put(filepath, remote)], st.drive + {remote}, remote)
  }

  /** The batch reply: calls, drive afterwards, and the returned list or the
      exception that escaped. */
  datatype Batch = Batch(calls: seq<Call>, drive: set<string>, session: bool, result: Result<seq<string>>)

  /** The `finally: mega_logout()` clause, run with the session `open` or
      not: a failing logout replaces the outcome with its own exception. */
  function Finally(calls: seq<Call>, drive: set<string>, open: bool, result: Result<seq<string>>, env: Env): (b: Batch)
    ensures b.calls == calls + [Logout] && b.drive == drive
    ensures Logout !in calls ==> LogoutOnceAtEnd(b.calls)
    ensures b.result == (if LogoutFails(env, open) then Err(ProcessError) else result)
    ensures b.session <==> open && LogoutFails(env, open)
  {
    assert (calls + [Logout])[..|calls|] == calls;
    var out := MegaLogout(env, open);
    Batch(calls + out.calls, drive, out.session, if out.raised.Some? then Err(ProcessError) else result)
  }

  /** The reply of the upload numbered `n`, that of `files[n - 1]`. */
  function LocalReplyAt(files: seq<string>, cid: string, floor: string, env: Env, local: set<string>, n: nat): string {
    if 1 <= n <= |files| then LocalReply(files[n - 1], cid, n, floor, env, local) else ""
  }

  /** The replies of the uploads of `files[k..]`, numbered from `k + 1`. */
  function LocalReplies(files: seq<string>, k: nat, cid: string, floor: string,
                        env: Env, local: set<string>): (ps: seq<string>)
    requires k <= |files|
    ensures |ps| == |files| - k
  {
    Numbered(n => LocalReplyAt(files, cid, floor, env, local, n), k, |files|)
  }

  /** Reply `j` is the upload of `files[j]` under index `j + 1`. */
  lemma LocalRepliesAt(files: seq<string>, k: nat, cid: string, floor: string,
                       env: Env, local: set<string>, j: nat)
    requires k <= j < |files|
    ensures LocalReplies(files, k, cid, floor, env, local)[j - k] == LocalReply(files[j], cid, j + 1, floor, env, local)
  {
    NumberedAt(n => LocalReplyAt(files, cid, floor, env, local, n), k, |files|, j);
  }

  /** The list branch, `enumerate(file_list, start=1)`, from `files[k]` on. */
  function UploadEach(files: seq<string>, k: nat, cid: string, floor: string,
                      env: Env, st: State): (r: (seq<Call>, set<string>, seq<string>))
    requires k <= |files|
    ensures r.2 == LocalReplies(files, k, cid, floor, env, st.local)
    ensures Logout !in r.0
    ensures st.drive <= r.1
    decreases |files| - k
  {
    if k == |files| then ([], st.drive, [])
    else
      var u := UploadLocal(files[k], cid, k + 1, floor, env, st);
      var rest := UploadEach(files, k + 1, cid, floor, env, State(st.local, u.drive, st.session));
      (u.calls + rest.0, rest.1, [u.path] + rest.2)
  }

  /** What `upload_files_local_image` receives. */
  datatype FileArg = FileList(files: seq<string>) | Single(file: string) | Other

  /** The `try` body of `upload_files_local_image` after a working login:
      the calls made, the drive afterwards and the list returned. */
  function LocalBody(arg: FileArg, cid: string, floor: string, env: Env, st: State): (r: (seq<Call>, set<string>, seq<string>))
    ensures Logout !in r.0
    ensures arg.FileList? ==> r.2 == LocalReplies(arg.files, 0, cid, floor, env, st.local)
    ensures arg.Single? ==> r.2 == [UploadLocal(arg.file, cid, 1, floor, env, st).path]
    ensures arg.Other? ==> r.2 == []
  {
    match arg
    case FileList(files) => UploadEach(files, 0, cid, floor, env, st)
    case Single(file) =>
      var u := UploadLocal(file, cid, 1, floor, env, st);
      (u.calls, u.drive, [u.path])
    case Other => ([], st.drive, [])
  }

  /** `upload_files_local_image(file_list, content_id, floor)`. */
  function UploadFilesLocal(arg: FileArg, cid: string, floor: string, env: Env, st: State): (b: Batch)
    ensures LogoutOnceAtEnd(b.calls)
    ensures !HasCredentials(env) ==> b.calls == [Logout]
    ensures b.result.Ok? <==> HasCredentials(env) && !LoginFails(env, st.session) && !env.logoutRaises
    ensures b.session == LoginLogoutSession(env, st.session)
    ensures b.result.Ok? && arg.FileList? ==> |b.result.value| == |arg.files|
    ensures b.result.Ok? && arg.Single? ==>
      b.result.value == [UploadLocal(arg.file, cid, 1, floor, env, st).path]
    ensures b.result.Ok? && arg.Other? ==> b.result.value == []
  {
    var login := MegaLogin(env, st.session);
    if login.raised.Some? then Finally(login.calls, st.drive, login.session, Err(login.raised.value), env)
    else
      var body := LocalBody(arg, cid, floor, env, st);
      Finally(login.calls + body.0, body.1, true, Ok(body.2), env)
  }

  /** The list branch answers, for `files[i]`, its upload under index
      `i + 1`. */
  lemma UploadFilesLocalPaths(files: seq<string>, cid: string, floor: string, env: Env, st: State, i: nat)
    requires UploadFilesLocal(FileList(files), cid, floor, env, st).result.Ok?
    requires i < |files|
    ensures var p := MegaPath(floor, cid, i + 1, Ext(files[i]));
      UploadFilesLocal(FileList(files), cid, floor, env, st).result.value[i]
        == (if files[i] in st.local && p !in env.failingPuts then p else "")
  {
    assert UploadFilesLocal(FileList(files), cid, floor, env, st).result.value == LocalReplies(files, 0, cid, floor, env, st.local);
    LocalRepliesAt(files, 0, cid, floor, env, st.local, i);
  }

  // ---------------------------------------------------------------------------
  // Uploads from a URL
  // ---------------------------------------------------------------------------

  /** `f"temp_{content_id}_{index:02d}.jpg"` */
  function TempName(cid: string, index: nat): string {
    "temp_" + cid + "_" + Pad2(index) + ".jpg"
  }

  lemma TempNameExt(cid: string, index: nat)
    ensures Ext(TempName(cid, index)) == ".jpg"
  {
    JpgAfterDigits("temp_" + cid + "_", Pad2(index));
  }

  lemma JpgPlain()
    ensures '.' !in "jpg" && '/' !in "jpg"
  {
    var x := "jpg";
    assert forall k :: 0 <= k < |x| ==> x[k] in {'j', 'p', 'g'};
  }

  /** A name ending in a digit and `.jpg` has the extension `.jpg`. */
  lemma JpgAfterDigits(pre: string, d: string)
    requires |d| > 0 && AllDigits(d)
    ensures Ext(pre + d + ".jpg") == ".jpg"
  {
    var stem := pre + d;
    assert stem[|stem| - 1] == d[|d| - 1];
    assert IsDigit(stem[|stem| - 1]);
    var x := "jpg";
    JpgPlain();
    ExtOfFileName(stem, x);
    assert stem + "." + x == pre + d + ".jpg";
  }

  /** What a URL upload answers when it starts with the session `open` or
      not: the `.jpg` path when its own login works, the URL downloads and
      the put succeeds, `""` otherwise. */
  function ImageReply(url: string, cid: string, index: nat, floor: string, env: Env, open: bool): string {
    var p := MegaPath(floor, cid, index, ".jpg");
    if HasCredentials(env) && !LoginFails(env, open) && url in env.reachable && p !in env.failingPuts then p else ""
  }

  datatype ImageRun = ImageRun(calls: seq<Call>, st: State, path: string)

  /** The `try` body of `upload_image_to_mega`: the calls made, the state
      afterwards and the reply, before the `finally` clause runs. */
  function ImageBody(url: string, cid: string, index: nat, floor: string, env: Env, st: State): (r: ImageRun)
    ensures Logout !in r.calls
    ensures r.st.local == st.local || r.st.local == st.local + {TempName(cid, index)}
    ensures r.path == ImageReply(url, cid, index, floor, env, st.session)
    ensures r.path != "" ==> r.path in r.st.drive
    ensures st.drive <= r.st.drive
    ensures r.st.session <==> st.session || (HasCredentials(env) && !LoginFails(env, st.session))
  {
    TempNameExt(cid, index);
    var temp := TempName(cid, index);
    var login := MegaLogin(env, st.session);
    if login.raised.Some? then ImageRun(login.calls, st, "")
    else if url !in env.reachable then ImageRun(login.calls + [Fetch(url)], State(st.local, st.drive, true), "")
    else
      var local := st.local + {temp};
      var u := UploadLocal(temp, cid, index, floor, env, State(local, st.drive, true));
      ImageRun(login.calls + [Fetch(url), WriteTemp(temp)] + u.calls, State(local, u.drive, true), u.path)
  }

  /** `upload_image_to_mega(url, content_id, index, floor)`: log in, fetch,
      write the temp file, upload it; any exception gives `""`; the `finally`
      removes the temp file if it exists and logs out, swallowing a logout
      failure. */
  function UploadImage(url: string, cid: string, index: nat, floor: string, env: Env, st: State): (r: ImageRun)
    ensures LogoutOnceAtEnd(r.calls)
    ensures r.st.local == st.local - {TempName(cid, index)}
    ensures r.path == ImageReply(url, cid, index, floor, env, st.session)
    ensures r.path != "" ==> r.path in r.st.drive
    ensures st.drive <= r.st.drive
    ensures r.st.session == LoginLogoutSession(env, st.session)
  {
    var temp := TempName(cid, index);
    var body := ImageBody(url, cid, index, floor, env, st);
    var cleaned := if temp in body.st.local then body.calls + [RemoveTemp(temp)] else body.calls;
    var out := MegaLogout(env, body.st.session);
    assert (cleaned + out.calls)[..|cleaned|] == cleaned;
    ImageRun(cleaned + out.calls, State(body.st.local - {temp}, body.st.drive, out.session), body.path)
  }

  /** Whether a session is open after `n` URL uploads, starting from `open`. */
  function SessionAfter(env: Env, open: bool, n: nat): bool
    decreases n
  {
    if n == 0 then open else SessionAfter(env, LoginLogoutSession(env, open), n - 1)
  }

  /** After at least one URL upload, a session is open exactly when the
      logout fails and either one was open to begin with or a fresh login
      works; every upload's own login and logout see the same answers. */
  lemma {:induction false} SessionAfterUploads(env: Env, open: bool, n: nat)
    ensures SessionAfter(env, open, n)
      == (if n == 0 then open else env.logoutRaises && (open || (HasCredentials(env) && !env.loginRaises)))
    decreases n
  {
    if n > 0 {
      var next := LoginLogoutSession(env, open);
      SessionAfterUploads(env, next, n - 1);
    }
  }

  /** The replies of the uploads of `urls[k..]`, numbered from `k + 1`, the
      first starting with the session `open` or not. */
  function ImageReplies(urls: seq<string>, k: nat, cid: string, floor: string, env: Env, open: bool): (ps: seq<string>)
    requires k <= |urls|
    ensures |ps| == |urls| - k
    decreases |urls| - k
  {
    if k == |urls| then []
    else ([ImageReply(urls[k], cid, k + 1, floor, env, open)]
          + ImageReplies(urls, k + 1, cid, floor, env, LoginLogoutSession(env, open)))
  }

  /** Reply `j` is the upload of `urls[j]` under index `j + 1`, made with the
      session left by the `j - k` uploads before it. */
  lemma {:induction false} ImageRepliesAt(urls: seq<string>, k: nat, cid: string, floor: string, env: Env, open: bool, j: nat)
    requires k <= j < |urls|
    ensures ImageReplies(urls, k, cid, floor, env, open)[j - k]
      == ImageReply(urls[j], cid, j + 1, floor, env, SessionAfter(env, open, j - k))
    decreases j - k
  {
    var next := LoginLogoutSession(env, open);
    var rest := ImageReplies(urls, k + 1, cid, floor, env, next);
    if j > k {
      ImageRepliesAt(urls, k + 1, cid, floor, env, next, j);
      assert ([ImageReply(urls[k], cid, k + 1, floor, env, open)] + rest)[j - k] == rest[j - (k + 1)];
    }
  }

  /** The loop of `upload_files_buffer`, from `urls[k]` on, again numbering
      from 1; each upload logs in and out on its own. */
  function UploadImages(urls: seq<string>, k: nat, cid: string, floor: string,
                        env: Env, st: State): (r: (seq<Call>, State, seq<string>))
    requires k <= |urls|
    ensures r.2 == ImageReplies(urls, k, cid, floor, env, st.session)
    ensures r.1.session == SessionAfter(env, st.session, |urls| - k)
    ensures st.drive <= r.1.drive
    decreases |urls| - k
  {
    if k == |urls| then ([], st, [])
    else
      var u := UploadImage(urls[k], cid, k + 1, floor, env, st);
      var rest := UploadImages(urls, k + 1, cid, floor, env, u.st);
      (u.calls + rest.0, rest.1, [u.path] + rest.2)
  }

  /** `upload_files_buffer(file_list, content_id, floor)`: the outer login
      opens a session, each URL upload logs in inside it and logs out, and the
      outer `finally` logs out once more, with `check=True`.  With at least
      one URL the first inner logout has closed the session (or failed, which
      the outer logout then reports), so the outer logout runs with no session
      open and the batch succeeds only if that idle logout exits zero. */
  function UploadFilesBuffer(urls: seq<string>, cid: string, floor: string, env: Env, st: State): (b: Batch)
    ensures |b.calls| >= 1 && b.calls[|b.calls| - 1] == Logout
    ensures !HasCredentials(env) ==> b.calls == [Logout]
    ensures b.result.Ok? <==>
      && HasCredentials(env) && !LoginFails(env, st.session) && !env.logoutRaises
      && (|urls| == 0 || !env.idleLogoutRaises)
    ensures b.result.Ok? ==> |b.result.value| == |urls|
  {
    var login := MegaLogin(env, st.session);
    if login.raised.Some? then Finally(login.calls, st.drive, login.session, Err(login.raised.value), env)
    else
      var r := UploadImages(urls, 0, cid, floor, env, State(st.local, st.drive, true));
      SessionAfterUploads(env, true, |urls|);
      Finally(login.calls + r.0, r.1.drive, r.1.session, Ok(r.2), env)
  }

  /** Entry `i` of the buffer upload is the `.jpg` path of index `i + 1`
      when that upload's own login works, the URL downloads and its put
      succeeds, and `""` otherwise.  The first upload logs in inside the
      session the outer login opened; each later one logs in afresh, since
      the previous upload's logout closed it. */
  lemma UploadFilesBufferPaths(urls: seq<string>, cid: string, floor: string, env: Env, st: State, i: nat)
    requires UploadFilesBuffer(urls, cid, floor, env, st).result.Ok?
    requires i < |urls|
    ensures var p := MegaPath(floor, cid, i + 1, ".jpg");
      UploadFilesBuffer(urls, cid, floor, env, st).result.value[i]
        == (if urls[i] in env.reachable && p !in env.failingPuts && !LoginFails(env, i == 0) then p else "")
  {
    assert UploadFilesBuffer(urls, cid, floor, env, st).result.value
      == ImageReplies(urls, 0, cid, floor, env, true);
    ImageRepliesAt(urls, 0, cid, floor, env, true, i);
    SessionAfterUploads(env, true, i);
  }
}

=== FILE: storage_s3.dfy ===
/** The S3 image adapter: `upload_local_image_to_s3` and `upload_image_to_s3`.
    Both compute a deterministic key, probe it with `head_object`, upload only
    when the probe answers 404, and hand back a presigned URL for the key.
    The bucket, the SDK and the HTTP fetch are replaced by an environment that
    says how each external call answers; a run returns the calls it made, the
    bucket afterwards and the reply. */
module StorageS3 {
  import opened StorageKeys

  /** External calls, in the order they are made. */
  datatype Call =
    | Fetch(url: string)
    | Head(key: string)
    | Upload(key: string)
    | Presign(key: string)

  /** How `head_object` answers: from the bucket's real contents, with a
      `ClientError` carrying some other code, or with a non-SDK exception. */
  datatype HeadAnswer = Honest | Denied(code: string) | Unreachable

  /** How `generate_presigned_url` answers. */
  datatype PresignAnswer = Signed | SignClientError | SignOtherError

  datatype Env = Env(
    bucket: set<string>,
    head: HeadAnswer,
    uploadRaises: bool,
    presign: PresignAnswer)

  /** `Url(k)` is a presigned URL for key `k`; `Empty` is the `""` the adapter
      returns after logging; `Raised` is an exception escaping the adapter. */
  datatype Reply = Url(key: string) | Empty | Raised

  datatype Run = Run(calls: seq<Call>, bucket: set<string>, reply: Reply)

  /** The probe reports the key as stored (no exception from `head_object`). */
  predicate ProbeFinds(env: Env, key: string) {
    env.head.Honest? && key in env.bucket
  }

  /** The probe raises a `ClientError` whose code is `404`. */
  predicate ProbeMisses(env: Env, key: string) {
    (env.head.Honest? && key !in env.bucket) || env.head == Denied("404")
  }

  function Presigned(calls: seq<Call>, bucket: set<string>, key: string, env: Env): Run {
    var calls' := calls + [Presign(key)];
    match env.presign
    case Signed => Run(calls', bucket, Url(key))
    case SignClientError => Run(calls', bucket, Empty)
    case SignOtherError => Run(calls', bucket, Raised)
  }

  /** The probe / upload / presign tail both adapters share. */
  function Publish(key: string, env: Env): (r: Run)
    ensures |r.calls| >= 1 && r.calls[0] == Head(key)
    ensures Upload(key) in r.calls <==> ProbeMisses(env, key)
    ensures forall i :: 0 <= i < |r.calls| && r.calls[i].Upload? ==> i == 1
    ensures r.bucket == env.bucket || r.bucket == env.bucket + {key}
    ensures r.reply.Url? ==> r.reply.key == key && key in r.bucket
    ensures ProbeFinds(env, key) ==> r.bucket == env.bucket
    ensures r.reply == Url(key) <==>
      (ProbeFinds(env, key) || (ProbeMisses(env, key) && !env.uploadRaises)) && env.presign.Signed?
    ensures env.head.Unreachable? ==> r.reply == Raised
    ensures env.head.Denied? && env.head.code != "404" ==> r.reply == Empty
  {
    match env.head
    case Unreachable => Run([Head(key)], env.bucket, Raised)
    case Denied(code) =>
      if code != "404" then Run([Head(key)], env.bucket, Empty)
      else Uploaded(key, env)
    case Honest =>
      if key in env.bucket then Presigned([Head(key)], env.bucket, key, env)
      else Uploaded(key, env)
  }

  /** After a 404 probe: upload, then presign. */
  function Uploaded(key: string, env: Env): (r: Run)
    ensures |r.calls| >= 2 && r.calls[..2] == [Head(key), Upload(key)]
    ensures env.uploadRaises ==> r == Run([Head(key), Upload(key)], env.bucket, Raised)
    ensures !env.uploadRaises ==> r.bucket == env.bucket + {key}
  {
    if env.uploadRaises then Run([Head(key), Upload(key)], env.bucket, Raised)
    else Presigned([Head(key), Upload(key)], env.bucket + {key}, key, env)
  }

  /** `upload_local_image_to_s3(filepath, content_id, index, floor)`; `files`
      is the set of paths that exist locally. */
  function UploadLocalImage(files: set<string>, filepath: string, contentId: string, index: nat,
                            floor: string, env: Env): (r: Run)
    ensures filepath !in files ==> r == Run([], env.bucket, Empty)
    ensures filepath in files ==>
      r == Publish(S3Key(floor, contentId, index, Ext(filepath)), env)
  {
    if filepath !in files then Run([], env.bucket, Empty)
    else Publish(S3Key(floor, contentId, index, Ext(filepath)), env)
  }

  /** `upload_image_to_s3(url, content_id, index, floor)`; `fetched` says
      whether the download succeeded. */
  function UploadImage(url: string, fetched: bool, contentId: string, index: nat,
                       floor: string, env: Env): (r: Run)
    ensures |r.calls| >= 1 && r.calls[0] == Fetch(url)
    ensures !fetched ==> r == Run([Fetch(url)], env.bucket, Empty)
    ensures fetched ==>
      var p := Publish(S3Key(floor, contentId, index, ".jpg"), env);
      r == Run([Fetch(url)] + p.calls, p.bucket, p.reply)
  {
    if !fetched then Run([Fetch(url)], env.bucket, Empty)
    else
      var p := Publish(S3Key(floor, contentId, index, ".jpg"), env);
      Run([Fetch(url)] + p.calls, p.bucket, p.reply)
  }

  // ---------------------------------------------------------------------------
  // Properties
  // ---------------------------------------------------------------------------

  /** Uploading the same image again, against the bucket the first run left
      and an honest probe, uploads nothing and keeps the bucket as it is: the
      existence check makes the adapter idempotent. */
  lemma {:induction false} UploadLocalIdempotent(files: set<string>, filepath: string, cid: string,
                                                 index: nat, floor: string, env: Env, env2: Env)
    requires UploadLocalImage(files, filepath, cid, index, floor, env).reply.Url?
    requires env2.bucket == UploadLocalImage(files, filepath, cid, index, floor, env).bucket
    requires env2.head.Honest?
    ensures var r2 := UploadLocalImage(files, filepath, cid, index, floor, env2);
      r2.bucket == env2.bucket && (forall c :: c in r2.calls ==> !c.Upload?)
  {
    var key := S3Key(floor, cid, index, Ext(filepath));
    var r2 := UploadLocalImage(files, filepath, cid, index, floor, env2);
    assert key in env2.bucket;
    assert r2.calls == [Head(key), Presign(key)];
  }

  /** The same for images fetched from a URL. */
  lemma {:induction false} UploadImageIdempotent(url: string, cid: string, index: nat, floor: string,
                                                 env: Env, env2: Env)
    requires UploadImage(url, true, cid, index, floor, env).reply.Url?
    requires env2.bucket == UploadImage(url, true, cid, index, floor, env).bucket
    requires env2.head.Honest?
    ensures var r2 := UploadImage(url, true, cid, index, floor, env2);
      r2.bucket == env2.bucket && (forall c :: c in r2.calls ==> !c.Upload?)
  {
    var key := S3Key(floor, cid, index, ".jpg");
    var r2 := UploadImage(url, true, cid, index, floor, env2);
    assert key in env2.bucket;
    assert r2.calls == [Fetch(url), Head(key), Presign(key)];
  }

  /** Two images of one item uploaded under different indices land on
      different keys, so neither overwrites or shadows the other. */
  lemma DistinctIndicesDistinctKeys(filepath1: string, filepath2: string, cid: string,
                                    i: nat, j: nat, floor: string)
    requires i != j
    ensures S3Key(floor, cid, i, Ext(filepath1)) != S3Key(floor, cid, j, Ext(filepath2))
  {
    if S3Key(floor, cid, i, Ext(filepath1)) == S3Key(floor, cid, j, Ext(filepath2)) {
      S3KeyInjective(floor, cid, i, Ext(filepath1), j, Ext(filepath2));
    }
  }
}

=== FILE: storage_supabase.dfy ===
/** The Supabase image adapter `upload_image_to_storage`: fetch the image,
    list the item's folder, upload under `content_id/content_id_NN.jpg`
    unless a file of that name is listed, and return the storage path.  Every
    failure inside the adapter is caught and turned into `""`. */
module StorageSupabase {
  import opened StorageKeys

  datatype Call = Fetch(url: string) | List(folder: string) | Upload(path: string)

  /** `bucket` holds the stored paths; listing `content_id/` shows the file
      names of the paths under that folder. */
  datatype Env = Env(fetched: bool, bucket: set<string>, listRaises: bool, uploadRaises: bool)

  datatype Run = Run(calls: seq<Call>, bucket: set<string>, path: string)

  /** `upload_image_to_storage(url, content_id, index)`. */
  function UploadImageToStorage(url: string, contentId: string, index: nat, env: Env): (r: Run)
    ensures |r.calls| >= 1 && r.calls[0] == Fetch(url)
    ensures r.path == "" || r.path == StoragePath(contentId, index)
    ensures r.path == "" <==>
      !env.fetched || env.listRaises || (StoragePath(contentId, index) !in env.bucket && env.uploadRaises)
    ensures Upload(StoragePath(contentId, index)) in r.calls <==>
      env.fetched && !env.listRaises && StoragePath(contentId, index) !in env.bucket
    ensures r.path != "" ==> r.path in r.bucket
    ensures r.bucket == env.bucket || r.bucket == env.bucket + {StoragePath(contentId, index)}
  {
    var path := StoragePath(contentId, index);
    if !env.fetched then Run([Fetch(url)], env.bucket, "")
    else
      var listed := [Fetch(url), List(contentId + "/")];
      if env.listRaises then Run(listed, env.bucket, "")
      else if path in env.bucket then Run(listed, env.bucket, path)
      else if env.uploadRaises then Run(listed + [Upload(path)], env.bucket, "")
      else Run(listed + [Upload(path)], env.bucket + {path}, path)
  }

  /** A second upload of the same image, against the bucket the first one
      left, returns the same path without uploading: existing files are
      skipped, not overwritten. */
  lemma {:induction false} UploadIdempotent(url: string, cid: string, index: nat, env: Env, env2: Env)
    requires UploadImageToStorage(url, cid, index, env).path != ""
    requires env2.bucket == UploadImageToStorage(url, cid, index, env).bucket
    requires env2.fetched && !env2.listRaises
    ensures var r2 := UploadImageToStorage(url, cid, index, env2);
      r2.path == UploadImageToStorage(url, cid, index, env).path
      && r2.bucket == env2.bucket
      && (forall c :: c in r2.calls ==> !c.Upload?)
  {
    var path := StoragePath(cid, index);
    assert path in env2.bucket;
    assert UploadImageToStorage(url, cid, index, env2).calls == [Fetch(url), List(cid + "/")];
  }
}

=== FILE: text.dfy ===
/** String helpers standing for the Python `str` operations the pipeline uses:
    ASCII digit runs and `int()`, `{n:02d}` formatting, `replace`, `split`,
    `strip`, `startswith`, `in`, `lower` and the literal `\n` unescaping. */
module Text {
  import opened Wrappers

  // ---------------------------------------------------------------------------
  // Digits and decimal numerals
  // ---------------------------------------------------------------------------

  predicate IsDigit(c: char) {
    '0' <= c <= '9'
  }

  predicate AllDigits(s: string) {
    forall i :: 0 <= i < |s| ==> IsDigit(s[i])
  }

  function DigitVal(c: char): nat
    requires IsDigit(c)
  {
    c as int - '0' as int
  }

  function DigitChar(d: nat): (c: char)
    requires d < 10
    ensures IsDigit(c) && DigitVal(c) == d
  {
    ('0' as int + d) as char
  }

  /** The value of a run of ASCII digits, most significant first. */
  function DigitsValue(s: string): nat
    requires AllDigits(s)
  {
    if |s| == 0 then 0 else 10 * DigitsValue(s[..|s| - 1]) + DigitVal(s[|s| - 1])
  }

  function Pow10(n: nat): (p: nat)
    ensures p >= 1
  {
    if n == 0 then 1 else 10 * Pow10(n - 1)
  }

  lemma AllDigitsConcat(a: string, b: string)
    requires AllDigits(a) && AllDigits(b)
    ensures AllDigits(a + b)
  {
  }

  /** The arithmetic step of appending one digit. */
  lemma ShiftDigit(x: int, p: int, y: int, d: int)
    ensures 10 * (x * p + y) + d == x * (10 * p) + (10 * y + d)
  {
  }

  /** Reading two digit runs one after the other. */
  lemma {:induction false} DigitsValueConcat(a: string, b: string)
    requires AllDigits(a) && AllDigits(b)
    ensures AllDigits(a + b)
    ensures DigitsValue(a + b) == DigitsValue(a) * Pow10(|b|) + DigitsValue(b)
  {
    AllDigitsConcat(a, b);
    if |b| == 0 {
      assert a + b == a;
    } else {
      var b' := b[..|b| - 1];
      var d := DigitVal(b[|b| - 1]);
      assert AllDigits(b');
      AllDigitsConcat(a, b');
      assert (a + b)[..|a + b| - 1] == a + b';
      assert (a + b)[|a + b| - 1] == b[|b| - 1];
      DigitsValueConcat(a, b');
      ShiftDigit(DigitsValue(a), Pow10(|b'|), DigitsValue(b'), d);
    }
  }

  /** The decimal numeral of `n` (Python `str(n)` for a non-negative int). */
  function Decimal(n: nat): (s: string)
    ensures 1 <= |s| && AllDigits(s)
    ensures DigitsValue(s) == n
    ensures n >= 10 ==> |s| >= 2
    ensures n > 0 ==> s[0] != '0'
  {
    if n < 10 then [DigitChar(n)]
    else
      var s := Decimal(n / 10) + [DigitChar(n % 10)];
      assert s[..|s| - 1] == Decimal(n / 10);
      s
  }

  /** Python's `f"{n:02d}"` for a non-negative index: at least two digits,
      padded with one leading zero when the numeral has a single digit. */
  function Pad2(n: nat): (s: string)
    ensures |s| >= 2 && AllDigits(s)
    ensures DigitsValue(s) == n
    ensures |s| > 2 ==> s[0] != '0'
  {
    if n < 10 then
      var s := ['0', DigitChar(n)];
      assert s[..1] == ['0'] && ['0'][..0] == [];
      s
    else Decimal(n)
  }

  lemma Pad2Injective(i: nat, j: nat)
    requires Pad2(i) == Pad2(j)
    ensures i == j
  {
  }

  // ---------------------------------------------------------------------------
  // Python int() on a string
  // ---------------------------------------------------------------------------

  predicate IsSign(c: char) {
    c == '+' || c == '-'
  }

  /** Python `int(s)` restricted to an optional sign followed by ASCII digits;
      `None` is the `ValueError` the source would raise. */
  function ParseInt(s: string): (r: Option<int>)
    ensures r.Some? ==> |s| > 0
    ensures r.Some? ==> forall k :: 0 < k < |s| ==> IsDigit(s[k])
  {
    if |s| > 1 && IsSign(s[0]) && AllDigits(s[1..]) then
      var v: int := DigitsValue(s[1..]);
      Some(if s[0] == '-' then -v else v)
    else if |s| > 0 && AllDigits(s) then Some(DigitsValue(s))
    else None
  }

  /** Python `str(i)` for any int. */
  function IntToString(i: int): string {
    if i < 0 then "-" + Decimal(-i) else Decimal(i)
  }

  lemma ParseIntRoundTrip(i: int)
    ensures ParseInt(IntToString(i)) == Some(i)
  {
    if i < 0 {
      var s := IntToString(i);
      assert s[1..] == Decimal(-i);
    }
  }

  // ---------------------------------------------------------------------------
  // replace(c, "")
  // ---------------------------------------------------------------------------

  /** `s.replace(c, "")` for a single character `c`. */
  function RemoveAll(s: string, c: char): (r: string)
    ensures c !in r
    ensures |r| <= |s|
  {
    if |s| == 0 then ""
    else (if s[0] == c then "" else [s[0]]) + RemoveAll(s[1..], c)
  }

  /** Removing a character that does not occur changes nothing. */
  lemma {:induction false} RemoveAllAbsent(s: string, c: char)
    requires c !in s
    ensures RemoveAll(s, c) == s
  {
    if |s| > 0 {
      assert c !in s[1..];
      RemoveAllAbsent(s[1..], c);
    }
  }

  /** Removal works piecewise, so the kept characters stay in order. */
  lemma {:induction false} RemoveAllConcat(a: string, b: string, c: char)
    ensures RemoveAll(a + b, c) == RemoveAll(a, c) + RemoveAll(b, c)
  {
    if |a| > 0 {
      assert (a + b)[1..] == a[1..] + b;
      RemoveAllConcat(a[1..], b, c);
    } else {
      assert a + b == b;
    }
  }

  // ---------------------------------------------------------------------------
  // split(c) and its inverse join
  // ---------------------------------------------------------------------------

  function Join(parts: seq<string>, c: char): string
    requires |parts| >= 1
  {
    if |parts| == 1 then parts[0] else parts[0] + [c] + Join(parts[1..], c)
  }

  /** Python `s.split(c)` for a one-character separator. */
  function Split(s: string, c: char): (parts: seq<string>)
    ensures |parts| >= 1
    ensures forall i :: 0 <= i < |parts| ==> c !in parts[i]
  {
    if |s| == 0 then [""]
    else if s[0] == c then [""] + Split(s[1..], c)
    else
      var p := Split(s[1..], c);
      [[s[0]] + p[0]] + p[1..]
  }

  lemma {:induction false} JoinSplit(s: string, c: char)
    ensures Join(Split(s, c), c) == s
  {
    if |s| == 0 {
    } else if s[0] == c {
      JoinSplit(s[1..], c);
      assert Split(s, c)[1..] == Split(s[1..], c);
    } else {
      var p := Split(s[1..], c);
      JoinSplit(s[1..], c);
      var q := [[s[0]] + p[0]] + p[1..];
      assert q[1..] == p[1..];
      if |p| == 1 {
        assert Join(q, c) == [s[0]] + p[0];
      } else {
        assert Join(q, c) == [s[0]] + p[0] + [c] + Join(p[1..], c);
        assert Join(p, c) == p[0] + [c] + Join(p[1..], c);
      }
    }
  }

  lemma {:induction false} SplitNoSeparator(s: string, c: char)
    requires c !in s
    ensures Split(s, c) == [s]
  {
    if |s| > 0 {
      assert c !in s[1..];
      SplitNoSeparator(s[1..], c);
      assert [s[0]] + s[1..] == s;
    }
  }

  /** A separator-free first piece splits off on its own. */
  lemma {:induction false} SplitFirstPart(a: string, rest: string, c: char)
    requires c !in a
    ensures Split(a + [c] + rest, c) == [a] + Split(rest, c)
  {
    var s := a + [c] + rest;
    if |a| == 0 {
      assert s == [c] + rest;
      assert s[1..] == rest;
    } else {
      assert s[1..] == a[1..] + [c] + rest;
      assert c !in a[1..];
      SplitFirstPart(a[1..], rest, c);
      assert [a[0]] + a[1..] == a;
    }
  }

  function Last<T>(xs: seq<T>): T
    requires |xs| > 0
  {
    xs[|xs| - 1]
  }

  /** The last piece of a split is whatever follows the last separator. */
  lemma {:induction false} SplitLast(a: string, b: string, c: char)
    requires c !in b
    ensures Last(Split(a + [c] + b, c)) == b
    ensures |Split(a + [c] + b, c)| >= 2
  {
    var s := a + [c] + b;
    if |a| == 0 {
      assert s == [c] + b;
      assert s[1..] == b;
      SplitNoSeparator(b, c);
    } else {
      assert s[1..] == a[1..] + [c] + b;
      SplitLast(a[1..], b, c);
    }
  }

  // ---------------------------------------------------------------------------
  // strip()
  // ---------------------------------------------------------------------------

  /** The characters Python's `str.isspace` accepts and `strip()` removes. */
  predicate IsSpace(c: char) {
    || ('\t' <= c <= '\r')
    || ('\U{1C}' <= c <= ' ')
    || c == '\U{85}' || c == '\U{A0}' || c == '\U{1680}'
    || ('\U{2000}' <= c <= '\U{200A}')
    || c == '\U{2028}' || c == '\U{2029}' || c == '\U{202F}' || c == '\U{205F}' || c == '\U{3000}'
  }

  predicate AllSpace(s: string) {
    forall i :: 0 <= i < |s| ==> IsSpace(s[i])
  }

  function StripLeft(s: string): (r: string)
    ensures |r| <= |s| && r == s[|s| - |r|..]
    ensures AllSpace(s[..|s| - |r|])
    ensures r == "" || !IsSpace(r[0])
  {
    if |s| > 0 && IsSpace(s[0]) then
      var r := StripLeft(s[1..]);
      assert s[..|s| - |r|] == [s[0]] + s[1..][..|s| - 1 - |r|];
      r
    else s
  }

  function StripRight(s: string): (r: string)
    ensures |r| <= |s| && r == s[..|r|]
    ensures AllSpace(s[|r|..])
    ensures r == "" || !IsSpace(r[|r| - 1])
  {
    if |s| > 0 && IsSpace(s[|s| - 1]) then
      var r := StripRight(s[..|s| - 1]);
      assert s[|r|..] == s[..|s| - 1][|r|..] + [s[|s| - 1]];
      r
    else s
  }

  /** Python `s.strip()`: drops leading and trailing whitespace only. */
  function Strip(s: string): (r: string)
    ensures |r| <= |s|
    ensures r == "" || (!IsSpace(r[0]) && !IsSpace(r[|r| - 1]))
  {
    StripRight(StripLeft(s))
  }

  lemma {:induction false} StripLeftPadded(w: string, t: string)
    requires AllSpace(w)
    requires t == "" || !IsSpace(t[0])
    ensures StripLeft(w + t) == t
  {
    if |w| > 0 {
      assert (w + t)[1..] == w[1..] + t;
      StripLeftPadded(w[1..], t);
    } else {
      assert w + t == t;
    }
  }

  lemma {:induction false} StripRightPadded(t: string, w: string)
    requires AllSpace(w)
    requires t == "" || !IsSpace(t[|t| - 1])
    ensures StripRight(t + w) == t
  {
    if |w| > 0 {
      assert (t + w)[..|t + w| - 1] == t + w[..|w| - 1];
      StripRightPadded(t, w[..|w| - 1]);
    } else {
      assert t + w == t;
    }
  }

  /** Surrounding any whitespace-trimmed text with whitespace and stripping
      gives the text back. */
  lemma StripPadded(w1: string, t: string, w2: string)
    requires AllSpace(w1) && AllSpace(w2)
    requires t == "" || (!IsSpace(t[0]) && !IsSpace(t[|t| - 1]))
    ensures Strip(w1 + t + w2) == t
  {
    assert w1 + t + w2 == w1 + (t + w2);
    if t == "" {
      assert t + w2 == w2;
      StripLeftPadded(w1 + w2, "");
      assert w1 + w2 + "" == w1 + w2;
    } else {
      assert (t + w2)[0] == t[0];
      StripLeftPadded(w1, t + w2);
      StripRightPadded(t, w2);
    }
  }

  lemma StripIdempotent(s: string)
    ensures Strip(Strip(s)) == Strip(s)
  {
    var t := Strip(s);
    StripPadded("", t, "");
    assert "" + t + "" == t;
  }

  // ---------------------------------------------------------------------------
  // startswith, substring search
  // ---------------------------------------------------------------------------

  predicate StartsWith(s: string, p: string) {
    |p| <= |s| && s[..|p|] == p
  }

  predicate OccursAt(s: string, pat: string, i: int) {
    0 <= i && i + |pat| <= |s| && s[i..i + |pat|] == pat
  }

  /** Index of the first occurrence of `pat` in `s` at or after `from`, as
      Python's `str.find(pat, from)` (with `None` for -1). */
  function FindFrom(s: string, pat: string, from: nat): (r: Option<nat>)
    requires |pat| > 0
    ensures r.Some? ==> from <= r.value && OccursAt(s, pat, r.value)
    ensures r.Some? ==> forall k :: from <= k < r.value ==> !OccursAt(s, pat, k)
    ensures r.None? ==> forall k :: from <= k ==> !OccursAt(s, pat, k)
    decreases |s| - from
  {
    if from + |pat| > |s| then None
    else if OccursAt(s, pat, from) then Some(from)
    else FindFrom(s, pat, from + 1)
  }

  /** Python `pat in s` for a non-empty pattern. */
  predicate Contains(s: string, pat: string)
    requires |pat| > 0
  {
    FindFrom(s, pat, 0).Some?
  }

  // ---------------------------------------------------------------------------
  // lower()
  // ---------------------------------------------------------------------------

  function LowerChar(c: char): char {
    if 'A' <= c <= 'Z' then (c as int + 32) as char else c
  }

  /** `s.lower()` on the ASCII letters. */
  function LowerAscii(s: string): (r: string)
    ensures |r| == |s|
    ensures forall i :: 0 <= i < |s| ==> r[i] == LowerChar(s[i])
  {
    if |s| == 0 then "" else [LowerChar(s[0])] + LowerAscii(s[1..])
  }

  // ---------------------------------------------------------------------------
  // replace("\\n", "\n")
  // ---------------------------------------------------------------------------

  /** A literal backslash immediately followed by `n` starts at `i`. */
  predicate EscapeAt(s: string, i: int) {
    0 <= i && i + 1 < |s| && s[i] == '\\' && s[i + 1] == 'n'
  }

  predicate HasEscapedNewline(s: string) {
    exists i :: 0 <= i < |s| && EscapeAt(s, i)
  }

  /** Python `s.replace("\\n", "\n")`: every two-character sequence backslash,
      `n` (scanning left to right) becomes one newline character. */
  function Unescape(s: string): (r: string)
    ensures |r| <= |s|
    ensures |s| > 0 ==> |r| > 0 && r[0] == (if EscapeAt(s, 0) then '\n' else s[0])
  {
    if |s| == 0 then ""
    else if EscapeAt(s, 0) then ['\n'] + Unescape(s[2..])
    else [s[0]] + Unescape(s[1..])
  }

  /** After the conversion no literal backslash-n pair is left. */
  lemma {:induction false} UnescapeLeavesNoEscape(s: string)
    ensures !HasEscapedNewline(Unescape(s))
  {
    if |s| > 0 {
      var r := Unescape(s);
      var tail := if EscapeAt(s, 0) then s[2..] else s[1..];
      UnescapeLeavesNoEscape(tail);
      var rt := Unescape(tail);
      assert r == [r[0]] + rt;
      forall i | 0 <= i < |r|
        ensures !EscapeAt(r, i)
      {
        if i == 0 {
          if r[0] == '\\' && |r| > 1 {
            assert tail == s[1..] && |tail| > 0;
            assert rt[0] == r[1];
            assert rt[0] == (if EscapeAt(tail, 0) then '\n' else tail[0]);
          }
        } else {
          assert r[i] == rt[i - 1];
          assert !EscapeAt(rt, i - 1);
        }
      }
    }
  }

  /** The conversion changes a string exactly when it holds a literal
      backslash-n pair; otherwise it is the identity. */
  lemma {:induction false} UnescapeIdentity(s: string)
    ensures Unescape(s) == s <==> !HasEscapedNewline(s)
    ensures HasEscapedNewline(s) ==> |Unescape(s)| < |s|
  {
    if |s| > 0 {
      if EscapeAt(s, 0) {
        assert |Unescape(s)| < |s|;
      } else {
        UnescapeIdentity(s[1..]);
        if HasEscapedNewline(s) {
          var i :| 0 <= i < |s| && EscapeAt(s, i);
          assert i != 0;
          assert s[1..][i - 1] == s[i] && s[1..][i] == s[i + 1];
          assert EscapeAt(s[1..], i - 1);
        }
        if HasEscapedNewline(s[1..]) {
          var i :| 0 <= i < |s[1..]| && EscapeAt(s[1..], i);
          assert s[1..][i] == s[i + 1] && s[1..][i + 1] == s[i + 2];
          assert EscapeAt(s, i + 1);
        }
        assert s == [s[0]] + s[1..];
      }
    }
  }
}

=== FILE: wrappers.dfy ===
/** Failure-compatible wrappers shared by every module of the model.
    `Option` stands for Python's `None`-or-value returns and `Result` for a
    computation that may raise one of the Python exceptions the source meets. */
module Wrappers {

  datatype Option<+T> = None | Some(value: T) {

    predicate IsFailure() {
      None?
    }

    function PropagateFailure<U>(): Option<U>
      requires None?
    {
      None
    }

    function Extract(): T
      requires Some?
    {
      value
    }

    function GetOr(default: T): T {
      match this
      case Some(v) => v
      case None => default
    }
  }

  /** The exception kinds the modelled code can raise.  `ApiError` is the
      plain `Exception("API error: ...")` of the catalog client and
      `ProcessError` a failed subprocess; `ClientError` is the storage SDK's. */
  datatype PyError =
    | KeyError
    | TypeError
    | AttributeError
    | IndexError
    | ValueError
    | RuntimeError
    | ApiError
    | ProcessError
    | ClientError
    | RequestError
    | StoreError

  datatype Result<+T> = Ok(value: T) | Err(error: PyError) {

    predicate IsFailure() {
      Err?
    }

    function PropagateFailure<U>(): Result<U>
      requires Err?
    {
      Err(error)
    }

    function Extract(): T
      requires Ok?
    {
      value
    }
  }

  /** `[f(x) for x in xs[k:]]` where `f` may raise: the first failure
      propagates, otherwise one result per element, in order. */
  function MapResult<X, T>(xs: seq<X>, k: nat, f: X -> Result<T>): (r: Result<seq<T>>)
    requires k <= |xs|
    ensures r.Ok? <==> forall j :: k <= j < |xs| ==> f(xs[j]).Ok?
    ensures r.Ok? ==> |r.value| == |xs| - k
    ensures r.Ok? ==> forall i :: 0 <= i < |r.value| ==> Ok(r.value[i]) == f(xs[k + i])
    ensures r.Err? ==> exists j :: k <= j < |xs| && f(xs[j]) == Err(r.error)
    decreases |xs| - k
  {
    if k == |xs| then Ok([])
    else
      match f(xs[k])
      case Err(e) => Err(e)
      case Ok(y) =>
        match MapResult(xs, k + 1, f)
        case Err(e) => Err(e)
        case Ok(rest) => Ok([y] + rest)
  }

  /** `[f(n) for n in range(k + 1, m + 1)]`: values numbered from `k + 1`. */
  function Numbered<T>(f: nat -> T, k: nat, m: nat): (r: seq<T>)
    requires k <= m
    ensures |r| == m - k
    decreases m - k
  {
    if k == m then [] else [f(k + 1)] + Numbered(f, k + 1, m)
  }

  /** Entry `j - k` of the numbered values is `f(j + 1)`. */
  lemma {:induction false} NumberedAt<T>(f: nat -> T, k: nat, m: nat, j: nat)
    requires k <= j < m
    ensures Numbered(f, k, m)[j - k] == f(j + 1)
    decreases j - k
  {
    if j > k {
      NumberedAt(f, k + 1, m, j);
    }
  }
}
